=== FILE: README.md ===
# Game-rule core of a 2D action platformer, modelled in Dafny

This project models the game rules of a Unity 2D action platformer. It
covers:

- the player's health and mana (`PlayerHealth`);
- the two bosses of the boss arena, the Snake and the Hellhound;
- the boss fight's end (`BossFightManager`);
- the three spawners: the arena's minion spawner, the Hellhound spawner and
  the first level's wave spawner;
- the two dialogue systems: the portrait dialogue box (`DialogueManager`)
  and the trigger-started text panel (`Dialogue`);
- every regular enemy: SkeletonWarrior, Goblin, Bird, Face, SkullBat,
  Flying2, FloatingSword, and the Soul and SoulHorn casters.

Each C# class becomes one Dafny module with an immutable `State`. Its
methods become pure functions from state (plus what the frame observes) to
a new state, plus what the frame started: coroutines, strikes, mana
payouts. The shared concepts live in `Common`:

- the `isDead` latch and the wound every `TakeDamage` applies;
- mana payouts and the kill bounty;
- facing with a deadzone, and detect/strike ranges;
- the `foreach` over an overlap query's colliders;
- the "a missing boss counts as down" rule.

Coroutines are modelled the way the engine runs them. `StartCoroutine` runs
the body synchronously up to its first `yield`; the part after a wait is a
separate function (for example `AttackEnd` or `FinishWake`) that an event
triggers. Physics queries, `Random.value`, `Time.deltaTime` and the engine's
object lookups are inputs. A destroyed object reads as null. An exception
abandons the coroutine or message it was thrown in: the model records this
as a `threw` flag or a stuck phase and keeps the state as the engine leaves
it. Event sequences (`Run`) let the lemmas state properties across many
frames. These include the one-at-a-time latches, the death latch, the
at-most-once spawns and scene loads, and the invariants of the dialogue
boxes and the minion spawner.

Four loops are modelled as methods and proved equal to independent
recursive definitions:

- `Hellhound.FindNearestSnake` equals `Nearest`;
- `WaveSpawner.SpawnWaves` equals `Plan`;
- `SkullBat.ScanObstacle` equals `FirstHit`;
- `FloatingSword.Dash` equals `Reached` and `Elapsed`.

Some behaviours of the code as written are stated as lemmas:

- A null Hellhound counts as dead, so killing the Snake before the
  Hellhound appears ends the fight (`EndsBeforeHoundSpawns`).
- A minion spawner whose own loop saw both bosses down hides itself
  without destroying its minions; the fight's shutdown only finds active
  spawners, so those minions stay alive (`StoppedKeepsMinions`).
- A Flying2 whose Shroomy is destroyed in its grip never stops carrying and
  never attacks (`StrandedCarrier`).
- A Flying2 without a carry point leaves its Shroomy disabled for good
  (`MissingCarryPointDisablesShroomy`).
- `Dialogue` with no lines gets stuck open (`NoLinesStuck`).
- An empty `DialogueManager` line is never typed, so the key press that
  reaches it passes over it and every empty line after it in the same
  frame (`EmptyLinesPassed`).
- The key press that advances a `DialogueManager` line also skips the
  typing of the next line (`KeySkipsNextLine`).
- A second `DialogueManager.StartDialogue` while a dialogue runs leaves
  the earlier line coroutine running on the new lines, so one key press
  passes over two new lines (`RestartSkipsLines`) or closes a new
  two-line dialogue (`RestartClosesEarly`).
- `Dialogue` hides its own object in `Start`, so its trigger never fires
  and the panel never shows unless something else calls `StartDialogue`
  (`NeverShown`).
- A Soul without a fire point fires nothing after its first charge
  (`StuckNeverFiresAgain`).
- A Soul fan of one beam flies at `-spread/2`, not straight ahead
  (`LoneBeamOffCentre`).
- The chasers' `IsGroundAhead` and `IsGrounded` ask the same overlap
  question, so a gap alone never makes them jump (`GapNeverJumps`).

## Model

| member | source | states |
|---|---|---|
| Common.PlayerReward | Assets/MyScripts/Bird.cs:157-179 | mana is paid exactly when the attacker carries the player's health component, and it is the given amount |
| Common.AnyPlayerReward | Assets/MyScripts/Snake.cs:242-262 | mana is paid exactly when some player exists, and it is the given amount |
| Common.Spawned | Assets/MyScripts/Snake.cs:59-69 | an enemy starts alive with its maximum health |
| Common.Die | Assets/MyScripts/Snake.cs:278-288 | dying sets the latch and keeps the health; a second death changes nothing |
| Common.Wound | Assets/MyScripts/Goblin.cs:169-189 | a dead enemy ignores damage; a live one loses exactly the damage and is dead exactly when its health reaches 0 or below |
| Common.DeathIsFinal | Assets/MyScripts/Snake.cs:242-262 | once dead, no sequence of hits changes the enemy |
| Common.SurvivorHealth | Assets/MyScripts/Snake.cs:242-262 | an enemy that survives a sequence of hits was alive before it and has lost exactly their sum |
| Common.KilledIff | Assets/MyScripts/Snake.cs:242-262 | a live enemy is dead after a sequence of hits exactly when some prefix of the hits sums to at least its health |
| Common.Bounty | Assets/MyScripts/Face.cs:143-193 | the kill bounty is paid exactly on the hit that kills a live enemy, when the player dealt it, and it is the configured reward |
| Common.BountyPaidOnce | Assets/MyScripts/Face.cs:173-193 | over any sequence of strikes the bounty is paid at most once, and never to an enemy already dead |
| Common.Turn | Assets/MyScripts/Snake.cs:217-228 | the facing changes only when the player is beyond the deadzone on the other side, and then always turns towards the player |
| Common.TurnHysteresis | Assets/MyScripts/Snake.cs:217-228 | with a non-negative deadzone the facing holds inside the band, follows the player outside it, and turning twice is the same as once |
| Common.Classify | Assets/MyScripts/SkeletonWarrior.cs:51-83 | the three range cases (away, approaching, close) partition the distances by the detect radius and the strike range |
| Common.MeleeSweep | Assets/MyScripts/Bird.cs:140-151 | one blow of the given damage and mana per collider that has a health component (skipping the attacker when asked), and no blow for anything else; distinct colliders take one blow each |
| Common.Sign | Assets/MyScripts/SkeletonWarrior.cs:85-97 | the sign is 1 for zero and positive values and -1 for negative ones |
| Common.ChaseVelocity | Assets/MyScripts/SkeletonWarrior.cs:85-97 | the chase speed is taken in full, pointing right exactly when the player is not to the left |
| Common.GapNeverJumps | Assets/MyScripts/SkeletonWarrior.cs:99-115 | since the gap check and the grounded check are one query, the chaser jumps exactly when it faces an obstacle while grounded |
| Common.RangedStrike | Assets/MyScripts/Face.cs:122-141 | the delayed strike lands exactly when the player is still in range, has a health component and is not dead, and deals the configured damage |
| Common.FaceTowards | Assets/MyScripts/Face.cs:58-95 | the sprite faces right when the player is to the right, left when to the left, and keeps its facing at zero offset |
| PlayerHealth.Start | Assets/MyScripts/PlayerHealth.cs:44-51 | the player starts at full health, with empty mana, alive |
| PlayerHealth.Die | Assets/MyScripts/PlayerHealth.cs:98-120 | the death latch is set once and nothing else changes |
| PlayerHealth.TakeDamage | Assets/MyScripts/PlayerHealth.cs:53-76 | a dead player ignores damage; otherwise health falls by the damage but not below 0, and the player dies exactly at 0 |
| PlayerHealth.Heal | Assets/MyScripts/PlayerHealth.cs:78-85 | a dead player is not healed; otherwise health rises by the amount up to the maximum, and nothing else changes |
| PlayerHealth.AddMana | Assets/MyScripts/PlayerHealth.cs:138-156 | no mana while the special attack is active; otherwise mana rises, capped at the maximum; the special is enabled exactly when a combat component exists, its special is inactive, and the bar reaches full |
| PlayerHealth.ResetMana | Assets/MyScripts/PlayerHealth.cs:158-165 | mana goes back to 0 and nothing else changes |
| PlayerHealth.Collect | Assets/MyScripts/PlayerHealth.cs:138-156 | an enemy's payout adds mana exactly when there is one |
| PlayerHealth.Receive | Assets/MyScripts/PlayerHealth.cs:53-76 | a melee blow wounds the player as `TakeDamage` does, then adds its mana unless the special is active, enabling the special exactly when that fills the bar; a blow without mana, or one landing while the special is active, leaves mana alone and enables nothing; nothing else changes |
| PlayerHealth.StartValid | Assets/MyScripts/PlayerHealth.cs:44-51 | a fresh player has health in [0, maxHealth], mana in [0, maxMana], and is dead only at 0 health |
| PlayerHealth.ApplyKeepsValid | Assets/MyScripts/PlayerHealth.cs:53-165 | every event with a non-negative amount keeps health and mana within their bounds, and death only at 0 health |
| PlayerHealth.RunKeepsValid | Assets/MyScripts/PlayerHealth.cs:53-165 | any sequence of such events keeps health and mana within their bounds |
| PlayerHealth.DeathLatched | Assets/MyScripts/PlayerHealth.cs:53-120 | after death no event revives the player or changes health |
| PlayerHealth.RunDeathStep | Assets/MyScripts/PlayerHealth.cs:53-85 | a single event on a dead player keeps it dead at the same health |
| Snake.Start | Assets/MyScripts/Snake.cs:59-69 | the snake starts at 1200 health, dormant, with no coroutine running |
| Snake.Detect | Assets/MyScripts/Snake.cs:113-123 | the wake sequence starts exactly when the player is in front and none is pending |
| Snake.Act | Assets/MyScripts/Snake.cs:71-111 | when awake: chase unless attacking or bursting; bite within bite range; otherwise leap when the player is above the leap height and the snake is grounded; while bursts are enabled and the snake is idle after this frame's bite or leap, the burst timer runs and restarts at 0 on reaching 3 seconds, and a burst starts exactly then and under the 0.25 chance; otherwise the timer is untouched; turn with the deadzone |
| Snake.Update | Assets/MyScripts/Snake.cs:71-111 | nothing happens while dead or without a player; a dormant snake only starts waking; leaps need a grounded snake under a higher player |
| Snake.FinishWake | Assets/MyScripts/Snake.cs:124-145 | the end of the wake sequence leaves the snake awake and nothing pending |
| Snake.FinishAttack | Assets/MyScripts/Snake.cs:156-193 | the end of a bite or leap clears only the attacking flag |
| Snake.FinishBurst | Assets/MyScripts/Snake.cs:195-215 | the end of a burst clears only the bursting flag |
| Snake.BiteHits | Assets/MyScripts/Snake.cs:156-178 | the bite deals 50 to every other collider with a player health component, and to nothing else; distinct colliders are hit once each |
| Snake.TakeDamage | Assets/MyScripts/Snake.cs:242-262 | a dead snake ignores hits; otherwise the wound, and 10 mana to any existing player on every hit |
| Snake.WokenForever | Assets/MyScripts/Snake.cs:71-145 | once awake the snake stays awake through any events |
| Snake.OneWakePending | Assets/MyScripts/Snake.cs:113-145 | frames start at most one wake sequence, and none while one is pending |
| Hellhound.Start | Assets/MyScripts/Hellhound.cs:64-72 | the hound starts idle at 1200 health with no target and no coroutine running |
| Hellhound.Nearest | Assets/MyScripts/Hellhound.cs:222-238 | none exactly when no existing snake is in range; otherwise an existing in-range snake that is no farther than any other, and strictly nearer than every earlier one |
| Hellhound.FindNearestSnake | Assets/MyScripts/Hellhound.cs:222-238 | the loop's result equals the reference `Nearest` |
| Hellhound.Resolve | Assets/MyScripts/Hellhound.cs:123-144 | the cached target is found among this frame's existing snakes by identity, or is absent from them |
| Hellhound.EndCharge | Assets/MyScripts/Hellhound.cs:275-284 | ending a charge returns to idle with the timer cleared and nothing else changed |
| Hellhound.StartCharge | Assets/MyScripts/Hellhound.cs:264-273 | a charge sets the timer to the charge duration and changes nothing else |
| Hellhound.Tick | Assets/MyScripts/Hellhound.cs:78-84 | each timer runs down only while positive, and a charge whose timer runs out ends back in idle |
| Hellhound.Retarget | Assets/MyScripts/Hellhound.cs:86-110 | on the ground an assist turns into a charge; a new target is only ever the nearest snake below an airborne player, chosen outside an assist and off cooldown, and in that situation that snake always becomes the target |
| Hellhound.Burst | Assets/MyScripts/Hellhound.cs:296-308 | while neither bursting nor attacking the burst timer runs, and on reaching 3 seconds restarts at 0 whatever the roll; a burst starts exactly then and under the 0.25 chance; otherwise nothing changes |
| Hellhound.IdleCase | Assets/MyScripts/Hellhound.cs:115-137 | from idle, an assist begins exactly when the player is airborne and above an existing target, off cooldown; a delayed charge begins exactly when the player is on the ground and nothing else runs; a bite begins exactly within bite range |
| Hellhound.AssistCase | Assets/MyScripts/Hellhound.cs:139-220 | a lost target returns to idle and a grounded player turns the assist into a charge; the snake is lifted exactly when the player is airborne and the snake is touched, grounded, below the player and off cooldown, and the lift then restarts the cooldown and starts a charge |
| Hellhound.ChargeCase | Assets/MyScripts/Hellhound.cs:156-161 | the charge mode always ends the frame charging, starting a charge only if none runs |
| Hellhound.Update | Assets/MyScripts/Hellhound.cs:74-163 | nothing happens while dead or without a player, and a frame never changes the hound's health |
| Hellhound.EnterAssist | Assets/MyScripts/Hellhound.cs:74-163 | entering the assist mode requires an airborne player, an existing target below the player, and the assist cooldown over |
| Hellhound.FinishDelayedCharge | Assets/MyScripts/Hellhound.cs:251-262 | after the delay the hound charges exactly when the player is still on the ground |
| Hellhound.BiteHits | Assets/MyScripts/Hellhound.cs:310-332 | the bite deals 50 to every player-layer collider with a health component, and to nothing else; distinct colliders are hit once each |
| Hellhound.FinishAttack | Assets/MyScripts/Hellhound.cs:310-332 | the end of a bite clears only the attacking flag |
| Hellhound.FinishBurst | Assets/MyScripts/Hellhound.cs:334-354 | the end of a burst clears only the bursting flag |
| Hellhound.Contact | Assets/MyScripts/Hellhound.cs:356-369 | contact damages exactly a player-layer collider with a health component while the hound lives, for 50 |
| Hellhound.TakeDamage | Assets/MyScripts/Hellhound.cs:383-401 | a dead hound ignores hits; otherwise the wound, and 10 mana to any existing player on every hit |
| BossFightManager.Start | Assets/MyScripts/BossFightManager.cs:28-35 | the manager listens for the hound exactly when the spawner is assigned, and tracks no hound yet |
| BossFightManager.HoundSpawned | Assets/MyScripts/BossFightManager.cs:42-45 | the spawned hound is tracked only through the subscription |
| BossFightManager.HoundStatus | Assets/MyScripts/BossFightManager.cs:47-74 | the tracked hound reads as missing when untracked or destroyed, and as dead exactly when it exists and its latch is set |
| BossFightManager.Update | Assets/MyScripts/BossFightManager.cs:47-74 | once both bosses are down (a missing one counts as down) the music fades and the scene loads, exactly once; the spawners are disabled only the first time |
| BossFightManager.EndsBeforeHoundSpawns | Assets/MyScripts/BossFightManager.cs:47-74 | with the snake dead and no hound tracked yet, the fight ends |
| BossFightManager.DisableAll | Assets/MyScripts/BossFightManager.cs:76-95 | every active spawner is emptied and switched off, a hidden one is left as it is, and exactly the minions the active ones tracked are destroyed |
| BossFightManager.EffectsOnce | Assets/MyScripts/BossFightManager.cs:47-97 | over any events the fade, the spawner shutdown and the scene load each happen at most once, and never after the load began |
| Enemy2Spawner.Start | Assets/MyScripts/Enemy2Spawner.cs:19-27 | the spawner starts empty, active, and with no loop |
| Enemy2Spawner.WakeUp | Assets/MyScripts/Enemy2Spawner.cs:29-36 | only the first wake-up starts the spawn loop, and only on an active spawner |
| Enemy2Spawner.Cull | Assets/MyScripts/Enemy2Spawner.cs:60-61 | exactly the destroyed minions are dropped, and no minion is then tracked twice |
| Enemy2Spawner.ToSpawn | Assets/MyScripts/Enemy2Spawner.cs:63-69 | a round never exceeds the cap or the per-spawn count, spawns nothing when full or with a non-positive count, and otherwise spawns the per-spawn count or exactly fills the cap |
| Enemy2Spawner.Fresh | Assets/MyScripts/Enemy2Spawner.cs:75-81 | fresh minions get exactly the given number of new identities from the next one on, each once |
| Enemy2Spawner.Round | Assets/MyScripts/Enemy2Spawner.cs:38-81 | with both bosses down the loop stops for good; otherwise the survivors come first in order, only new identities are added, the count is topped up, without a prefab the list is just culled, and the invariant is kept |
| Enemy2Spawner.Disable | Assets/MyScripts/BossFightManager.cs:80-95 | disabling destroys exactly the tracked minions and switches the spawner off |
| Enemy2Spawner.DisableIfFound | Assets/MyScripts/BossFightManager.cs:76-95 | the shutdown disables a spawner that is active, and leaves a hidden one and its minions untouched |
| Enemy2Spawner.StoppedKeepsMinions | Assets/MyScripts/Enemy2Spawner.cs:52-57 | a spawner whose loop saw both bosses down hides itself without destroying its minions, so the later shutdown leaves them alive and tracked |
| Enemy2Spawner.RunKeepsValid | Assets/MyScripts/Enemy2Spawner.cs:38-73 | within the cap, no minion tracked twice, only handed-out identities, through any events |
| Enemy2Spawner.OneSpawnLoop | Assets/MyScripts/Enemy2Spawner.cs:29-36 | however often the snake wakes, at most one spawn loop starts, and none on a spawner already woken or switched off |
| HellhoundSpawner.Start | Assets/MyScripts/HellHoundSpawner.cs:15-35 | the spawner subscribes exactly when both the prefab and the snake exist |
| HellhoundSpawner.SnakeWoke | Assets/MyScripts/HellHoundSpawner.cs:37-40 | a wake-up starts a countdown only through the subscription |
| HellhoundSpawner.Elapse | Assets/MyScripts/HellHoundSpawner.cs:42-59 | the first finished countdown spawns the hound and announces it if it has a hound component; later ones spawn nothing |
| HellhoundSpawner.SpawnsOnce | Assets/MyScripts/HellHoundSpawner.cs:15-59 | at most one hound ever appears, none after the first, and none without a subscription |
| WaveSpawner.EnemyCount | Assets/MyScripts/WaveSpawner.cs:97-107 | waves 1 to 4 spawn 3, 6, 8 and 10 enemies; any other wave spawns none |
| WaveSpawner.SpawnEnemy | Assets/MyScripts/WaveSpawner.cs:73-113 | wave 1 spawns grounders on a coin flip of side; waves 2 to 4 spawn a flyer exactly above their threshold and otherwise a grounder; other waves spawn nothing |
| WaveSpawner.WaveSize | Assets/MyScripts/WaveSpawner.cs:37-71 | a wave of 1 to 4 spawns as many enemies as asked; any other wave spawns none |
| WaveSpawner.PlanSize | Assets/MyScripts/WaveSpawner.cs:37-71 | waves 1..n spawn exactly the sum of their enemy counts |
| WaveSpawner.TotalAfterFour | Assets/MyScripts/WaveSpawner.cs:97-107 | four or more waves spawn 27 enemies in all |
| WaveSpawner.FirstWaveGrounded | Assets/MyScripts/WaveSpawner.cs:73-95 | wave 1 spawns ground enemies only |
| WaveSpawner.SpawnWaves | Assets/MyScripts/WaveSpawner.cs:37-71 | the loop runs every wave, spawns the reference plan in order, and then loads the next level exactly when a loader is set |
| DialogueManager.Start | Assets/MyScripts/DialogueManager.cs:18-25 | the box starts hidden, with no lines, no line coroutine and no typing |
| DialogueManager.StartTyping | Assets/MyScripts/DialogueManager.cs:49-50 | the handle is set and the typing outlives the call exactly when the text is non-empty, having shown its first character; an empty text leaves the handle cleared |
| DialogueManager.SkipTyping | Assets/MyScripts/DialogueManager.cs:96-104 | skipping stops the typing and shows the whole current line; without a handle nothing changes; with the lines nulled it stops the typing and throws |
| DialogueManager.EndDialogue | Assets/MyScripts/DialogueManager.cs:106-111 | the box hides, the lines are nulled and the index resets; nothing else changes |
| DialogueManager.EnterLine | Assets/MyScripts/DialogueManager.cs:40-82 | at the loop top a non-empty line in range is entered and typed (shown in full if the key is down); an empty line goes straight to the waiting, or on past it when the key is down; past the last line the dialogue ends, and with the lines nulled the coroutine throws |
| DialogueManager.Advance | Assets/MyScripts/DialogueManager.cs:79-82 | moving on enters the next line if there is one, otherwise ends the dialogue, or throws once the lines are nulled |
| DialogueManager.AfterTyping | Assets/MyScripts/DialogueManager.cs:63-79 | after the typing a key moves on at once; otherwise a line with an auto-advance time starts counting at this frame's time, and any other line waits for the key |
| DialogueManager.ResumeCo | Assets/MyScripts/DialogueManager.cs:38-83 | a line coroutine's frame: it waits while the handle is set (skipping on the key), counts while under the auto-advance time without a key, waits for an unpressed key, and otherwise moves on by one line |
| DialogueManager.ResumeAll | Assets/MyScripts/DialogueManager.cs:38-83 | resuming the live line coroutines in turn keeps the box invariant and never adds coroutines |
| DialogueManager.Resume | Assets/MyScripts/DialogueManager.cs:38-83 | a frame keeps the box invariant and never adds line coroutines |
| DialogueManager.ResumeOne | Assets/MyScripts/DialogueManager.cs:38-83 | with a single line coroutine a frame is exactly that coroutine's resumption |
| DialogueManager.TypeTick | Assets/MyScripts/DialogueManager.cs:85-94 | typing shows one more character of its text, then clears the handle with the whole line shown |
| DialogueManager.StartDialogue | Assets/MyScripts/DialogueManager.cs:27-36 | no lines do nothing; otherwise the box shows the first line and a new line coroutine joins the ones already running, typing a non-empty first line and going straight to the waiting on an empty one |
| DialogueManager.Step | Assets/MyScripts/DialogueManager.cs:27-104 | every frame, typing step or start keeps the box invariant |
| DialogueManager.Run | Assets/MyScripts/DialogueManager.cs:27-104 | any run of events keeps the box invariant |
| DialogueManager.HeldFrame | Assets/MyScripts/DialogueManager.cs:57-61 | without the key, coroutines waiting on a set typing handle stay where they are |
| DialogueManager.KeySkipsNextLine | Assets/MyScripts/DialogueManager.cs:57-79 | the key that advances a finished line also shows the whole next line at once when it is non-empty, and passes over it when it is empty |
| DialogueManager.EmptyLinesPassed | Assets/MyScripts/DialogueManager.cs:40-93 | entered with the key down, a stretch of empty lines ends on the first non-empty line after it, shown in full, or closes the dialogue when only empty lines are left |
| DialogueManager.ElapsedNonNegative | Assets/MyScripts/DialogueManager.cs:70 | frame times that are never negative add up to a non-negative time |
| DialogueManager.AutoWaits | Assets/MyScripts/DialogueManager.cs:64-72 | while the frames add up to less than the auto-advance time, the line stays and the coroutine only counts |
| DialogueManager.ParkedStays | Assets/MyScripts/DialogueManager.cs:57-61 | without the key, a dialogue whose coroutines all wait on a set typing handle stays exactly as it is |
| DialogueManager.AutoAdvances | Assets/MyScripts/DialogueManager.cs:64-82 | once the frames reach the auto-advance time, the dialogue moves on to the next line when it is non-empty, or closes after the last |
| DialogueManager.RestartSkipsLines | Assets/MyScripts/DialogueManager.cs:27-82 | a second start while a dialogue waits for the key makes the next key press pass over the new dialogue's first two lines |
| DialogueManager.RestartClosesEarly | Assets/MyScripts/DialogueManager.cs:27-111 | a second start of a two-line dialogue while one waits for the key closes it on the next key press, with the earlier coroutine still alive |
| DialogueManager.OneCoroutine | Assets/MyScripts/DialogueManager.cs:27-36 | starting dialogues only when none runs keeps at most one line coroutine alive |
| Dialogue.Start | Assets/Dialogue.cs:15-19 | the panel starts hidden and empty |
| Dialogue.TypeLine | Assets/Dialogue.cs:47-59 | typing clears the text and shows a prefix of the line; it throws exactly when the index is out of range |
| Dialogue.TypeTick | Assets/Dialogue.cs:52-58 | typing shows the next character until the line is complete, then stops |
| Dialogue.StartDialogue | Assets/Dialogue.cs:40-45 | the panel shows from the first line, and the start throws exactly when there are no lines |
| Dialogue.EndDialogue | Assets/Dialogue.cs:74-78 | the panel hides with empty text and nothing else changes |
| Dialogue.NextLine | Assets/Dialogue.cs:61-72 | Return moves to the next line if there is one, and otherwise ends the dialogue |
| Dialogue.Update | Assets/Dialogue.cs:21-38 | only Return on a shown panel acts: it completes a line being typed, and otherwise goes to the next line |
| Dialogue.Trigger | Assets/Dialogue.cs:80-87 | only the first player contact with a shown panel starts the dialogue; a hidden panel gets no trigger messages |
| Dialogue.StepKeepsValid | Assets/Dialogue.cs:21-87 | with at least one line no event throws, and the panel invariant holds |
| Dialogue.RunKeepsValid | Assets/Dialogue.cs:21-87 | the panel invariant holds through any events |
| Dialogue.TriggeredOnce | Assets/Dialogue.cs:80-87 | the trigger starts the dialogue at most once, and never again once used |
| Dialogue.NoLinesStuck | Assets/Dialogue.cs:21-59 | with no lines the panel stays open and typing forever |
| Dialogue.NoLinesStart | Assets/Dialogue.cs:40-59 | starting a dialogue with no lines throws and leaves that stuck state |
| Dialogue.HiddenStays | Assets/Dialogue.cs:21-23 | a hidden panel with no typing stays exactly as it is through any events |
| Dialogue.NeverShown | Assets/Dialogue.cs:15-19 | since `Start` hides the panel's own object, its trigger never starts it and it stays hidden and empty |
| Dialogue.NoStarts | Assets/Dialogue.cs:80-87 | a hidden panel is never started by the trigger |
| SkeletonWarrior.Start | Assets/MyScripts/SkeletonWarrior.cs:42-49 | the skeleton starts at 800 health facing right, neither attacking nor blocking |
| SkeletonWarrior.Update | Assets/MyScripts/SkeletonWarrior.cs:51-97 | frozen while blocking; otherwise chase between the ranges (jumping exactly when the chase rule says so), stop and attack when close and not already attacking, turn with the deadzone |
| SkeletonWarrior.AttackLand | Assets/MyScripts/SkeletonWarrior.cs:133-170 | a blocking skeleton aborts the swing; otherwise 45 damage and 1 mana to every other collider with a player health component, and to nothing else; distinct colliders are hit once each |
| SkeletonWarrior.AttackEnd | Assets/MyScripts/SkeletonWarrior.cs:133-170 | the swing's end clears only the attacking flag |
| SkeletonWarrior.TakeDamage | Assets/MyScripts/SkeletonWarrior.cs:172-206 | dead or blocking skeletons ignore hits; a roll under the shield chance blocks without damage; otherwise the wound, knockback from any attacker, and 30 mana to a player attacker |
| SkeletonWarrior.EndBlock | Assets/MyScripts/SkeletonWarrior.cs:209-228 | the block's end clears only the blocking flag |
| SkeletonWarrior.BlockHoldsHealth | Assets/MyScripts/SkeletonWarrior.cs:51-228 | until a block ends no frames or hits change the skeleton's life or facing |
| Goblin.Start | Assets/MyScripts/Goblin.cs:38-50 | the goblin starts at 600 health facing right, not dashing |
| Goblin.Update | Assets/MyScripts/Goblin.cs:52-100 | chase between the dash range and the detection radius (jumping per the chase rule), dash when close unless already dashing, turn with the deadzone |
| Goblin.DashHits | Assets/MyScripts/Goblin.cs:145-167 | the dash deals 35 to every other collider with a player health component, and to nothing else; distinct colliders are hit once each |
| Goblin.DashEnd | Assets/MyScripts/Goblin.cs:145-167 | the dash's end clears only the dashing flag |
| Goblin.TakeDamage | Assets/MyScripts/Goblin.cs:169-189 | a dead goblin ignores hits; otherwise the wound, 6 mana to any existing player, and knockback from any attacker |
| Goblin.OneDashAtATime | Assets/MyScripts/Goblin.cs:52-167 | until a dash ends at most one dash starts, and none while one runs |
| Bird.Start | Assets/MyScripts/Bird.cs:41-48 | the bird starts at 800 health with the jump timer at 0, not attacking |
| Bird.RandomJump | Assets/MyScripts/Bird.cs:85-105 | a hop happens exactly when the timer has run out, the bird is grounded and the roll is under the chance; it restarts the timer and aims at the player exactly when the player is near and the aim roll succeeds |
| Bird.Update | Assets/MyScripts/Bird.cs:50-83 | attack when close and not attacking, without hopping; elsewhere hop by the random jump rule; chase between the ranges; turn with the deadzone |
| Bird.AttackHits | Assets/MyScripts/Bird.cs:128-155 | 45 damage and 1 mana to every other collider with a player health component, and to nothing else; distinct colliders are hit once each |
| Bird.AttackEnd | Assets/MyScripts/Bird.cs:128-155 | the attack's end clears only the attacking flag |
| Bird.TakeDamage | Assets/MyScripts/Bird.cs:157-179 | a dead bird ignores hits; otherwise the wound, 30 mana to a player attacker, and knockback from any attacker |
| Bird.JumpCooldown | Assets/MyScripts/Bird.cs:85-105 | frames adding up to less than the remaining jump timer never hop |
| Bird.TimeNonNegative | Assets/MyScripts/Bird.cs:85-105 | frame times that are never negative add up to a non-negative time |
| Face.Start | Assets/MyScripts/Face.cs:44-56 | the face starts alive at full health, ready to attack, with the wander timer at 0 and its first wander point |
| Face.Wander | Assets/MyScripts/Face.cs:74-82 | when the timer reaches the interval a new point is picked and the timer restarts, otherwise the timer advances; the face steers for the current point and the timer stays below the interval |
| Face.Update | Assets/MyScripts/Face.cs:58-95 | follow the player inside the detection radius, keeping the wander point and timer; outside it take the course, timer and point `Wander` gives; steer nowhere new while knocked back; attack in range when the latch is up |
| Face.Hover | Assets/MyScripts/Face.cs:97-114 | the face is never lowered, and a live face that is not knocked back ends at least the hover height above ground it found |
| Face.AttackLand | Assets/MyScripts/Face.cs:122-141 | the strike lands exactly when the player is still in range, has health and is alive |
| Face.AttackReady | Assets/MyScripts/Face.cs:122-141 | the cooldown's end raises only the attack latch |
| Face.TakeDamage | Assets/MyScripts/Face.cs:143-193 | the wound, knockback from any attacker, and the bounty exactly on a killing blow by the player; a dead face ignores hits |
| Face.KnockbackEnd | Assets/MyScripts/Face.cs:160-171 | the knockback's end clears only its flag |
| Face.OneAttackPerCooldown | Assets/MyScripts/Face.cs:58-141 | between two cooldown ends at most one attack starts, and none while the latch is down |
| SkullBat.Start | Assets/MyScripts/SkullBat.cs:46-58 | the bat starts alive at full health, ready to attack, not dashing |
| SkullBat.FirstHit | Assets/MyScripts/SkullBat.cs:72-93 | the lowest hitting ray in the range, or none exactly when no ray in the range hits |
| SkullBat.ScanObstacle | Assets/MyScripts/SkullBat.cs:72-93 | the ray loop finds an obstacle exactly when some ray hits, and stops right after the lowest hitting ray |
| SkullBat.Update | Assets/MyScripts/SkullBat.cs:60-109 | unless dashing, steer at the player out of range and rise exactly when a ray hits; face the player; dash exactly on a low roll when not dashing; attack in range when the latch is up |
| SkullBat.Steer | Assets/MyScripts/SkullBat.cs:111-117 | the velocity is steered exactly when the bat is alive, not knocked back and not dashing |
| SkullBat.AttackLand | Assets/MyScripts/SkullBat.cs:119-138 | the strike lands exactly when the player is still in range, has health and is alive |
| SkullBat.AttackReady | Assets/MyScripts/SkullBat.cs:119-138 | the cooldown's end raises only the attack latch |
| SkullBat.DashEnd | Assets/MyScripts/SkullBat.cs:140-158 | the dash's end clears only the dashing flag |
| SkullBat.TakeDamage | Assets/MyScripts/SkullBat.cs:160-211 | the wound, knockback from any attacker, the bounty exactly on a killing blow by the player, and a dead bat's movement zeroed |
| SkullBat.KnockbackEnd | Assets/MyScripts/SkullBat.cs:177-188 | the knockback's end clears only its flag |
| SkullBat.OneDashAtATime | Assets/MyScripts/SkullBat.cs:60-158 | until a dash ends at most one dash starts, and none while one runs |
| SkullBat.OneAttackPerCooldown | Assets/MyScripts/SkullBat.cs:60-138 | between two cooldown ends at most one attack starts, and none while the latch is down |
| SkullBat.DeadBatInert | Assets/MyScripts/SkullBat.cs:60-109 | a dead bat starts no dash and no attack through any events |
| Flying2.Start | Assets/MyScripts/Flying2.cs:46-61 | a given Shroomy is disabled and made kinematic, and is carried exactly when there is a carry point; without one the start throws |
| Flying2.Drop | Assets/MyScripts/Flying2.cs:116-129 | a Shroomy still there is released: unparented, dynamic, enabled, no longer carried; a destroyed one leaves everything as it was |
| Flying2.Update | Assets/MyScripts/Flying2.cs:63-95 | face the player; attack exactly when not carrying, in range and past the cooldown stamp, which moves by the cooldown; drop the Shroomy once the player is within the detection radius |
| Flying2.PassengerDestroyed | Assets/MyScripts/Flying2.cs:116-129 | a destroyed Shroomy can no longer be dropped, and nothing else changes |
| Flying2.TakeDamage | Assets/MyScripts/Flying2.cs:144-184 | a dead flyer ignores hits; otherwise the wound and knockback from any attacker, with no mana |
| Flying2.KnockbackEnd | Assets/MyScripts/Flying2.cs:161-172 | the knockback's end clears only its flag |
| Flying2.CooldownHolds | Assets/MyScripts/Flying2.cs:63-95 | frames before the cooldown stamp attack nothing and leave the stamp alone |
| Flying2.StrandedCarrier | Assets/MyScripts/Flying2.cs:63-129 | a carrier whose Shroomy was destroyed keeps carrying and never attacks |
| Flying2.DropIsFinal | Assets/MyScripts/Flying2.cs:63-129 | once not carrying, the flyer never carries again and the Shroomy is never touched again |
| Flying2.MissingCarryPointDisablesShroomy | Assets/MyScripts/Flying2.cs:46-114 | without a carry point the Shroomy stays disabled and is never carried |
| FloatingSword.Start | Assets/MyScripts/FloatingSword.cs:34-44 | the sword starts alive at full health, not dashing, collider and script enabled |
| FloatingSword.Update | Assets/MyScripts/FloatingSword.cs:46-63 | a live sword that is not dashing charges exactly when the player is within the detection radius, and drifts otherwise |
| FloatingSword.IdsMembers | Assets/MyScripts/FloatingSword.cs:97-110 | one frame reaches exactly the other objects with a player health component among its hits |
| FloatingSword.ReachedMembers | Assets/MyScripts/FloatingSword.cs:89-114 | a run of dash frames reaches exactly what some frame reaches |
| FloatingSword.SweepFrame | Assets/MyScripts/FloatingSword.cs:97-110 | one frame damages each reachable object not yet damaged once, for the dash damage and no mana, appending to the earlier blows |
| FloatingSword.Dash | Assets/MyScripts/FloatingSword.cs:86-114 | the dash runs while under its duration and stops at death, damages exactly the objects its frames reached, each once, for the dash damage |
| FloatingSword.DashEnd | Assets/MyScripts/FloatingSword.cs:116-117 | the dash's end clears only the dashing flag |
| FloatingSword.Die | Assets/MyScripts/FloatingSword.cs:133-155 | death ends any dash and disables the collider and the script; a second call changes nothing |
| FloatingSword.TakeDamage | Assets/MyScripts/FloatingSword.cs:120-131 | a dead sword ignores hits; otherwise the wound, and death at 0 disables it |
| FloatingSword.OneDashAtATime | Assets/MyScripts/FloatingSword.cs:46-118 | until a dash ends at most one dash starts, and none while one runs |
| FloatingSword.DeadSwordInert | Assets/MyScripts/FloatingSword.cs:46-63 | a dead sword never charges again |
| Soul.Orient | Assets/MyScripts/Soul.cs:146-157 | the sprite flips against its art's facing, and the fire point sits on the facing side, rotated towards it |
| Soul.OrientAgrees | Assets/MyScripts/Soul.cs:146-157 | after orienting, the sprite looks and the fire point shoots the way the soul faces |
| Soul.Volley | Assets/MyScripts/Soul.cs:177-195 | a spread soul fires its beam count of beams fanned over the spread, backwards when facing left; a horn fires two homing beams at 0.7 of the speed for 2 seconds; every beam carries the beam damage |
| Soul.FanSpan | Assets/MyScripts/Soul.cs:179-184 | a fan of several beams spans exactly from -spread/2 to spread/2 |
| Soul.FanIncreasing | Assets/MyScripts/Soul.cs:179-184 | with a positive spread the beams fan out in order |
| Soul.FanSymmetric | Assets/MyScripts/Soul.cs:179-184 | the fan is symmetric about the fire direction |
| Soul.LoneBeamOffCentre | Assets/MyScripts/Soul.cs:179-184 | a fan of one beam flies at -spread/2 |
| Soul.Start | Assets/MyScripts/Soul.cs:85-93 | the soul starts at full health, facing the way its art faces, ready, and oriented to match |
| Soul.Update | Assets/MyScripts/Soul.cs:95-144 | within the detection radius: start a volley exactly when none runs, chase and turn with the deadzone, melee in range when the latch is up; the appearance keeps agreeing with the facing |
| Soul.Fire | Assets/MyScripts/Soul.cs:159-195 | the charged volley fires in full and pauses; without a fire point it throws before any beam and the caster is stuck |
| Soul.Rearm | Assets/MyScripts/Soul.cs:159-175 | the pause's end makes the caster ready again, and nothing else |
| Soul.MeleeReady | Assets/MyScripts/Soul.cs:198-220 | the melee cooldown's end raises only the melee latch |
| Soul.TakeDamage | Assets/MyScripts/Soul.cs:223-262 | a dead soul ignores hits; otherwise the wound, 30 mana to a player attacker, and knockback from any attacker |
| Soul.RunStaysOriented | Assets/MyScripts/Soul.cs:95-157 | the appearance keeps agreeing with the facing through any run |
| Soul.OneMeleePerCooldown | Assets/MyScripts/Soul.cs:198-220 | between two melee cooldown ends at most one melee attack starts, and none while the latch is down |
| Soul.OneVolleyAtATime | Assets/MyScripts/Soul.cs:159-175 | until a volley's pause ends at most one volley starts, and none while one runs |
| Soul.StuckNeverFiresAgain | Assets/MyScripts/Soul.cs:159-195 | a caster stuck after a fire-point failure never starts another volley |

## Left out

- Physics and presentation: rigidbody motion, forces and knockback velocities, animation, audio, music fades, portraits and voice lines, and camera and scene glue. Movement appears only as the course or velocity an enemy chooses.
- Coroutine waits and timing: every `WaitForSeconds` becomes an event (`AttackEnd`, `Ready`, `WakeDone` and so on) that the run supplies, in any order.
- Floating point is modelled with exact reals, so there is no rounding and no NaN. In particular, the SkullBat ray spacing divides by `checkLayers - 1`, which is a float division by zero for a single layer. The model instead takes each ray's result as an input and allows any layer count.
- 32-bit integer wrap-around of health and damage is not modelled; the game's values are small.
- Objects the core only calls into are inputs: the player controller, `PlayerCombat` (reduced to whether the special attack is active), `Shroomy` (reduced to its script, rigidbody and parenting), and the beam components.
- `Snake.IsDead` and the Snake's wake-up event are used by other classes but are not part of `Snake.cs` as given; the spawners and the fight manager take the snake's status and wake-up as inputs.
- The Hellhound knockback applied to the player on contact and the enemies' `HandleDeath` fades and destruction are left out.
- Bird.RandomJump: of the aimed jump's direction, `new Vector2(Mathf.Sign(dirX), 1).normalized`, only the horizontal sign is kept; the normalised 45-degree vector and the jump force are left out.
- Null references in fields set in the editor are assumed assigned, so the exceptions they would throw are not modelled: `Snake.IsGrounded` reading `groundCheckPoint` (Snake.cs:239), the `WaveSpawner` prefabs and spawn points (WaveSpawner.cs:111-117), the Soul beam prefab (Soul.cs:187), and the `DialogueManager` box and text fields. The missing fire point, carry point and Hellhound are modelled.
- Hellhound.Update: its own contract states only the quiet frame and the unchanged health. The per-mode behaviour is stated by `Tick`, `Retarget`, `IdleCase`, `AssistCase` and `ChargeCase`, which it composes, and by `EnterAssist`.
- Hellhound.FindNearestSnake: the initial best distance `float.MaxValue` is modelled as "no snake yet", so a snake at a distance of `float.MaxValue` or more, which the source would skip, is not excluded; such a snake is beyond any assist range anyway.
- DialogueManager.StartTyping: `StartCoroutine` is taken to return null for a coroutine that ends before its first yield, as `TypeLine` of an empty text does, so an empty line skips the wait for the typing.
- DialogueManager.AutoAdvances: the line moved on to is stated exactly only when it is non-empty; an empty next line is entered without typing and starts its own wait in the same frame, which the lemma does not restate.
- DialogueManager.RestartSkipsLines: stated for new lines 1 and 2 that are non-empty, and `RestartClosesEarly` for a non-empty line 1; with empty ones the same key press passes over further lines, which the lemmas do not state exactly.
- DialogueManager.Resume: the engine is taken to resume the live line coroutines once per frame in the order they were started; the order only matters once a second `StartDialogue` has left two of them running.
- Dialogue.StartDialogue: a start while a line is still being typed leaves the earlier `TypeLine` running next to the new one; the model keeps only the new one. Nothing in the repository's scripts calls `StartDialogue`, and the panel's own trigger cannot fire while it is hidden.
- Flying2.Start: the carry point is assumed to stay the same after `Start`.
- FloatingSword.Update: the drift (`FloatAround`) is reported only as a flag, and the charge direction and dash speed are left out.
- Soul.Volley: beams whose prefab lacks the beam component spawn without being initialised; the model assumes every beam is initialised.

=== FILE: bird.dfy ===
/** The bird: chases the player within its detection radius, attacks in
    melee range, and hops at random: once its jump timer has run out and it
    is grounded, each such frame jumps with even odds (aimed at the player
    with 70% odds when the player is in range) and restarts the timer.
 */
module Bird {
  import opened Common

  const MaxHealth: int := 800
  const AttackDamage: int := 45
  const AttackMana: real := 1.0
  const HitMana: real := 30.0
  const JumpChance: real := 0.5
  const AimChance: real := 0.7

  datatype Config = Config(detectRadius: real, attackRange: real, chaseSpeed: real,
                           flipDeadzone: real, jumpCooldown: real)

  const Defaults: Config := Config(4.0, 1.0, 5.0, 0.1, 2.0)

  datatype State = State(life: Life, facingRight: bool, attacking: bool, jumpTimer: real)

  /** One frame's view, with the two jump draws (`Random.value` for the jump,
      and for aiming it). */
  datatype Sense = Sense(playerPresent: bool, dist: real, dx: real, grounded: bool,
                         dt: real, jumpRoll: real, aimRoll: real)

  /** A jump impulse: straight up (`dirX` 0) or diagonally towards the player. */
  datatype Jump = NoJump | Jump(dirX: real)

  datatype Frame = Frame(state: State, vx: Option<real>, jump: Jump, attack: bool)

  function Start(): (s: State)
    ensures s.life == Spawned(MaxHealth) && s.jumpTimer == 0.0 && !s.attacking
  {
    State(Spawned(MaxHealth), true, false, 0.0)
  }

  /** `HandleRandomJump`. */
  function RandomJump(s: State, c: Config, sense: Sense): (r: (State, Jump))
    ensures r.1.Jump? <==> s.jumpTimer - sense.dt <= 0.0 && sense.grounded && sense.jumpRoll < JumpChance
    ensures r.1.Jump? ==> r.0.jumpTimer == c.jumpCooldown
    ensures r.1.NoJump? ==> r.0.jumpTimer == s.jumpTimer - sense.dt
    ensures r.1.Jump? ==> (r.1.dirX != 0.0 <==> sense.dist <= c.detectRadius && sense.aimRoll < AimChance)
    ensures r.1.Jump? && r.1.dirX != 0.0 ==> r.1.dirX == Sign(sense.dx)
    ensures r.0.(jumpTimer := s.jumpTimer) == s
  {
    var t := s.jumpTimer - sense.dt;
    if t <= 0.0 && sense.grounded && sense.jumpRoll < JumpChance then
      var aimed := sense.dist <= c.detectRadius && sense.aimRoll < AimChance;
      (s.(jumpTimer := c.jumpCooldown), Jump(if aimed then Sign(sense.dx) else 0.0))
    else (s.(jumpTimer := t), NoJump)
  }

  /** `Update`: chase and hop between the attack range and the detection
      radius, stop and attack in range (the jump timer is left alone there),
      idle and hop beyond the radius; always turn towards the player. */
  function Update(s: State, c: Config, sense: Sense): (r: Frame)
    ensures s.life.dead || !sense.playerPresent ==> r == Frame(s, None, NoJump, false)
    ensures r.attack <==> !s.life.dead && sense.playerPresent &&
                          Classify(sense.dist, c.detectRadius, c.attackRange) == Close && !s.attacking
    ensures Classify(sense.dist, c.detectRadius, c.attackRange) == Close ==>
              r.jump.NoJump? && r.state.jumpTimer == s.jumpTimer
    ensures !s.life.dead && sense.playerPresent && Classify(sense.dist, c.detectRadius, c.attackRange) != Close ==>
              r.jump == RandomJump(s, c, sense).1 && r.state.jumpTimer == RandomJump(s, c, sense).0.jumpTimer
    ensures !s.life.dead && sense.playerPresent ==>
              r.state.facingRight == Turn(s.facingRight, sense.dx, c.flipDeadzone) &&
              r.vx == Some(if Classify(sense.dist, c.detectRadius, c.attackRange) == Approach
                           then ChaseVelocity(sense.dx, c.chaseSpeed) else 0.0)
    ensures r.state.attacking == (s.attacking || r.attack)
    ensures r.state.life == s.life
  {
    if s.life.dead || !sense.playerPresent then Frame(s, None, NoJump, false)
    else
      var facing := Turn(s.facingRight, sense.dx, c.flipDeadzone);
      match Classify(sense.dist, c.detectRadius, c.attackRange)
      case Approach =>
        var j := RandomJump(s, c, sense);
        Frame(j.0.(facingRight := facing), Some(ChaseVelocity(sense.dx, c.chaseSpeed)), j.1, false)
      case Close =>
        Frame(s.(facingRight := facing, attacking := true), Some(0.0), NoJump, !s.attacking)
      case Away =>
        var j := RandomJump(s, c, sense);
        Frame(j.0.(facingRight := facing), Some(0.0), j.1, false)
  }

  /** The attack's damage pass: 45 and then 1 mana to every other collider
      with a player health component. */
  function AttackHits(hits: seq<Collider>): (r: seq<Blow>)
    ensures forall b :: b in r ==> b.damage == AttackDamage && b.mana == Mana(AttackMana)
    ensures forall c :: c in hits && c.hasHealth && !c.isSelf ==> exists b :: b in r && b.target == c.id
    ensures forall b :: b in r ==> exists c :: c in hits && c.id == b.target && c.hasHealth && !c.isSelf
    ensures DistinctIds(hits) ==> OneBlowEach(r)
  {
    MeleeSweep(hits, true, AttackDamage, Mana(AttackMana))
  }

  function AttackEnd(s: State): (r: State)
    ensures !r.attacking && r.(attacking := s.attacking) == s
  {
    s.(attacking := false)
  }

  datatype Hurt = Hurt(state: State, payout: Payout, knockback: bool)

  /** `TakeDamage`: ignored once dead; otherwise the wound, and from an
      attacker knockback plus 30 mana when it is the player. */
  function TakeDamage(s: State, damage: int, attacker: Attacker): (r: Hurt)
    ensures s.life.dead ==> r == Hurt(s, NoPayout, false)
    ensures !s.life.dead ==> r.state.life == Wound(s.life, damage)
    ensures !s.life.dead ==> r.payout == PlayerReward(attacker, HitMana)
    ensures !s.life.dead ==> (r.knockback <==> attacker != NoAttacker)
    ensures r.state.(life := s.life) == s
  {
    if s.life.dead then Hurt(s, NoPayout, false)
    else Hurt(s.(life := Wound(s.life, damage)), PlayerReward(attacker, HitMana), attacker != NoAttacker)
  }

  // ---------------------------------------------------------------------------
  // Jump cooldown over a run of frames
  // ---------------------------------------------------------------------------

  function Jumps(s: State, c: Config, senses: seq<Sense>): nat
    decreases |senses|
  {
    if |senses| == 0 then 0
    else
      var f := Update(s, c, senses[0]);
      (if f.jump.Jump? then 1 else 0) + Jumps(f.state, c, senses[1..])
  }

  function TotalTime(senses: seq<Sense>): real
    decreases |senses|
  {
    if |senses| == 0 then 0.0 else senses[0].dt + TotalTime(senses[1..])
  }

  /** No hop before the jump timer has run out: frames adding up to less
      time than is left on the timer (a full `jumpCooldown` right after a
      hop) contain no jump. */
  lemma {:induction false} JumpCooldown(s: State, c: Config, senses: seq<Sense>)
    requires forall i :: 0 <= i < |senses| ==> senses[i].dt >= 0.0
    requires TotalTime(senses) < s.jumpTimer
    ensures Jumps(s, c, senses) == 0
    decreases |senses|
  {
    if |senses| > 0 {
      var f := Update(s, c, senses[0]);
      assert TotalTime(senses[1..]) >= 0.0 by { TimeNonNegative(senses[1..]); }
      assert f.jump.NoJump?;
      assert f.state.jumpTimer >= s.jumpTimer - senses[0].dt;
      JumpCooldown(f.state, c, senses[1..]);
    }
  }

  lemma {:induction false} TimeNonNegative(senses: seq<Sense>)
    requires forall i :: 0 <= i < |senses| ==> senses[i].dt >= 0.0
    ensures TotalTime(senses) >= 0.0
    decreases |senses|
  {
    if |senses| > 0 {
      TimeNonNegative(senses[1..]);
    }
  }
}

=== FILE: boss_fight_manager.dfy ===
/** The boss fight's end: once both the Snake and the Hellhound are down
    (a null reference counts as down), fade the music, shut down every
    minion spawner once, and start the delayed scene load once. The
    Hellhound is tracked through the spawner's announcement.
 */
module BossFightManager {
  import opened Common
  import Enemy2Spawner

  datatype State = State(
    listening: bool,         // a HellhoundSpawner was assigned, so its event is subscribed
    hound: Option<nat>,      // hellhoundInstance, by identity
    sceneLoading: bool,
    spawnersDisabled: bool)

  function Start(spawnerAssigned: bool): (s: State)
    ensures s.listening == spawnerAssigned && s.hound.None?
    ensures !s.sceneLoading && !s.spawnersDisabled
  {
    State(spawnerAssigned, None, false, false)
  }

  /** `OnHellhoundSpawned`, when subscribed. */
  function HoundSpawned(s: State, id: nat): (r: State)
    ensures s.listening ==> r.hound == Some(id)
    ensures !s.listening ==> r == s
    ensures r.(hound := s.hound) == s
  {
    if s.listening then s.(hound := Some(id)) else s
  }

  /** The tracked Hellhound's status in a world mapping each live Hellhound
      to its `IsDead` flag; an untracked or destroyed one is missing. */
  function HoundStatus(s: State, hounds: map<nat, bool>): (b: Boss)
    ensures b == Missing <==> s.hound.None? || s.hound.value !in hounds
    ensures b == Dead <==> s.hound.Some? && s.hound.value in hounds && hounds[s.hound.value]
  {
    if s.hound.None? || s.hound.value !in hounds then Missing
    else if hounds[s.hound.value] then Dead
    else Alive
  }

  datatype Frame = Frame(state: State, fadeMusic: bool, disableSpawners: bool, loadScene: bool)

  /** `Update`. */
  function Update(s: State, snake: Boss, hounds: map<nat, bool>): (r: Frame)
    ensures s.sceneLoading ==> r == Frame(s, false, false, false)
    ensures r.loadScene <==> !s.sceneLoading && Down(snake) && Down(HoundStatus(s, hounds))
    ensures r.fadeMusic <==> r.loadScene
    ensures r.disableSpawners <==> r.loadScene && !s.spawnersDisabled
    ensures r.loadScene ==> r.state.sceneLoading && r.state.spawnersDisabled
    ensures !r.loadScene ==> r.state == s
    ensures r.state.hound == s.hound && r.state.listening == s.listening
  {
    if s.sceneLoading then Frame(s, false, false, false)
    else if Down(snake) && Down(HoundStatus(s, hounds)) then
      Frame(s.(spawnersDisabled := true, sceneLoading := true), true, !s.spawnersDisabled, true)
    else Frame(s, false, false, false)
  }

  /** The fight is over as soon as the Snake is dead if the Hellhound has not
      been spawned yet: the missing reference counts as a dead Hellhound. */
  lemma EndsBeforeHoundSpawns(spawnerAssigned: bool, hounds: map<nat, bool>)
    ensures Update(Start(spawnerAssigned), Dead, hounds).loadScene
  {
  }

  datatype Sweep = Sweep(spawners: seq<Enemy2Spawner.State>, destroyed: seq<nat>)

  /** `DisableAllSpawners` over every spawner in the scene: the active ones
      (those `FindObjectsOfType` finds) are shut down in order and every
      minion they tracked is destroyed; a hidden one is left as it is. */
  function DisableAll(spawners: seq<Enemy2Spawner.State>): (r: Sweep)
    ensures |r.spawners| == |spawners|
    ensures forall i :: 0 <= i < |spawners| && spawners[i].active ==>
              r.spawners[i] == Enemy2Spawner.Disable(spawners[i]).state && r.spawners[i].spawned == []
    ensures forall i :: 0 <= i < |spawners| && !spawners[i].active ==> r.spawners[i] == spawners[i]
    ensures forall i :: 0 <= i < |spawners| ==> !r.spawners[i].active
    ensures forall i, x :: 0 <= i < |spawners| && spawners[i].active && x in spawners[i].spawned ==> x in r.destroyed
    ensures forall x :: x in r.destroyed ==>
              exists i :: 0 <= i < |spawners| && spawners[i].active && x in spawners[i].spawned
    decreases |spawners|
  {
    if |spawners| == 0 then Sweep([], [])
    else
      var d := Enemy2Spawner.DisableIfFound(spawners[0]);
      var rest := DisableAll(spawners[1..]);
      var r := Sweep([d.state] + rest.spawners, d.destroyed + rest.destroyed);
      assert forall i :: 1 <= i < |spawners| ==> spawners[i] == spawners[1..][i - 1];
      assert forall x :: x in rest.destroyed ==>
               exists i :: 0 <= i < |spawners| && spawners[i].active && x in spawners[i].spawned by {
        forall x | x in rest.destroyed
          ensures exists i :: 0 <= i < |spawners| && spawners[i].active && x in spawners[i].spawned
        {
          var j :| 0 <= j < |spawners[1..]| && spawners[1..][j].active && x in spawners[1..][j].spawned;
          assert spawners[j + 1].active && x in spawners[j + 1].spawned;
        }
      }
      r
  }

  // ---------------------------------------------------------------------------
  // Runs
  // ---------------------------------------------------------------------------

  datatype Event = Tick(snake: Boss, hounds: map<nat, bool>) | Announced(id: nat)

  function Step(s: State, e: Event): Frame
  {
    match e
    case Tick(snake, hounds) => Update(s, snake, hounds)
    case Announced(id) => Frame(HoundSpawned(s, id), false, false, false)
  }

  /** How many times a run of events fades the music, disables the spawners
      and starts the scene load. */
  datatype Tally = Tally(fades: nat, disables: nat, loads: nat)

  function Count(s: State, events: seq<Event>): Tally
    decreases |events|
  {
    if |events| == 0 then Tally(0, 0, 0)
    else
      var f := Step(s, events[0]);
      var t := Count(f.state, events[1..]);
      Tally(t.fades + (if f.fadeMusic then 1 else 0),
            t.disables + (if f.disableSpawners then 1 else 0),
            t.loads + (if f.loadScene then 1 else 0))
  }

  /** Each end-of-fight effect happens at most once, and never again once the
      scene load has started. */
  lemma {:induction false} EffectsOnce(s: State, events: seq<Event>)
    ensures Count(s, events).fades <= 1
    ensures Count(s, events).disables <= 1
    ensures Count(s, events).loads <= 1
    ensures s.sceneLoading ==> Count(s, events) == Tally(0, 0, 0)
    decreases |events|
  {
    if |events| > 0 {
      var f := Step(s, events[0]);
      assert s.sceneLoading ==> f.state.sceneLoading;
      assert f.loadScene || f.fadeMusic || f.disableSpawners ==> f.state.sceneLoading;
      EffectsOnce(f.state, events[1..]);
    }
  }
}

=== FILE: common.dfy ===
/** Concepts shared by every combatant of the game: optional references, the
    health/death latch every damageable enemy carries, mana paid to the player,
    the deadzone facing rule, the detect/strike range split and the melee sweep
    over the colliders an overlap query returns.
 */
module Common {

  /** A reference that may be null (or destroyed, which the engine reports as null). */
  datatype Option<T> = None | Some(value: T)

  /** Who dealt a hit: nobody passed, the player, or something else. */
  datatype Attacker = NoAttacker | PlayerAttacker | OtherAttacker

  /** Mana handed to the player's `AddMana`, or no call at all. A call with
      amount 0 is not the same as no call: `AddMana` may still enable the special. */
  datatype Payout = NoPayout | Mana(amount: real)

  /** The reward paid only when the attacker carries the player's health component. */
  function PlayerReward(attacker: Attacker, amount: real): (p: Payout)
    ensures p.Mana? <==> attacker == PlayerAttacker
    ensures p.Mana? ==> p.amount == amount
  {
    if attacker == PlayerAttacker then Mana(amount) else NoPayout
  }

  /** The reward paid to whatever player `FindObjectOfType` finds, if any. */
  function AnyPlayerReward(playerExists: bool, amount: real): (p: Payout)
    ensures p.Mana? <==> playerExists
    ensures p.Mana? ==> p.amount == amount
  {
    if playerExists then Mana(amount) else NoPayout
  }

  // ---------------------------------------------------------------------------
  // Health and the death latch
  // ---------------------------------------------------------------------------

  /** Health points and the `isDead` latch of a damageable enemy. */
  datatype Life = Life(health: int, dead: bool)

  /** The life an enemy starts with (`currentHealth = maxHealth` in `Start`). */
  function Spawned(maxHealth: int): (l: Life)
    ensures !l.dead && l.health == maxHealth
  {
    Life(maxHealth, false)
  }

  /** `Die`: sets the latch; a second call changes nothing. */
  function Die(l: Life): (r: Life)
    ensures r.dead && r.health == l.health
    ensures l.dead ==> r == l
  {
    l.(dead := true)
  }

  /** The common core of every enemy `TakeDamage`: nothing once dead, otherwise
      subtract the damage and die at zero or below. */
  function Wound(l: Life, damage: int): (r: Life)
    ensures l.dead ==> r == l
    ensures !l.dead ==> r.health == l.health - damage
    ensures !l.dead ==> (r.dead <==> r.health <= 0)
  {
    if l.dead then l
    else
      var h := l.health - damage;
      if h <= 0 then Die(Life(h, false)) else Life(h, false)
  }

  /** A sequence of hits, in order. */
  function WoundAll(l: Life, damages: seq<int>): Life
    decreases |damages|
  {
    if |damages| == 0 then l else WoundAll(Wound(l, damages[0]), damages[1..])
  }

  function Sum(xs: seq<int>): int
  {
    if |xs| == 0 then 0 else xs[0] + Sum(xs[1..])
  }

  /** Once dead, no sequence of hits changes anything. */
  lemma {:induction false} DeathIsFinal(l: Life, damages: seq<int>)
    requires l.dead
    ensures WoundAll(l, damages) == l
    decreases |damages|
  {
    if |damages| > 0 {
      DeathIsFinal(Wound(l, damages[0]), damages[1..]);
    }
  }

  /** A survivor has lost exactly the sum of the damages it took. */
  lemma {:induction false} SurvivorHealth(l: Life, damages: seq<int>)
    requires !WoundAll(l, damages).dead
    ensures !l.dead
    ensures WoundAll(l, damages).health == l.health - Sum(damages)
    decreases |damages|
  {
    if |damages| > 0 {
      var next := Wound(l, damages[0]);
      SurvivorHealth(next, damages[1..]);
    }
  }

  lemma PrefixTail(xs: seq<int>, k: nat)
    requires 0 < k < |xs|
    ensures xs[..k + 1][1..] == xs[1..][..k]
  {
  }

  /** An enemy alive before a sequence of hits is dead after it exactly when
      some prefix of the hits adds up to at least its health. */
  lemma {:induction false} KilledIff(l: Life, damages: seq<int>)
    requires !l.dead
    ensures WoundAll(l, damages).dead <==>
            exists k :: 0 < k <= |damages| && Sum(damages[..k]) >= l.health
    decreases |damages|
  {
    if |damages| == 0 {
    } else {
      var d := damages[0];
      var rest := damages[1..];
      var next := Wound(l, d);
      assert Sum(damages[..1]) == d by {
        assert damages[..1][1..] == [];
      }
      if next.dead {
        DeathIsFinal(next, rest);
        assert Sum(damages[..1]) >= l.health;
      } else {
        KilledIff(next, rest);
        // Sum of a prefix of length k + 1 is d plus the sum of the rest's prefix of length k.
        forall k | 0 < k < |damages|
          ensures Sum(damages[..k + 1]) == d + Sum(rest[..k])
        {
          PrefixTail(damages, k);
        }
        if WoundAll(next, rest).dead {
          var k :| 0 < k <= |rest| && Sum(rest[..k]) >= next.health;
          assert Sum(damages[..k + 1]) >= l.health;
        }
        if exists k :: 0 < k <= |damages| && Sum(damages[..k]) >= l.health {
          var k :| 0 < k <= |damages| && Sum(damages[..k]) >= l.health;
          assert k > 1;
          assert Sum(rest[..k - 1]) >= next.health;
        }
      }
    }
  }

  // ---------------------------------------------------------------------------
  // Kill bounty (Face, SkullBat): the reward is paid by Die, so only on the killing blow
  // ---------------------------------------------------------------------------

  datatype Outcome = Outcome(life: Life, payout: Payout)

  function Bounty(l: Life, damage: int, attacker: Attacker, reward: real): (r: Outcome)
    ensures r.life == Wound(l, damage)
    ensures r.payout.Mana? <==> !l.dead && r.life.dead && attacker == PlayerAttacker
    ensures r.payout.Mana? ==> r.payout.amount == reward
  {
    if l.dead then Outcome(l, NoPayout)
    else
      var next := Wound(l, damage);
      Outcome(next, if next.dead then PlayerReward(attacker, reward) else NoPayout)
  }

  datatype Strike = Strike(damage: int, attacker: Attacker)

  /** How many bounties a sequence of strikes pays. */
  function BountiesPaid(l: Life, strikes: seq<Strike>, reward: real): nat
    decreases |strikes|
  {
    if |strikes| == 0 then 0
    else
      var o := Bounty(l, strikes[0].damage, strikes[0].attacker, reward);
      (if o.payout.Mana? then 1 else 0) + BountiesPaid(o.life, strikes[1..], reward)
  }

  /** The bounty is paid at most once per life, and never once the enemy is dead. */
  lemma {:induction false} BountyPaidOnce(l: Life, strikes: seq<Strike>, reward: real)
    ensures BountiesPaid(l, strikes, reward) <= 1
    ensures l.dead ==> BountiesPaid(l, strikes, reward) == 0
    decreases |strikes|
  {
    if |strikes| > 0 {
      var o := Bounty(l, strikes[0].damage, strikes[0].attacker, reward);
      BountyPaidOnce(o.life, strikes[1..], reward);
    }
  }

  // ---------------------------------------------------------------------------
  // Facing with a deadzone
  // ---------------------------------------------------------------------------

  /** `FlipTowardsPlayer`: turn right when the player is more than `deadzone`
      to the right, left when more than `deadzone` to the left, else keep facing. */
  function Turn(facingRight: bool, diffX: real, deadzone: real): (r: bool)
    ensures r != facingRight ==> (r && diffX > deadzone) || (!r && diffX < -deadzone)
    ensures diffX > deadzone && !facingRight ==> r
    ensures diffX < -deadzone && facingRight ==> !r
  {
    if diffX > deadzone && !facingRight then true
    else if diffX < -deadzone && facingRight then false
    else facingRight
  }

  /** With a non-negative deadzone the facing never jitters: inside the band it
      is kept, outside it points at the player, and turning again changes nothing. */
  lemma TurnHysteresis(facingRight: bool, diffX: real, deadzone: real)
    requires deadzone >= 0.0
    ensures -deadzone <= diffX <= deadzone ==> Turn(facingRight, diffX, deadzone) == facingRight
    ensures diffX > deadzone ==> Turn(facingRight, diffX, deadzone)
    ensures diffX < -deadzone ==> !Turn(facingRight, diffX, deadzone)
    ensures Turn(Turn(facingRight, diffX, deadzone), diffX, deadzone) == Turn(facingRight, diffX, deadzone)
  {
  }

  // ---------------------------------------------------------------------------
  // Detect / strike ranges
  // ---------------------------------------------------------------------------

  /** Where the player is relative to an enemy's detect radius and strike range. */
  datatype Reach = Away | Approach | Close

  function Classify(dist: real, detect: real, strike: real): (r: Reach)
    ensures r == Away <==> dist > detect
    ensures r == Approach <==> strike < dist <= detect
    ensures r == Close <==> dist <= detect && dist <= strike
  {
    if dist <= detect then (if dist > strike then Approach else Close) else Away
  }

  // ---------------------------------------------------------------------------
  // Melee sweep over an overlap query's colliders
  // ---------------------------------------------------------------------------

  /** One collider returned by an overlap query: an identity, whether it is the
      attacker's own object, and whether it carries the player's health component. */
  datatype Collider = Collider(id: nat, isSelf: bool, hasHealth: bool)

  /** Damage (and optionally mana) dealt to one player health component. */
  datatype Blow = Blow(target: nat, damage: int, mana: Payout)

  predicate Hittable(c: Collider, skipSelf: bool)
  {
    c.hasHealth && !(skipSelf && c.isSelf)
  }

  /** The colliders of one query are distinct objects. */
  predicate DistinctIds(hits: seq<Collider>)
  {
    forall i, j :: 0 <= i < j < |hits| ==> hits[i].id != hits[j].id
  }

  /** No target takes two blows. */
  predicate OneBlowEach(r: seq<Blow>)
  {
    forall i, j :: 0 <= i < j < |r| ==> r[i].target != r[j].target
  }

  /** Prepending the first collider's blow to the sweep of the others keeps
      one blow per target when the colliders are distinct. */
  lemma SweepHead(hits: seq<Collider>, rest: seq<Blow>)
    requires |hits| > 0
    requires forall b :: b in rest ==> exists c :: c in hits[1..] && c.id == b.target
    requires DistinctIds(hits[1..]) ==> OneBlowEach(rest)
    ensures DistinctIds(hits) ==> forall b :: b in rest ==> b.target != hits[0].id
    ensures DistinctIds(hits) ==> DistinctIds(hits[1..])
  {
    if DistinctIds(hits) {
      forall b | b in rest ensures b.target != hits[0].id {
        var c :| c in hits[1..] && c.id == b.target;
        var k :| 0 <= k < |hits[1..]| && hits[1..][k] == c;
        assert c == hits[k + 1];
      }
      forall i, j | 0 <= i < j < |hits[1..]| ensures hits[1..][i].id != hits[1..][j].id {
        assert hits[1..][i] == hits[i + 1] && hits[1..][j] == hits[j + 1];
      }
    }
  }

  /** A blow on a fresh target keeps one blow per target. */
  lemma PrependBlow(x: Blow, rest: seq<Blow>)
    ensures OneBlowEach(rest) && (forall b :: b in rest ==> b.target != x.target) ==> OneBlowEach([x] + rest)
  {
    var r := [x] + rest;
    if OneBlowEach(rest) && forall b :: b in rest ==> b.target != x.target {
      forall i, j | 0 <= i < j < |r| ensures r[i].target != r[j].target {
        assert r[j] == rest[j - 1] && r[j] in rest;
        if i > 0 {
          assert r[i] == rest[i - 1];
        }
      }
    }
  }

  /** The `foreach (Collider2D col in hits)` loop of a melee attack: every
      collider with a health component (other than the attacker itself when
      `skipSelf`) takes `damage`, and then `mana` if any, once. */
  function MeleeSweep(hits: seq<Collider>, skipSelf: bool, damage: int, mana: Payout): (r: seq<Blow>)
    ensures |r| <= |hits|
    ensures forall b :: b in r ==> b.damage == damage && b.mana == mana
    ensures forall b :: b in r ==> exists c :: c in hits && c.id == b.target && Hittable(c, skipSelf)
    ensures forall c :: c in hits && Hittable(c, skipSelf) ==> exists b :: b in r && b.target == c.id
    ensures DistinctIds(hits) ==> OneBlowEach(r)
    decreases |hits|
  {
    if |hits| == 0 then []
    else
      var rest := MeleeSweep(hits[1..], skipSelf, damage, mana);
      assert forall c :: c in hits[1..] ==> c in hits;
      assert forall c :: c in hits ==> c == hits[0] || c in hits[1..];
      SweepHead(hits, rest);
      if Hittable(hits[0], skipSelf) then
        var x := Blow(hits[0].id, damage, mana);
        PrependBlow(x, rest);
        [x] + rest
      else rest
  }

  // ---------------------------------------------------------------------------
  // Boss status as seen by the fight manager and the enemy spawners
  // ---------------------------------------------------------------------------

  /** A boss reference: null (never spawned, or destroyed), alive, or dead. */
  datatype Boss = Missing | Alive | Dead

  /** `boss == null || boss.IsDead`: a missing boss counts as down. */
  predicate Down(b: Boss)
  {
    b != Alive
  }

  // ---------------------------------------------------------------------------
  // Ground chasers (SkeletonWarrior, Goblin, Bird)
  // ---------------------------------------------------------------------------

  /** `Mathf.Sign`: 1 for zero and positive values, -1 for negative ones. */
  function Sign(x: real): (r: real)
    ensures r == 1.0 || r == -1.0
    ensures r == 1.0 <==> x >= 0.0
  {
    if x >= 0.0 then 1.0 else -1.0
  }

  /** The horizontal chase velocity towards a player `dx` away. */
  function ChaseVelocity(dx: real, speed: real): (vx: real)
    ensures speed > 0.0 ==> (vx > 0.0 <==> dx >= 0.0)
    ensures vx == speed || vx == -speed
  {
    Sign(dx) * speed
  }

  /** The chase's jump rule: jump when grounded and facing an obstacle or a gap. */
  predicate ChaseJump(obstacle: bool, groundAhead: bool, grounded: bool)
  {
    (obstacle || !groundAhead) && grounded
  }

  /** `IsGroundAhead` and `IsGrounded` ask the very same overlap question
      (the same check point, radius and layer), so they always agree, and the
      "no ground ahead" half of the rule can never make the enemy jump: it
      jumps exactly at obstacles while grounded. */
  lemma GapNeverJumps(obstacle: bool, groundCheck: bool)
    ensures ChaseJump(obstacle, groundCheck, groundCheck) <==> obstacle && groundCheck
  {
  }

  // ---------------------------------------------------------------------------
  // Flyers (Face, SkullBat, Flying2)
  // ---------------------------------------------------------------------------

  /** Where a flyer's `movement` points: nowhere, at the player, or at a
      wander point (the normalised direction is left symbolic). */
  datatype Course = Rest | TowardPlayer | TowardPoint(x: real, y: real)

  /** The strike of `PerformAttack`: the distance is checked again, and only a
      living player with a health component takes the damage. */
  function RangedStrike(dist: real, range: real, damage: int, hasHealth: bool, playerDead: bool): (r: Option<int>)
    ensures r.Some? <==> dist <= range && hasHealth && !playerDead
    ensures r.Some? ==> r.value == damage
  {
    if dist <= range && hasHealth && !playerDead then Some(damage) else None
  }

  /** A sprite flipped by the sign of the player's horizontal offset, kept as it is at zero. */
  function FaceTowards(facingRight: bool, dx: real): (r: bool)
    ensures dx > 0.0 ==> r
    ensures dx < 0.0 ==> !r
    ensures dx == 0.0 ==> r == facingRight
  {
    if dx > 0.0 then true else if dx < 0.0 then false else facingRight
  }
}

=== FILE: dialogue.dfy ===
/** The trigger-started text panel: the player entering its trigger starts
    the dialogue once; the panel types each line, Return either completes the
    line being typed or moves to the next one, and after the last line the
    panel hides and clears its text. As written, `Start` hides the panel's own
    object, and a hidden object receives no trigger messages, so the trigger
    never fires (`NeverShown`); the rest describes the panel once something
    calls `StartDialogue`.

    Indexing `lines` out of range throws; the engine logs the exception and
    abandons the coroutine or the `Update` call at that point, so the model
    returns the state as it stood at the throw, flagged.
 */
module Dialogue {

  datatype State = State(
    lines: seq<string>,
    index: int,
    triggered: bool,
    typing: bool,       // the `typing` flag
    typerAlive: bool,   // a TypeLine coroutine is running
    typed: nat,         // characters it has shown
    active: bool,       // gameObject.activeSelf
    shown: string)      // textComponent.text

  datatype Outcome = Outcome(state: State, threw: bool)

  /** `Start`: empty text, panel hidden. */
  function Start(lines: seq<string>): (s: State)
    ensures s.lines == lines && !s.active && s.shown == "" && !s.triggered
    ensures !s.typing && !s.typerAlive
  {
    State(lines, 0, false, false, false, 0, false, "")
  }

  predicate InRange(s: State)
  {
    0 <= s.index < |s.lines|
  }

  /** The synchronous start of `TypeLine`: set `typing`, clear the text, and
      show the first character; an empty line finishes at once, and an index
      out of range throws after `typing` was set. */
  function TypeLine(s: State): (r: Outcome)
    ensures r.state.typing <==> !InRange(s) || |s.lines[s.index]| > 0
    ensures r.threw <==> !InRange(s)
    ensures InRange(s) ==> r.state.shown <= s.lines[s.index]
    ensures r.state.typerAlive ==> r.state.typed == 1
    ensures r.state.index == s.index && r.state.lines == s.lines && r.state.active == s.active
    ensures r.state.triggered == s.triggered
  {
    var s1 := s.(typing := true, shown := "");
    if !InRange(s) then Outcome(s1.(typerAlive := false), true)
    else if |s.lines[s.index]| == 0 then Outcome(s1.(typing := false, typerAlive := false, typed := 0), false)
    else Outcome(s1.(typerAlive := true, typed := 1, shown := s.lines[s.index][..1]), false)
  }

  /** One step of a running `TypeLine`: the next character, or the end. */
  function TypeTick(s: State): (r: State)
    ensures !s.typerAlive ==> r == s
    ensures s.typerAlive && InRange(s) && s.typed < |s.lines[s.index]| ==>
              r.typerAlive && r.typed == s.typed + 1 && r.shown == s.lines[s.index][..s.typed + 1]
    ensures s.typerAlive && InRange(s) && s.typed >= |s.lines[s.index]| ==> !r.typerAlive && !r.typing
    ensures r.index == s.index && r.lines == s.lines && r.active == s.active
  {
    if !s.typerAlive || !InRange(s) then s
    else if s.typed < |s.lines[s.index]| then
      s.(typed := s.typed + 1, shown := s.lines[s.index][..s.typed + 1])
    else s.(typing := false, typerAlive := false)
  }

  /** `StartDialogue`: first line, panel shown, typing started. */
  function StartDialogue(s: State): (r: Outcome)
    ensures r.state.index == 0 && r.state.active
    ensures r.threw <==> |s.lines| == 0
  {
    TypeLine(s.(index := 0, active := true))
  }

  /** `EndDialogue`. */
  function EndDialogue(s: State): (r: State)
    ensures !r.active && r.shown == ""
    ensures r.(active := s.active, shown := s.shown) == s
  {
    s.(active := false, shown := "")
  }

  /** `NextLine`: to the next line if there is one, else end. */
  function NextLine(s: State): (r: Outcome)
    ensures s.index < |s.lines| - 1 ==> r.state.index == s.index + 1
    ensures s.index >= |s.lines| - 1 ==> r == Outcome(EndDialogue(s), false)
  {
    if s.index < |s.lines| - 1 then TypeLine(s.(index := s.index + 1))
    else Outcome(EndDialogue(s), false)
  }

  /** `Update` with whether Return went down this frame: while typing,
      complete the line at once (`StopAllCoroutines` runs before the line is
      read); otherwise go to the next line. Nothing happens while hidden. */
  function Update(s: State, returnDown: bool): (r: Outcome)
    ensures !s.active || !returnDown ==> r == Outcome(s, false)
    ensures s.active && returnDown && s.typing ==>
              !r.state.typerAlive &&
              (r.threw <==> !InRange(s)) &&
              (!r.threw ==> !r.state.typing && r.state.shown == s.lines[s.index])
    ensures s.active && returnDown && s.typing ==> r.state.index == s.index
    ensures s.active && returnDown && !s.typing ==> r == NextLine(s)
  {
    if !s.active || !returnDown then Outcome(s, false)
    else if s.typing then
      var s1 := s.(typerAlive := false);
      if !InRange(s) then Outcome(s1, true)
      else Outcome(s1.(shown := s.lines[s.index], typing := false), false)
    else NextLine(s)
  }

  /** `OnTriggerEnter2D`: the engine sends it only to an active object, and
      there the first player contact starts the dialogue. */
  function Trigger(s: State, isPlayer: bool): (r: Outcome)
    ensures !s.active || s.triggered || !isPlayer ==> r == Outcome(s, false)
    ensures s.active && !s.triggered && isPlayer ==>
              r.state.triggered && r.state.active && r.state.index == 0
  {
    if s.active && !s.triggered && isPlayer then StartDialogue(s.(triggered := true))
    else Outcome(s, false)
  }

  // ---------------------------------------------------------------------------
  // Invariant and runs
  // ---------------------------------------------------------------------------

  /** With at least one line, the index stays within the lines, a running
      typer has shown a prefix of the current line, and a line that is not
      being typed is shown in full while the panel is up. */
  ghost predicate Valid(s: State)
  {
    |s.lines| > 0 && InRange(s) &&
    (s.typerAlive ==> s.typing && 1 <= s.typed <= |s.lines[s.index]| && s.shown == s.lines[s.index][..s.typed]) &&
    (s.typing ==> s.typerAlive) &&
    (s.active && !s.typing ==> s.shown == s.lines[s.index]) &&
    (!s.active ==> !s.typing)
  }

  datatype Event = Contact(isPlayer: bool) | Frame(returnDown: bool) | Typed

  function Step(s: State, e: Event): Outcome
  {
    match e
    case Contact(p) => Trigger(s, p)
    case Frame(k) => Update(s, k)
    case Typed => Outcome(TypeTick(s), false)
  }

  lemma StepKeepsValid(s: State, e: Event)
    requires Valid(s)
    ensures Valid(Step(s, e).state) && !Step(s, e).threw
  {
  }

  function Run(s: State, events: seq<Event>): State
    decreases |events|
  {
    if |events| == 0 then s else Run(Step(s, events[0]).state, events[1..])
  }

  /** With at least one line nothing ever throws, and the invariant holds
      after any run of contacts, frames and typing steps. */
  lemma {:induction false} RunKeepsValid(s: State, events: seq<Event>)
    requires Valid(s)
    ensures Valid(Run(s, events))
    decreases |events|
  {
    if |events| > 0 {
      StepKeepsValid(s, events[0]);
      RunKeepsValid(Step(s, events[0]).state, events[1..]);
    }
  }

  /** How many times a run starts the dialogue through the trigger. */
  function Starts(s: State, events: seq<Event>): nat
    decreases |events|
  {
    if |events| == 0 then 0
    else
      var r := Step(s, events[0]).state;
      (if !s.triggered && r.triggered then 1 else 0) + Starts(r, events[1..])
  }

  /** The trigger starts the dialogue at most once, and never again once used. */
  lemma {:induction false} TriggeredOnce(s: State, events: seq<Event>)
    ensures Starts(s, events) <= 1
    ensures s.triggered ==> Starts(s, events) == 0
    decreases |events|
  {
    if |events| > 0 {
      var r := Step(s, events[0]).state;
      assert s.triggered ==> r.triggered;
      TriggeredOnce(r, events[1..]);
    }
  }

  /** With no lines the panel gets stuck: the start throws with `typing` set,
      and from then on every Return throws again, so the panel never closes. */
  lemma {:induction false} NoLinesStuck(s: State, events: seq<Event>)
    requires s.lines == [] && s.active && s.typing && !s.typerAlive
    ensures Run(s, events).active && Run(s, events).typing
    decreases |events|
  {
    if |events| > 0 {
      var r := Step(s, events[0]);
      assert r.state.lines == [] && r.state.active && r.state.typing && !r.state.typerAlive;
      NoLinesStuck(r.state, events[1..]);
    }
  }

  /** A call of `StartDialogue` with no lines leaves exactly that stuck state. */
  lemma NoLinesStart(lines: seq<string>)
    requires lines == []
    ensures var r := StartDialogue(Start(lines));
            r.threw && r.state.active && r.state.typing && !r.state.typerAlive
  {
  }

  /** A hidden panel with no typing running stays exactly as it is: frames
      do nothing while it is hidden, and it gets no trigger messages. */
  lemma {:induction false} HiddenStays(s: State, events: seq<Event>)
    requires !s.active && !s.typerAlive
    ensures Run(s, events) == s
    decreases |events|
  {
    if |events| > 0 {
      assert Step(s, events[0]) == Outcome(s, false);
      HiddenStays(s, events[1..]);
    }
  }

  /** `Start` hides the panel's own object, so its trigger can never start
      the dialogue: whatever the contacts, frames and typing steps, the panel
      stays hidden and empty. Only a call of `StartDialogue` from elsewhere
      could show it. */
  lemma NeverShown(lines: seq<string>, events: seq<Event>)
    ensures Run(Start(lines), events) == Start(lines)
    ensures !Run(Start(lines), events).active && Starts(Start(lines), events) == 0
  {
    HiddenStays(Start(lines), events);
    NoStarts(Start(lines), events);
  }

  lemma {:induction false} NoStarts(s: State, events: seq<Event>)
    requires !s.active && !s.typerAlive
    ensures Starts(s, events) == 0
    decreases |events|
  {
    if |events| > 0 {
      assert Step(s, events[0]) == Outcome(s, false);
      NoStarts(s, events[1..]);
    }
  }
}

=== FILE: dialogue_manager.dfy ===
/** The portrait dialogue box: `StartDialogue` shows the box and starts a
    line coroutine that types each line character by character (through a
    second coroutine, whose handle it keeps), lets the advance key skip the
    typing, then waits for the key or for the line's auto-advance time, and
    closes the box after the last line.

    Every `StartDialogue` starts a new line coroutine and nothing stops the
    ones already running, so the state holds the list of live line
    coroutines, oldest first, each suspended at one of its `yield return
    null` with its own `line` local; they share the lines, the index, the
    typing handle and the text. One frame resumes each of them in that order
    (`Resume`), with the frame's `GetKeyDown` and `deltaTime`; one step of the
    typing coroutine (its `WaitForSeconds(typingSpeed)` elapsing) is
    `TypeTick`. A line coroutine that reads the lines after `EndDialogue` has
    nulled them throws; the engine logs it and drops that coroutine.
    Portraits and voice clips are not modelled.
 */
module DialogueManager {
  import opened Common

  /** `DialogueLine`: the text and the auto-advance time (0 waits for the key). */
  datatype Line = Line(text: string, autoAdvance: real)

  /** Where a line coroutine is suspended: waiting for the typing handle to
      clear, counting up to the auto-advance time, or waiting for the key. */
  datatype Phase = WaitTyping | Auto(t: real) | AwaitKey

  /** A suspended `PlayLineCoroutine` with its `line` local. */
  datatype Co = Co(phase: Phase, line: Line)

  datatype State = State(
    lines: Option<seq<Line>>, // the `lines` field; null before a start and after the end
    index: nat,
    box: bool,                // dialogueBox is active
    cos: seq<Co>,             // the live line coroutines, oldest first
    handle: bool,             // typingCoroutine != null
    typingAlive: bool,        // the typing coroutine is still running
    typingText: string,       // the text the typing coroutine was started with
    typed: nat,               // characters the typing coroutine has shown
    shown: string)            // dialogueText.text

  /** `Start`: the box is hidden and nothing runs. */
  function Start(): (s: State)
    ensures !s.box && s.lines.None? && s.cos == [] && !s.handle && !s.typingAlive
  {
    State(None, 0, false, [], false, false, "", 0, "")
  }

  /** The text of the current line. */
  function Text(s: State): string
    requires s.lines.Some? && s.index < |s.lines.value|
  {
    s.lines.value[s.index].text
  }

  /** The typing coroutine has shown a prefix of the text it was given. */
  ghost predicate TypingOk(s: State)
  {
    s.typingAlive ==> s.handle && 1 <= s.typed <= |s.typingText| && s.shown == s.typingText[..s.typed]
  }

  /** What the model keeps true: the box is up exactly while there are lines;
      then the index is in range, a live typing coroutine types the current
      line, and once it is gone the whole current line is on screen. */
  ghost predicate Valid(s: State)
  {
    TypingOk(s) &&
    (s.box <==> s.lines.Some?) &&
    (s.lines.Some? ==>
      s.index < |s.lines.value| &&
      (s.typingAlive ==> s.typingText == Text(s)) &&
      (!s.typingAlive ==> s.shown == Text(s)))
  }

  /** `StartCoroutine(TypeLine(text))` after stopping the previous typing.
      `TypeLine` runs synchronously up to its first wait: it clears the text
      and shows the first character. For an empty text it finishes before
      any wait, and `StartCoroutine` then returns null, so the handle stays
      cleared. */
  function StartTyping(s: State, text: string): (r: State)
    ensures r.handle <==> |text| > 0
    ensures r.typingAlive <==> |text| > 0
    ensures r.typingText == text
    ensures r.shown <= text && (|text| > 0 ==> |r.shown| == 1)
    ensures r.(handle := s.handle, typingAlive := s.typingAlive, typingText := s.typingText,
               typed := s.typed, shown := s.shown) == s
  {
    if |text| == 0 then s.(handle := false, typingAlive := false, typingText := text, typed := 0, shown := "")
    else s.(handle := true, typingAlive := true, typingText := text, typed := 1, shown := text[..1])
  }

  /** `SkipTyping` reads the current line after clearing the handle, so with
      the lines nulled it throws. */
  predicate SkipThrows(s: State)
  {
    s.handle && s.lines.None?
  }

  /** `SkipTyping`: stop the typing, clear the handle and show the whole line. */
  function SkipTyping(s: State): (r: State)
    requires s.lines.Some? ==> s.index < |s.lines.value|
    ensures !s.handle ==> r == s
    ensures s.handle ==> !r.handle && !r.typingAlive
    ensures s.handle && s.lines.Some? ==> r.shown == Text(s)
    ensures SkipThrows(s) ==> r.shown == s.shown
    ensures r.(handle := s.handle, typingAlive := s.typingAlive, shown := s.shown) == s
  {
    if !s.handle then s
    else if s.lines.None? then s.(handle := false, typingAlive := false)
    else s.(handle := false, typingAlive := false, shown := Text(s))
  }

  /** `EndDialogue`: hide the box, null the lines, reset the index. The text
      on screen and the typing coroutine are left as they are. */
  function EndDialogue(s: State): (r: State)
    ensures !r.box && r.lines.None? && r.index == 0
    ensures r.(box := s.box, lines := s.lines, index := s.index) == s
  {
    s.(box := false, lines := None, index := 0)
  }

  /** What one line coroutine's resumption produced: the shared state, the
      coroutine suspended again (or none when it finished), and whether it
      finished by throwing. */
  datatype Resumed = Resumed(state: State, co: Option<Co>, threw: bool)

  /** How many lines are left from the current one; it bounds how far one
      resumption can run through empty lines. */
  function Remaining(s: State): nat
  {
    if s.lines.Some? && s.index < |s.lines.value| then |s.lines.value| - s.index else 0
  }

  /** What the loop top, `while (index < lines.Length)`, does from `s` (with
      lines) to `r`: past the last line the dialogue ends; a non-empty line
      is entered, its typing started and, if the key is down, skipped; an
      empty line is not typed, so the coroutine goes straight into the line's
      wait, where a key that is down moves it on in the same frame. */
  ghost predicate Entered(s: State, key: bool, dt: real, r: Resumed)
    requires s.lines.Some?
  {
    var n := |s.lines.value|;
    !r.threw && r.state.cos == s.cos &&
    (s.index >= n ==>
       r.co.None? && r.state.lines.None? && !r.state.box && r.state.index == 0) &&
    (s.index < n && |s.lines.value[s.index].text| > 0 ==>
       r.co == Some(Co(WaitTyping, s.lines.value[s.index])) &&
       r.state.lines == s.lines && r.state.index == s.index && r.state.box &&
       r.state.handle == !key &&
       (key ==> !r.state.typingAlive && r.state.shown == s.lines.value[s.index].text) &&
       (!key ==> r.state.typingAlive)) &&
    (s.index < n && s.lines.value[s.index].text == "" && !key ==>
       r.state.lines == s.lines && r.state.index == s.index && r.state.box &&
       !r.state.handle && r.state.shown == "" &&
       (s.lines.value[s.index].autoAdvance > 0.0 ==> r.co == Some(Co(Auto(dt), s.lines.value[s.index]))) &&
       (s.lines.value[s.index].autoAdvance <= 0.0 ==> r.co == Some(Co(AwaitKey, s.lines.value[s.index])))) &&
    (s.index < n && s.lines.value[s.index].text == "" && key ==>
       r.state.lines.None? || (r.state.lines == s.lines && r.state.index > s.index))
  }

  /** The top of the line loop: enter the current line and run into the
      typing wait, whose first check sees the fresh handle and skips the
      typing if the key is down this frame; an empty line goes on into its
      wait at once; past the last line the dialogue ends. With the lines
      nulled the check throws. */
  function EnterLine(s: State, key: bool, dt: real): (r: Resumed)
    requires TypingOk(s) && (s.box <==> s.lines.Some?)
    ensures Valid(r.state) && r.state.cos == s.cos
    ensures s.lines.None? ==> r == Resumed(s, None, true)
    ensures s.lines.Some? ==> Entered(s, key, dt, r)
    decreases Remaining(s), 2
  {
    if s.lines.None? then Resumed(s, None, true)
    else if s.index >= |s.lines.value| then Resumed(EndDialogue(s), None, false)
    else
      var line := s.lines.value[s.index];
      var s1 := StartTyping(s, line.text);
      if |line.text| > 0 then
        Resumed(if key then SkipTyping(s1) else s1, Some(Co(WaitTyping, line)), false)
      else AfterTyping(s1, Co(WaitTyping, line), key, dt)
  }

  /** What `index++` followed by the loop top does from `s` to `r`; with the
      lines nulled the coroutine throws. */
  ghost predicate Advanced(s: State, key: bool, dt: real, r: Resumed)
  {
    r.state.cos == s.cos &&
    (s.lines.Some? ==> Entered(s.(index := s.index + 1), key, dt, r)) &&
    (s.lines.None? ==> r.threw && r.co.None? && r.state.index == s.index + 1)
  }

  /** `index++` and on to the loop top. */
  function Advance(s: State, key: bool, dt: real): (r: Resumed)
    requires Valid(s)
    ensures Valid(r.state)
    ensures Advanced(s, key, dt, r)
    decreases Remaining(s), 0
  {
    if s.lines.None? then Resumed(s.(index := s.index + 1), None, true)
    else EnterLine(s.(index := s.index + 1), key, dt)
  }

  /** The typing loop has just ended: enter the auto-advance or key wait of
      the coroutine's own line, with the first check of its loop. */
  function AfterTyping(s: State, c: Co, key: bool, dt: real): (r: Resumed)
    requires Valid(s)
    ensures Valid(r.state)
    ensures key ==> Advanced(s, key, dt, r)
    ensures !key && c.line.autoAdvance > 0.0 ==> r == Resumed(s, Some(Co(Auto(dt), c.line)), false)
    ensures !key && c.line.autoAdvance <= 0.0 ==> r == Resumed(s, Some(Co(AwaitKey, c.line)), false)
    decreases Remaining(s), 1
  {
    if c.line.autoAdvance > 0.0 then
      if key then Advance(s, key, dt) else Resumed(s, Some(c.(phase := Auto(dt))), false)
    else if key then Advance(s, key, dt) else Resumed(s, Some(c.(phase := AwaitKey)), false)
  }

  /** One resumption of a line coroutine `c`. */
  function ResumeCo(s: State, c: Co, key: bool, dt: real): (r: Resumed)
    requires Valid(s)
    ensures Valid(r.state) && r.state.cos == s.cos
    // waiting for the typing
    ensures c.phase == WaitTyping && s.handle && !key ==> r == Resumed(s, Some(c), false)
    ensures c.phase == WaitTyping && s.handle && key && s.lines.Some? ==>
              r.co == Some(c) && !r.threw && !r.state.handle && r.state.shown == Text(s) &&
              r.state.index == s.index && r.state.lines == s.lines
    ensures c.phase == WaitTyping && s.handle && key && s.lines.None? ==> r.threw && r.co.None?
    ensures c.phase == WaitTyping && !s.handle && !key ==>
              r.state == s && !r.threw && r.co.Some? && r.co.value.line == c.line
    ensures c.phase == WaitTyping && !s.handle && !key && c.line.autoAdvance > 0.0 ==>
              r.co == Some(Co(Auto(dt), c.line))
    ensures c.phase == WaitTyping && !s.handle && !key && c.line.autoAdvance <= 0.0 ==>
              r.co == Some(Co(AwaitKey, c.line))
    // counting up to the auto-advance time
    ensures c.phase.Auto? && c.phase.t < c.line.autoAdvance && !key ==>
              r == Resumed(s, Some(Co(Auto(c.phase.t + dt), c.line)), false)
    // waiting for the key
    ensures c.phase == AwaitKey && !key ==> r == Resumed(s, Some(c), false)
    // moving on
    ensures ((c.phase == WaitTyping && !s.handle && key) ||
             (c.phase.Auto? && (key || c.phase.t >= c.line.autoAdvance)) ||
             (c.phase == AwaitKey && key)) ==> Advanced(s, key, dt, r)
  {
    match c.phase
    case WaitTyping =>
      if s.handle then
        if !key then Resumed(s, Some(c), false)
        else if SkipThrows(s) then Resumed(SkipTyping(s), None, true)
        else Resumed(SkipTyping(s), Some(c), false)
      else AfterTyping(s, c, key, dt)
    case Auto(t) =>
      if t < c.line.autoAdvance && !key then Resumed(s, Some(c.(phase := Auto(t + dt))), false)
      else Advance(s, key, dt)
    case AwaitKey =>
      if key then Advance(s, key, dt) else Resumed(s, Some(c), false)
  }

  /** Resume `pending` in order on top of `s`, whose `cos` holds the
      coroutines already resumed this frame that are still alive. */
  function ResumeAll(s: State, pending: seq<Co>, key: bool, dt: real): (r: State)
    requires Valid(s)
    ensures Valid(r)
    ensures |r.cos| <= |s.cos| + |pending|
    ensures |pending| == 0 ==> r == s
    decreases |pending|
  {
    if |pending| == 0 then s
    else
      var x := ResumeCo(s, pending[0], key, dt);
      var kept := if x.co.Some? then [x.co.value] else [];
      ResumeAll(x.state.(cos := s.cos + kept), pending[1..], key, dt)
  }

  /** One frame: every live line coroutine resumes once, oldest first. */
  function Resume(s: State, key: bool, dt: real): (r: State)
    requires Valid(s)
    ensures Valid(r)
    ensures |r.cos| <= |s.cos|
  {
    ResumeAll(s.(cos := []), s.cos, key, dt)
  }

  /** With a single line coroutine a frame is that coroutine's resumption. */
  lemma ResumeOne(s: State, key: bool, dt: real)
    requires Valid(s) && |s.cos| == 1
    ensures var x := ResumeCo(s.(cos := []), s.cos[0], key, dt);
            Resume(s, key, dt) == x.state.(cos := if x.co.Some? then [x.co.value] else [])
  {
    var x := ResumeCo(s.(cos := []), s.cos[0], key, dt);
    var kept := if x.co.Some? then [x.co.value] else [];
    assert Resume(s, key, dt) == ResumeAll(x.state.(cos := [] + kept), s.cos[1..], key, dt);
    assert [] + kept == kept;
  }

  /** One step of `TypeLine`: show the next character, or finish and clear
      the handle. */
  function TypeTick(s: State): (r: State)
    requires Valid(s)
    ensures Valid(r)
    ensures s.typingAlive && s.typed < |s.typingText| ==>
              r.typingAlive && r.typed == s.typed + 1 && r.shown == s.typingText[..s.typed + 1]
    ensures s.typingAlive && s.typed == |s.typingText| ==>
              !r.handle && !r.typingAlive && r.shown == s.typingText
    ensures s.typingAlive && s.lines.Some? && s.typed == |s.typingText| ==> r.shown == Text(s)
    ensures !s.typingAlive ==> r == s
    ensures r.index == s.index && r.lines == s.lines && r.cos == s.cos && r.box == s.box
  {
    if !s.typingAlive then s
    else if s.typed < |s.typingText| then
      s.(typed := s.typed + 1, shown := s.typingText[..s.typed + 1])
    else s.(typingAlive := false, handle := false)
  }

  /** `StartDialogue`: nothing for no lines; otherwise show the box from the
      first line and add a new line coroutine, run to its first yield (inside
      the typing wait for a non-empty first line, skipping the typing at once
      if the key is down). The coroutines already running are neither
      stopped nor told. */
  function StartDialogue(s: State, lines: seq<Line>, key: bool, dt: real): (r: State)
    requires Valid(s)
    ensures |lines| == 0 ==> r == s
    ensures |lines| > 0 ==> |s.cos| <= |r.cos| <= |s.cos| + 1 && r.cos[..|s.cos|] == s.cos
    ensures |lines| > 0 && |lines[0].text| > 0 ==>
              r.box && r.lines == Some(lines) && r.index == 0 &&
              r.cos == s.cos + [Co(WaitTyping, lines[0])] && r.handle == !key
    ensures |lines| > 0 && |lines[0].text| > 0 && key ==> r.shown == lines[0].text
    ensures |lines| > 0 && |lines[0].text| > 0 && !key ==> r.typingAlive
    ensures |lines| > 0 && lines[0].text == "" && !key ==>
              r.box && r.lines == Some(lines) && r.index == 0 && !r.handle &&
              r.cos == s.cos + [Co(if lines[0].autoAdvance > 0.0 then Auto(dt) else AwaitKey, lines[0])]
    ensures Valid(r)
  {
    if |lines| == 0 then s
    else
      var x := EnterLine(s.(lines := Some(lines), index := 0, box := true), key, dt);
      x.state.(cos := s.cos + (if x.co.Some? then [x.co.value] else []))
  }

  // ---------------------------------------------------------------------------
  // Runs
  // ---------------------------------------------------------------------------

  /** A frame, a typing step, or a call of `StartDialogue` (as `NPCDialogue`
      makes on the player's first contact) with that frame's key and time. */
  datatype Event = Frame(key: bool, dt: real) | Typed | Begin(lines: seq<Line>, beginKey: bool, beginDt: real)

  function Step(s: State, e: Event): (r: State)
    requires Valid(s)
    ensures Valid(r)
  {
    match e
    case Frame(key, dt) => Resume(s, key, dt)
    case Typed => TypeTick(s)
    case Begin(lines, key, dt) => StartDialogue(s, lines, key, dt)
  }

  function Run(s: State, events: seq<Event>): (r: State)
    requires Valid(s)
    ensures Valid(r)
    decreases |events|
  {
    if |events| == 0 then s else Run(Step(s, events[0]), events[1..])
  }

  /** Every live line coroutine is inside the typing wait. */
  predicate AllWaitTyping(cos: seq<Co>)
  {
    forall i :: 0 <= i < |cos| ==> cos[i].phase == WaitTyping
  }

  /** A frame without the key leaves coroutines that wait on a set typing
      handle exactly where they are. */
  lemma {:induction false} HeldFrame(s: State, pending: seq<Co>, dt: real)
    requires Valid(s) && s.handle && AllWaitTyping(pending)
    ensures ResumeAll(s, pending, false, dt) == s.(cos := s.cos + pending)
    decreases |pending|
  {
    if |pending| > 0 {
      assert pending[0].phase == WaitTyping;
      var s1 := s.(cos := s.cos + [pending[0]]);
      assert AllWaitTyping(pending[1..]) by {
        forall i | 0 <= i < |pending[1..]| ensures pending[1..][i].phase == WaitTyping {
          assert pending[1..][i] == pending[i + 1];
        }
      }
      HeldFrame(s1, pending[1..], dt);
      assert s1.cos + pending[1..] == s.cos + pending;
    }
  }

  /** The key that advances a finished line also skips the next line's
      typing: with one coroutine waiting for the key, the whole next line
      appears in the same frame; an empty next line is passed over as well. */
  lemma KeySkipsNextLine(s: State, line: Line, dt: real)
    requires Valid(s) && s.cos == [Co(AwaitKey, line)]
    requires s.lines.Some? && s.index + 1 < |s.lines.value|
    ensures var r := Step(s, Frame(true, dt));
            |s.lines.value[s.index + 1].text| > 0 ==>
              r.index == s.index + 1 && r.cos == [Co(WaitTyping, s.lines.value[s.index + 1])] &&
              !r.handle && r.shown == s.lines.value[s.index + 1].text
    ensures var r := Step(s, Frame(true, dt));
            s.lines.value[s.index + 1].text == "" ==> r.lines.None? || r.index > s.index + 1
  {
    ResumeOne(s, true, dt);
  }

  /** Empty lines are never typed, so the key that reaches them passes over
      all of them in one frame: entered with the key down, a stretch of empty
      lines ends on the first non-empty line, shown in full, or closes the
      dialogue when nothing but empty lines is left. */
  lemma {:induction false} EmptyLinesPassed(s: State, j: nat, dt: real)
    requires TypingOk(s) && s.box && s.lines.Some?
    requires s.index <= j <= |s.lines.value|
    requires forall k :: s.index <= k < j ==> s.lines.value[k].text == ""
    requires j < |s.lines.value| ==> |s.lines.value[j].text| > 0
    ensures var r := EnterLine(s, true, dt);
            (j == |s.lines.value| ==> r.state.lines.None? && !r.state.box && r.co.None?) &&
            (j < |s.lines.value| ==>
               r.state.index == j && r.co == Some(Co(WaitTyping, s.lines.value[j])) &&
               r.state.shown == s.lines.value[j].text)
    decreases j - s.index
  {
    if s.index < j {
      var line := s.lines.value[s.index];
      assert line.text == "";
      var s1 := StartTyping(s, line.text);
      assert EnterLine(s, true, dt) == AfterTyping(s1, Co(WaitTyping, line), true, dt);
      assert AfterTyping(s1, Co(WaitTyping, line), true, dt) == Advance(s1, true, dt);
      assert Advance(s1, true, dt) == EnterLine(s1.(index := s.index + 1), true, dt);
      EmptyLinesPassed(s1.(index := s.index + 1), j, dt);
    }
  }

  /** Frames without the key, with the given frame times. */
  function Frames(dts: seq<real>): (es: seq<Event>)
    ensures |es| == |dts|
    decreases |dts|
  {
    if |dts| == 0 then [] else [Frame(false, dts[0])] + Frames(dts[1..])
  }

  /** The time the frame times add up to. */
  function Elapsed(dts: seq<real>): real
    decreases |dts|
  {
    if |dts| == 0 then 0.0 else dts[0] + Elapsed(dts[1..])
  }

  lemma {:induction false} ElapsedNonNegative(dts: seq<real>)
    requires forall i :: 0 <= i < |dts| ==> dts[i] >= 0.0
    ensures Elapsed(dts) >= 0.0
    decreases |dts|
  {
    if |dts| > 0 {
      ElapsedNonNegative(dts[1..]);
    }
  }

  /** A line with an auto-advance time stays put while the frames add up to
      less than what is left of it: the coroutine only counts. */
  lemma {:induction false} AutoWaits(s: State, line: Line, t: real, dts: seq<real>)
    requires Valid(s) && s.cos == [Co(Auto(t), line)]
    requires forall i :: 0 <= i < |dts| ==> dts[i] >= 0.0
    requires t + Elapsed(dts) < line.autoAdvance
    ensures Run(s, Frames(dts)) == s.(cos := [Co(Auto(t + Elapsed(dts)), line)])
    decreases |dts|
  {
    if |dts| > 0 {
      ElapsedNonNegative(dts[1..]);
      var s1 := Step(s, Frame(false, dts[0]));
      assert s1 == s.(cos := [Co(Auto(t + dts[0]), line)]);
      AutoWaits(s1, line, t + dts[0], dts[1..]);
    }
  }

  /** Frames without the key leave a dialogue that is parked where it is:
      every coroutine waits on a set typing handle, or none is left. */
  lemma {:induction false} ParkedStays(s: State, dts: seq<real>)
    requires Valid(s) && AllWaitTyping(s.cos) && (|s.cos| > 0 ==> s.handle)
    ensures Run(s, Frames(dts)) == s
    decreases |dts|
  {
    if |dts| > 0 {
      if |s.cos| > 0 {
        HeldFrame(s.(cos := []), s.cos, dts[0]);
        assert [] + s.cos == s.cos;
      }
      assert Step(s, Frame(false, dts[0])) == s;
      ParkedStays(s, dts[1..]);
    }
  }

  /** Once the frame times reach the auto-advance time, the next frame moves
      the dialogue on by exactly one line (or closes it after the last line),
      and without a key it then waits for the new line's typing. (An empty
      next line is not typed and starts its own wait at once.) */
  lemma {:induction false} AutoAdvances(s: State, line: Line, t: real, dts: seq<real>, d: real)
    requires Valid(s) && s.lines.Some? && s.cos == [Co(Auto(t), line)]
    requires t + Elapsed(dts) >= line.autoAdvance
    ensures var r := Run(s, Frames(dts) + [Frame(false, d)]);
            (s.index + 1 < |s.lines.value| && |s.lines.value[s.index + 1].text| > 0 ==>
               r.index == s.index + 1 && r.lines == s.lines &&
               r.cos == [Co(WaitTyping, s.lines.value[s.index + 1])]) &&
            (s.index + 1 >= |s.lines.value| ==> r.lines.None? && !r.box && r.cos == [])
    decreases |dts|
  {
    var es := Frames(dts) + [Frame(false, d)];
    if |dts| == 0 {
      assert es == [Frame(false, d)];
    } else {
      assert es[0] == Frame(false, dts[0]);
      assert es[1..] == Frames(dts[1..]) + [Frame(false, d)];
      var s1 := Step(s, Frame(false, dts[0]));
      if t < line.autoAdvance {
        assert s1 == s.(cos := [Co(Auto(t + dts[0]), line)]);
        AutoAdvances(s1, line, t + dts[0], dts[1..], d);
      } else if s.index + 1 >= |s.lines.value| || |s.lines.value[s.index + 1].text| > 0 {
        ResumeOne(s, false, dts[0]);
        ParkedStays(s1, dts[1..] + [d]);
        assert Frames(dts[1..] + [d]) == Frames(dts[1..]) + [Frame(false, d)] by {
          FramesAppend(dts[1..], d);
        }
      }
    }
  }

  lemma {:induction false} FramesAppend(dts: seq<real>, d: real)
    ensures Frames(dts + [d]) == Frames(dts) + [Frame(false, d)]
    decreases |dts|
  {
    if |dts| > 0 {
      assert (dts + [d])[1..] == dts[1..] + [d];
      FramesAppend(dts[1..], d);
    } else {
      assert dts + [d] == [d];
    }
  }

  /** A second `StartDialogue` while a dialogue waits for the key leaves the
      earlier line coroutine running on the new lines: the next key press
      advances both, so the new dialogue's first two lines are passed over
      at once and its third is on screen (for new lines 1 and 2 that are
      not empty, which would be passed over too). */
  lemma RestartSkipsLines(s: State, line: Line, lines: seq<Line>, d0: real, dt: real)
    requires Valid(s) && s.lines.Some? && s.cos == [Co(AwaitKey, line)]
    requires |lines| >= 3
    ensures var r := Step(StartDialogue(s, lines, false, d0), Frame(true, dt));
            |lines[1].text| > 0 && |lines[2].text| > 0 ==>
              r.index == 2 && r.shown == lines[2].text &&
              r.cos == [Co(WaitTyping, lines[1]), Co(WaitTyping, lines[2])]
  {
    var s0 := StartDialogue(s, lines, false, d0);
    if |lines[1].text| > 0 && |lines[2].text| > 0 {
      assert |s0.cos| == 2 && s0.cos[0] == Co(AwaitKey, line) && s0.index == 0;
      var c2 := s0.cos[1];
      // the earlier coroutine takes the key: index 1, typing skipped
      var x1 := ResumeCo(s0.(cos := []), Co(AwaitKey, line), true, dt);
      assert x1.co == Some(Co(WaitTyping, lines[1])) && !x1.state.handle && x1.state.index == 1;
      var s1 := x1.state.(cos := [] + [Co(WaitTyping, lines[1])]);
      // the new coroutine, typing done or already waiting, takes the same key
      var x2 := ResumeCo(s1, c2, true, dt);
      assert Advanced(s1, true, dt, x2);
      assert x2.co == Some(Co(WaitTyping, lines[2])) && x2.state.index == 2;
      assert x2.state.shown == lines[2].text;
      var s2 := x2.state.(cos := s1.cos + [Co(WaitTyping, lines[2])]);
      assert s0.cos == [Co(AwaitKey, line), c2];
      assert ResumeAll(s1, [c2], true, dt) == ResumeAll(s2, [], true, dt);
    }
  }

  /** The same with a new two-line dialogue: the one key press closes it,
      while the earlier coroutine lives on (for a second line that is not
      empty). */
  lemma RestartClosesEarly(s: State, line: Line, lines: seq<Line>, d0: real, dt: real)
    requires Valid(s) && s.lines.Some? && s.cos == [Co(AwaitKey, line)]
    requires |lines| == 2
    ensures var r := Step(StartDialogue(s, lines, false, d0), Frame(true, dt));
            |lines[1].text| > 0 ==> r.lines.None? && !r.box && r.cos == [Co(WaitTyping, lines[1])]
  {
    var s0 := StartDialogue(s, lines, false, d0);
    if |lines[1].text| > 0 {
      assert |s0.cos| == 2 && s0.cos[0] == Co(AwaitKey, line);
      var c2 := s0.cos[1];
      var x1 := ResumeCo(s0.(cos := []), Co(AwaitKey, line), true, dt);
      assert x1.co == Some(Co(WaitTyping, lines[1])) && !x1.state.handle && x1.state.index == 1;
      var s1 := x1.state.(cos := [] + [Co(WaitTyping, lines[1])]);
      var x2 := ResumeCo(s1, c2, true, dt);
      assert Advanced(s1, true, dt, x2);
      assert x2.co.None? && x2.state.lines.None? && !x2.state.box;
      var s2 := x2.state.(cos := s1.cos + []);
      assert s0.cos == [Co(AwaitKey, line), c2];
      assert ResumeAll(s1, [c2], true, dt) == ResumeAll(s2, [], true, dt);
    }
  }

  /** Starting dialogues only when none is running keeps at most one line
      coroutine alive. */
  lemma OneCoroutine(s: State, e: Event)
    requires Valid(s) && |s.cos| <= 1
    requires e.Begin? && |e.lines| > 0 ==> |s.cos| == 0
    ensures |Step(s, e).cos| <= 1
  {
  }
}

=== FILE: enemy2_spawner.dfy ===
/** The boss arena's minion spawner (`Enemy2pawner`): after the Snake wakes it
    starts one spawn loop, which every round culls destroyed minions, tops the
    list up towards `maxEnemiesAlive`, and stops for good once both bosses are
    down. Spawned minions are tracked by identity; the wait times are not modelled.
 */
module Enemy2Spawner {
  import opened Common

  const DefaultMaxAlive: int := 10
  const DefaultPerSpawn: int := 1

  datatype State = State(
    prefabSet: bool,       // enemyPrefab != null
    maxAlive: int,
    perSpawn: int,
    spawned: seq<nat>,     // spawnedEnemies, by identity
    nextId: nat,           // identity of the next instantiated minion
    canSpawn: bool,
    loopRunning: bool,     // a SpawnLoop coroutine is running
    active: bool)          // the spawner's GameObject is active

  function Start(prefabSet: bool, maxAlive: int, perSpawn: int): (s: State)
    ensures s.spawned == [] && !s.canSpawn && !s.loopRunning && s.active
  {
    State(prefabSet, maxAlive, perSpawn, [], 0, false, false, true)
  }

  /** No minion is tracked twice. */
  predicate Distinct(ids: seq<nat>)
  {
    forall i, j :: 0 <= i < j < |ids| ==> ids[i] != ids[j]
  }

  /** What the spawner keeps true: the list stays within the cap (it starts
      empty, so a non-positive cap keeps it empty), tracks each minion once,
      and only holds identities it has handed out. */
  ghost predicate Valid(s: State)
  {
    (|s.spawned| <= s.maxAlive || |s.spawned| == 0) &&
    Distinct(s.spawned) &&
    forall x :: x in s.spawned ==> x < s.nextId
  }

  /** `HandleSnakeWakeUp`: the first call starts the loop; a coroutine cannot
      start on an inactive object. */
  function WakeUp(s: State): (r: State)
    ensures s.canSpawn ==> r == s
    ensures !s.canSpawn ==> r.canSpawn && r.loopRunning == (s.loopRunning || s.active)
    ensures r.(canSpawn := s.canSpawn, loopRunning := s.loopRunning) == s
  {
    if s.canSpawn then s else s.(canSpawn := true, loopRunning := s.loopRunning || s.active)
  }

  /** `spawnedEnemies.RemoveAll(e => e == null)`: drop the destroyed minions,
      keeping the others in order. */
  function Cull(ids: seq<nat>, destroyed: set<nat>): (r: seq<nat>)
    ensures |r| <= |ids|
    ensures forall x :: x in r <==> x in ids && x !in destroyed
    ensures Distinct(ids) ==> Distinct(r)
    decreases |ids|
  {
    if |ids| == 0 then []
    else
      var rest := Cull(ids[1..], destroyed);
      assert forall x :: x in ids <==> x == ids[0] || x in ids[1..];
      if ids[0] in destroyed then rest
      else
        assert Distinct(ids) ==> ids[0] !in ids[1..];
        [ids[0]] + rest
  }

  /** How many minions one round instantiates: `Mathf.Min(enemiesPerSpawn,
      maxEnemiesAlive - count)` when under the cap, none otherwise. */
  function ToSpawn(count: nat, maxAlive: int, perSpawn: int): (k: nat)
    ensures count + k <= maxAlive || k == 0
    ensures count < maxAlive && perSpawn > 0 ==> k > 0
    ensures k <= perSpawn || k == 0
    ensures count < maxAlive && perSpawn > 0 ==> k == perSpawn || count + k == maxAlive
    ensures count >= maxAlive || perSpawn <= 0 ==> k == 0
  {
    if count < maxAlive then
      var n := if perSpawn < maxAlive - count then perSpawn else maxAlive - count;
      if n < 0 then 0 else n
    else 0
  }

  /** `count` fresh identities starting at `from`. */
  function Fresh(from: nat, count: nat): (r: seq<nat>)
    ensures |r| == count
    ensures forall x :: x in r <==> from <= x < from + count
    ensures Distinct(r)
  {
    var r := seq(count, i requires 0 <= i => from + i);
    assert forall i :: 0 <= i < count ==> r[i] == from + i;
    assert forall x: nat :: from <= x < from + count ==> x in r by {
      forall x: nat | from <= x < from + count ensures x in r {
        assert r[x - from] == x;
      }
    }
    r
  }

  /** One iteration of `SpawnLoop`: stop for good when both bosses are down;
      otherwise cull, then top up (a missing prefab spawns nothing). */
  function Round(s: State, snake: Boss, hound: Boss, destroyed: set<nat>): (r: State)
    requires s.loopRunning && s.canSpawn
    ensures Down(snake) && Down(hound) ==>
              r == s.(canSpawn := false, active := false, loopRunning := false)
    ensures !(Down(snake) && Down(hound)) ==>
              r.canSpawn && r.loopRunning && r.active == s.active &&
              (forall x :: x in s.spawned && x !in destroyed ==> x in r.spawned) &&
              (forall x :: x in r.spawned ==> (x in s.spawned && x !in destroyed) || s.nextId <= x < r.nextId)
    ensures !(Down(snake) && Down(hound)) && s.prefabSet ==>
              |r.spawned| == |Cull(s.spawned, destroyed)| + ToSpawn(|Cull(s.spawned, destroyed)|, s.maxAlive, s.perSpawn)
    ensures !s.prefabSet ==> |r.spawned| <= |s.spawned|
    ensures !(Down(snake) && Down(hound)) && !s.prefabSet ==>
              r.spawned == Cull(s.spawned, destroyed) && r.nextId == s.nextId
    ensures !(Down(snake) && Down(hound)) ==>
              var kept := Cull(s.spawned, destroyed);
              |kept| <= |r.spawned| && r.spawned[..|kept|] == kept
    ensures Valid(s) ==> Valid(r)
  {
    if Down(snake) && Down(hound) then s.(canSpawn := false, active := false, loopRunning := false)
    else
      var kept := Cull(s.spawned, destroyed);
      var k := if s.prefabSet then ToSpawn(|kept|, s.maxAlive, s.perSpawn) else 0;
      var added := Fresh(s.nextId, k);
      var all := kept + added;
      assert forall x :: x in added ==> x >= s.nextId;
      assert Valid(s) ==> forall x :: x in kept ==> x < s.nextId;
      assert Distinct(added);
      assert Valid(s) ==> Distinct(all) by {
        if Valid(s) {
          forall i, j | 0 <= i < j < |all| ensures all[i] != all[j] {
            if j < |kept| {
            } else if i >= |kept| {
              assert all[i] == added[i - |kept|];
            } else {
              assert all[i] in kept;
              assert all[j] == added[j - |kept|];
            }
          }
        }
      }
      s.(spawned := all, nextId := s.nextId + k)
  }

  /** What `BossFightManager.DisableAllSpawners` does to one spawner it finds: the
      tracked minions are destroyed (returned) and the list cleared, the loop
      stopped and the object hidden; `canSpawn` is left as it was. */
  datatype Disabled = Disabled(state: State, destroyed: seq<nat>)

  function Disable(s: State): (r: Disabled)
    ensures r.destroyed == s.spawned && r.state.spawned == []
    ensures !r.state.loopRunning && !r.state.active
    ensures r.state.canSpawn == s.canSpawn && r.state.nextId == s.nextId
    ensures Valid(s) ==> Valid(r.state)
  {
    Disabled(s.(spawned := [], loopRunning := false, active := false), s.spawned)
  }

  /** `DisableAllSpawners` as one spawner sees it: `FindObjectsOfType` only
      returns spawners on active objects, so a spawner that has hidden itself
      is not found and keeps its minions. */
  function DisableIfFound(s: State): (r: Disabled)
    ensures s.active ==> r == Disable(s)
    ensures !s.active ==> r == Disabled(s, [])
    ensures !r.state.active
  {
    if s.active then Disable(s) else Disabled(s, [])
  }

  // ---------------------------------------------------------------------------
  // Runs
  // ---------------------------------------------------------------------------

  datatype Event = SnakeWoke | Tick(snake: Boss, hound: Boss, destroyed: set<nat>) | Shutdown

  function Step(s: State, e: Event): State
  {
    match e
    case SnakeWoke => WakeUp(s)
    case Tick(sn, h, d) => if s.loopRunning && s.canSpawn then Round(s, sn, h, d) else s
    case Shutdown => DisableIfFound(s).state
  }

  function Run(s: State, events: seq<Event>): State
    decreases |events|
  {
    if |events| == 0 then s else Run(Step(s, events[0]), events[1..])
  }

  lemma {:induction false} RunKeepsValid(s: State, events: seq<Event>)
    requires Valid(s)
    ensures Valid(Run(s, events))
    decreases |events|
  {
    if |events| > 0 {
      RunKeepsValid(Step(s, events[0]), events[1..]);
    }
  }

  /** A spawner whose own loop saw both bosses down hid itself, so the
      boss fight's shutdown no longer reaches it: its minions stay alive and
      tracked. */
  lemma StoppedKeepsMinions(s: State, snake: Boss, hound: Boss, destroyed: set<nat>)
    requires s.loopRunning && s.canSpawn
    requires Down(snake) && Down(hound)
    ensures var h := Round(s, snake, hound, destroyed);
            !h.active && h.spawned == s.spawned &&
            DisableIfFound(h).destroyed == [] && Step(h, Shutdown) == h
  {
  }

  /** How many spawn loops a run of events starts. */
  function LoopStarts(s: State, events: seq<Event>): nat
    decreases |events|
  {
    if |events| == 0 then 0
    else
      var next := Step(s, events[0]);
      (if !s.loopRunning && next.loopRunning then 1 else 0) + LoopStarts(next, events[1..])
  }

  /** The spawner has been woken, or switched off, already. */
  predicate Used(s: State)
  {
    s.canSpawn || !s.active
  }

  /** However often the Snake's wake-up event fires, at most one spawn loop
      ever starts, and none once the spawner was used. */
  lemma {:induction false} OneSpawnLoop(s: State, events: seq<Event>)
    ensures LoopStarts(s, events) <= 1
    ensures Used(s) ==> LoopStarts(s, events) == 0
    decreases |events|
  {
    if |events| > 0 {
      var next := Step(s, events[0]);
      assert Used(s) ==> Used(next);
      assert !s.loopRunning && next.loopRunning ==> !Used(s) && Used(next);
      OneSpawnLoop(next, events[1..]);
    }
  }
}

=== FILE: face.dfy ===
/** The floating face: follows the player inside its detection radius and
    otherwise wanders towards random points it re-picks every
    `randomMoveInterval` seconds; it hovers at least `hoverHeight` above the
    ground, attacks on a cooldown latch, and pays the player a bounty when
    the player lands the killing blow.
 */
module Face {
  import opened Common

  datatype Config = Config(maxHealth: int, hoverHeight: real, wanderInterval: real,
                           detectRadius: real, attackRange: real, attackDamage: int,
                           manaReward: real)

  const Defaults: Config := Config(80, 2.0, 2.0, 5.0, 1.0, 15, 15.0)

  datatype State = State(life: Life, knockedBack: bool, canAttack: bool,
                         wanderTimer: real, wanderX: real, wanderY: real,
                         course: Course, facingRight: bool)

  /** One frame's view: the player, its offset and distance, the frame time,
      and a fresh wander point (the face's position plus
      `Random.insideUnitCircle * randomMoveRadius`), used only if one is picked. */
  datatype Sense = Sense(playerPresent: bool, dx: real, dist: real, dt: real,
                         wanderX: real, wanderY: real)

  datatype Frame = Frame(state: State, attack: bool)

  /** `Start`, which also picks a first wander point. */
  function Start(c: Config, wanderX: real, wanderY: real): (s: State)
    ensures s.life == Spawned(c.maxHealth) && s.canAttack && !s.knockedBack && s.wanderTimer == 0.0
    ensures s.wanderX == wanderX && s.wanderY == wanderY
  {
    State(Spawned(c.maxHealth), false, true, 0.0, wanderX, wanderY, Rest, true)
  }

  /** The wander branch: advance the timer and, when it reaches the interval,
      pick a new point and restart the timer; then steer for the current point. */
  function Wander(s: State, c: Config, sense: Sense): (r: State)
    ensures s.wanderTimer + sense.dt >= c.wanderInterval ==>
              r.wanderTimer == 0.0 && r.wanderX == sense.wanderX && r.wanderY == sense.wanderY
    ensures s.wanderTimer + sense.dt < c.wanderInterval ==>
              r.wanderTimer == s.wanderTimer + sense.dt && r.wanderX == s.wanderX && r.wanderY == s.wanderY
    ensures r.course == TowardPoint(r.wanderX, r.wanderY)
    ensures c.wanderInterval > 0.0 && s.wanderTimer >= 0.0 && sense.dt >= 0.0 ==>
              0.0 <= r.wanderTimer < c.wanderInterval
    ensures r.(wanderTimer := s.wanderTimer, wanderX := s.wanderX, wanderY := s.wanderY, course := s.course) == s
  {
    var t := s.wanderTimer + sense.dt;
    var s1 := if t >= c.wanderInterval then s.(wanderTimer := 0.0, wanderX := sense.wanderX, wanderY := sense.wanderY)
              else s.(wanderTimer := t);
    s1.(course := TowardPoint(s1.wanderX, s1.wanderY))
  }

  /** `Update`: steering (unless knocked back), facing, and the attack latch. */
  function Update(s: State, c: Config, sense: Sense): (r: Frame)
    ensures s.life.dead || !sense.playerPresent ==> r == Frame(s, false)
    ensures !s.life.dead && sense.playerPresent && !s.knockedBack && sense.dist <= c.detectRadius ==>
              r.state.course == TowardPlayer && r.state.wanderTimer == s.wanderTimer &&
              r.state.wanderX == s.wanderX && r.state.wanderY == s.wanderY
    ensures !s.life.dead && sense.playerPresent && !s.knockedBack && sense.dist > c.detectRadius ==>
              var w := Wander(s, c, sense);
              r.state.course == w.course && r.state.wanderTimer == w.wanderTimer &&
              r.state.wanderX == w.wanderX && r.state.wanderY == w.wanderY
    ensures s.knockedBack ==> r.state.course == s.course && r.state.wanderTimer == s.wanderTimer
    ensures !s.life.dead && sense.playerPresent ==> r.state.facingRight == FaceTowards(s.facingRight, sense.dx)
    ensures r.attack <==> !s.life.dead && sense.playerPresent && sense.dist <= c.attackRange && s.canAttack
    ensures r.state.canAttack == (s.canAttack && !r.attack)
    ensures r.state.life == s.life && r.state.knockedBack == s.knockedBack
  {
    if s.life.dead || !sense.playerPresent then Frame(s, false)
    else
      var s1 := if s.knockedBack then s
                else if sense.dist <= c.detectRadius then s.(course := TowardPlayer)
                else Wander(s, c, sense);
      var s2 := s1.(facingRight := FaceTowards(s.facingRight, sense.dx));
      var attack := sense.dist <= c.attackRange && s.canAttack;
      Frame(s2.(canAttack := s2.canAttack && !attack), attack)
  }

  /** `FixedUpdate`'s hover: with ground found below (within `hoverHeight +
      0.1`) at height `groundY`, a face lower than `groundY + hoverHeight` is
      lifted to it; dead or knocked-back faces are not. */
  function Hover(s: State, c: Config, y: real, groundY: Option<real>): (r: real)
    ensures r >= y
    ensures !s.life.dead && !s.knockedBack && groundY.Some? ==> r >= groundY.value + c.hoverHeight
    ensures r != y ==> !s.life.dead && !s.knockedBack && groundY.Some? && r == groundY.value + c.hoverHeight
  {
    if s.life.dead || s.knockedBack || groundY.None? then y
    else if y < groundY.value + c.hoverHeight then groundY.value + c.hoverHeight
    else y
  }

  /** The strike after the attack's wind-up. */
  function AttackLand(c: Config, dist: real, hasHealth: bool, playerDead: bool): (r: Option<int>)
    ensures r.Some? <==> dist <= c.attackRange && hasHealth && !playerDead
    ensures r.Some? ==> r.value == c.attackDamage
  {
    RangedStrike(dist, c.attackRange, c.attackDamage, hasHealth, playerDead)
  }

  /** The end of the attack cooldown. */
  function AttackReady(s: State): (r: State)
    ensures r.canAttack && r.(canAttack := s.canAttack) == s
  {
    s.(canAttack := true)
  }

  datatype Hurt = Hurt(state: State, payout: Payout)

  /** `TakeDamage` and `Die`: the wound, knockback from any attacker (even on
      the killing blow), and the bounty to a player who kills it; dying also
      zeroes the movement. */
  function TakeDamage(s: State, c: Config, damage: int, attacker: Attacker): (r: Hurt)
    ensures s.life.dead ==> r == Hurt(s, NoPayout)
    ensures r.state.life == Wound(s.life, damage)
    ensures r.payout.Mana? <==> !s.life.dead && r.state.life.dead && attacker == PlayerAttacker
    ensures r.payout.Mana? ==> r.payout.amount == c.manaReward
    ensures !s.life.dead ==> r.state.knockedBack == (s.knockedBack || attacker != NoAttacker)
    ensures !s.life.dead && r.state.life.dead ==> r.state.course == Rest
  {
    if s.life.dead then Hurt(s, NoPayout)
    else
      var o := Bounty(s.life, damage, attacker, c.manaReward);
      var s1 := s.(life := o.life, knockedBack := s.knockedBack || attacker != NoAttacker);
      Hurt(if o.life.dead then s1.(course := Rest) else s1, o.payout)
  }

  /** The end of `ApplyKnockback`. */
  function KnockbackEnd(s: State): (r: State)
    ensures !r.knockedBack && r.(knockedBack := s.knockedBack) == s
  {
    s.(knockedBack := false)
  }

  datatype Event = Tick(sense: Sense) | Ready | Hit(damage: int, attacker: Attacker) | Recovered

  function Step(s: State, c: Config, e: Event): (State, bool)
  {
    match e
    case Tick(sense) => var f := Update(s, c, sense); (f.state, f.attack)
    case Ready => (AttackReady(s), false)
    case Hit(d, a) => (TakeDamage(s, c, d, a).state, false)
    case Recovered => (KnockbackEnd(s), false)
  }

  function Attacks(s: State, c: Config, events: seq<Event>): nat
    decreases |events|
  {
    if |events| == 0 then 0
    else
      var r := Step(s, c, events[0]);
      (if r.1 then 1 else 0) + Attacks(r.0, c, events[1..])
  }

  /** The attack latch: between two cooldown ends at most one attack starts,
      and none while the latch is down. */
  lemma {:induction false} OneAttackPerCooldown(s: State, c: Config, events: seq<Event>)
    requires forall i :: 0 <= i < |events| ==> !events[i].Ready?
    ensures Attacks(s, c, events) <= 1
    ensures !s.canAttack ==> Attacks(s, c, events) == 0
    decreases |events|
  {
    if |events| > 0 {
      var r := Step(s, c, events[0]);
      assert r.1 || !s.canAttack ==> !r.0.canAttack;
      OneAttackPerCooldown(r.0, c, events[1..]);
    }
  }
}

=== FILE: floating_sword.dfy ===
/** The floating sword: drifts about until the player comes within its
    detection radius, then charges and dashes straight at where the player
    was, hurting every player health component it passes at most once per
    dash. It pays no mana. Dying stops every coroutine, so a dash in
    progress ends with the death.
 */
module FloatingSword {
  import opened Common

  datatype Config = Config(maxHealth: int, detectRadius: real, dashDamage: int, dashDuration: real)

  const Defaults: Config := Config(500, 4.0, 35, 0.35)

  /** `colliderEnabled` and `enabled` are the collider and the script's own
      switch, both turned off by `Die`. */
  datatype State = State(life: Life, dashing: bool, colliderEnabled: bool, enabled: bool)

  function Start(c: Config): (s: State)
    ensures s.life == Spawned(c.maxHealth) && !s.dashing && s.colliderEnabled && s.enabled
  {
    State(Spawned(c.maxHealth), false, true, true)
  }

  /** The new state, whether a charge-then-dash started, and whether the
      sword drifted this frame. */
  datatype Frame = Frame(state: State, charge: bool, drift: bool)

  /** `Update`: while not dashing, charge when the player is within the
      detection radius and drift otherwise. */
  function Update(s: State, c: Config, playerPresent: bool, dist: real): (r: Frame)
    ensures s.life.dead || !playerPresent || s.dashing ==> r == Frame(s, false, false)
    ensures r.charge <==> !s.life.dead && playerPresent && !s.dashing && dist <= c.detectRadius
    ensures r.drift <==> !s.life.dead && playerPresent && !s.dashing && dist > c.detectRadius
    ensures r.state == s.(dashing := s.dashing || r.charge)
  {
    if s.life.dead || !playerPresent || s.dashing then Frame(s, false, false)
    else if dist <= c.detectRadius then Frame(s.(dashing := true), true, false)
    else Frame(s, false, true)
  }

  // ---------------------------------------------------------------------------
  // The dash
  // ---------------------------------------------------------------------------

  /** One frame of the dash: whether the sword is dead by then, the frame's
      `Time.deltaTime`, and what the overlap circle around the sword returns
      (`id` is the collider's game object). */
  datatype DashFrame = DashFrame(dead: bool, dt: real, hits: seq<Collider>)

  /** The game objects in `hits` that carry a player health component, the
      sword's own object excluded. */
  function Ids(hits: seq<Collider>): set<nat>
    decreases |hits|
  {
    if |hits| == 0 then {}
    else Ids(hits[..|hits| - 1]) + (if Hittable(hits[|hits| - 1], true) then {hits[|hits| - 1].id} else {})
  }

  lemma {:induction false} IdsMembers(hits: seq<Collider>)
    ensures forall x :: x in Ids(hits) <==> exists c :: c in hits && Hittable(c, true) && c.id == x
    decreases |hits|
  {
    if |hits| > 0 {
      var init := hits[..|hits| - 1];
      IdsMembers(init);
      assert forall c :: c in hits <==> c in init || c == hits[|hits| - 1];
    }
  }

  /** The game objects a run of dash frames brings within reach. */
  function Reached(frames: seq<DashFrame>): set<nat>
    decreases |frames|
  {
    if |frames| == 0 then {}
    else Reached(frames[..|frames| - 1]) + Ids(frames[|frames| - 1].hits)
  }

  lemma {:induction false} ReachedMembers(frames: seq<DashFrame>)
    ensures forall x :: x in Reached(frames) <==> exists i :: 0 <= i < |frames| && x in Ids(frames[i].hits)
    decreases |frames|
  {
    if |frames| > 0 {
      var init := frames[..|frames| - 1];
      ReachedMembers(init);
      assert forall i :: 0 <= i < |init| ==> init[i] == frames[i];
    }
  }

  /** The time the dash timer has counted after `frames`. */
  function Elapsed(frames: seq<DashFrame>): real
    decreases |frames|
  {
    if |frames| == 0 then 0.0 else Elapsed(frames[..|frames| - 1]) + frames[|frames| - 1].dt
  }

  /** Blows with distinct targets, all of them among `damaged`, each of
      the dash's damage, and every damaged object hit by one of them. */
  ghost predicate Ledger(c: Config, blows: seq<Blow>, damaged: set<nat>)
  {
    (forall b :: b in blows ==> b.target in damaged && b.damage == c.dashDamage && b.mana == NoPayout) &&
    (forall x :: x in damaged ==> exists b :: b in blows && b.target == x) &&
    (forall i, j :: 0 <= i < j < |blows| ==> blows[i].target != blows[j].target)
  }

  /** The `foreach` over one frame's overlap hits: skip the sword's own
      object and objects already damaged; damage every other one carrying a
      player health component and remember it. */
  method SweepFrame(c: Config, hits: seq<Collider>, blows0: seq<Blow>, damaged0: set<nat>)
    returns (blows: seq<Blow>, damaged: set<nat>)
    requires Ledger(c, blows0, damaged0)
    ensures Ledger(c, blows, damaged)
    ensures damaged == damaged0 + Ids(hits)
    ensures |blows0| <= |blows| && blows[..|blows0|] == blows0
  {
    blows, damaged := blows0, damaged0;
    var j := 0;
    while j < |hits|
      invariant j <= |hits|
      invariant damaged == damaged0 + Ids(hits[..j])
      invariant Ledger(c, blows, damaged)
      invariant |blows0| <= |blows| && blows[..|blows0|] == blows0
    {
      var h := hits[j];
      assert hits[..j + 1][..j] == hits[..j];
      if !h.isSelf && h.id !in damaged && h.hasHealth {
        blows := blows + [Blow(h.id, c.dashDamage, NoPayout)];
        damaged := damaged + {h.id};
      }
      j := j + 1;
    }
    assert hits[..|hits|] == hits;
  }

  /** The dash loop of `ChargeThenStraightDash`: frames run while the timer
      is below the duration, and the loop breaks at the first frame that finds
      the sword dead; each frame damages every player health component within
      reach whose object has not been damaged yet in this dash. Returns the
      blows dealt in order, the set of damaged objects, and how many frames
      dealt damage. */
  method Dash(c: Config, frames: seq<DashFrame>) returns (blows: seq<Blow>, damaged: set<nat>, ran: nat)
    ensures ran <= |frames|
    ensures forall k :: 0 <= k < ran ==> Elapsed(frames[..k]) < c.dashDuration && !frames[k].dead
    ensures ran < |frames| ==> Elapsed(frames[..ran]) >= c.dashDuration || frames[ran].dead
    ensures damaged == Reached(frames[..ran])
    ensures forall b :: b in blows ==> b.target in damaged && b.damage == c.dashDamage && b.mana == NoPayout
    ensures forall x :: x in damaged ==> exists b :: b in blows && b.target == x
    ensures forall i, j :: 0 <= i < j < |blows| ==> blows[i].target != blows[j].target
  {
    blows, damaged, ran := [], {}, 0;
    var timer := 0.0;
    while ran < |frames| && timer < c.dashDuration
      invariant ran <= |frames|
      invariant timer == Elapsed(frames[..ran])
      invariant forall k :: 0 <= k < ran ==> Elapsed(frames[..k]) < c.dashDuration && !frames[k].dead
      invariant damaged == Reached(frames[..ran])
      invariant Ledger(c, blows, damaged)
      decreases |frames| - ran
    {
      if frames[ran].dead {
        break;
      }
      blows, damaged := SweepFrame(c, frames[ran].hits, blows, damaged);
      assert frames[..ran + 1][..ran] == frames[..ran];
      timer := timer + frames[ran].dt;
      ran := ran + 1;
    }
  }

  /** The end of the dash: `isDashing` cleared. */
  function DashEnd(s: State): (r: State)
    ensures !r.dashing && r.(dashing := s.dashing) == s
  {
    s.(dashing := false)
  }

  /** `Die`: behind its `isDead` guard, stop every coroutine (ending a
      dash), disable the collider and the script. A second call changes
      nothing. */
  function Die(s: State): (r: State)
    ensures r.life.dead && r.life.health == s.life.health
    ensures s.life.dead ==> r == s
    ensures !s.life.dead ==> !r.dashing && !r.colliderEnabled && !r.enabled
  {
    if s.life.dead then s else State(Common.Die(s.life), false, false, false)
  }

  /** `TakeDamage`: the wound, and death at zero health; no knockback, no mana. */
  function TakeDamage(s: State, damage: int): (r: State)
    ensures s.life.dead ==> r == s
    ensures r.life == Wound(s.life, damage)
    ensures !r.life.dead ==> r == s.(life := r.life)
    ensures !s.life.dead && r.life.dead ==> !r.dashing && !r.colliderEnabled && !r.enabled
  {
    if s.life.dead then s
    else
      var l := Wound(s.life, damage);
      if l.dead then Die(s.(life := l.(dead := false))) else s.(life := l)  // `Die` runs before its latch is set
  }

  // ---------------------------------------------------------------------------
  // Runs
  // ---------------------------------------------------------------------------

  datatype Event = Tick(playerPresent: bool, dist: real) | Dashed | Hit(damage: int)

  function Step(s: State, c: Config, e: Event): Frame
  {
    match e
    case Tick(p, d) => Update(s, c, p, d)
    case Dashed => Frame(DashEnd(s), false, false)
    case Hit(d) => Frame(TakeDamage(s, d), false, false)
  }

  function Charges(s: State, c: Config, events: seq<Event>): nat
    decreases |events|
  {
    if |events| == 0 then 0
    else
      var f := Step(s, c, events[0]);
      (if f.charge then 1 else 0) + Charges(f.state, c, events[1..])
  }

  /** Dashes never overlap: until a dash ends at most one starts, and none
      while one is running. */
  lemma {:induction false} OneDashAtATime(s: State, c: Config, events: seq<Event>)
    requires forall i :: 0 <= i < |events| ==> !events[i].Dashed?
    ensures Charges(s, c, events) <= 1
    ensures s.dashing ==> Charges(s, c, events) == 0
    decreases |events|
  {
    if |events| > 0 {
      var f := Step(s, c, events[0]);
      assert f.charge || s.dashing ==> f.state.dashing || f.state.life.dead;
      if f.state.life.dead {
        DeadSwordInert(f.state, c, events[1..]);
      } else {
        OneDashAtATime(f.state, c, events[1..]);
      }
    }
  }

  /** A dead sword never charges again. */
  lemma {:induction false} DeadSwordInert(s: State, c: Config, events: seq<Event>)
    requires s.life.dead
    ensures Charges(s, c, events) == 0
    decreases |events|
  {
    if |events| > 0 {
      var f := Step(s, c, events[0]);
      assert f.state.life.dead && !f.charge;
      DeadSwordInert(f.state, c, events[1..]);
    }
  }
}

=== FILE: flying2.dfy ===
/** The carrier flyer: flies straight at the player, carrying a Shroomy
    (a ground enemy) that it drops once the player is within its detection
    radius; it attacks only when not carrying, on a timestamp cooldown.
    It pays no mana and has no kill bounty.
 */
module Flying2 {
  import opened Common

  datatype Config = Config(maxHealth: int, attackRange: real, attackDamage: int,
                           attackCooldown: real, detectRadius: real)

  const Defaults: Config := Config(100, 1.0, 20, 1.0, 5.0)

  /** The cached Shroomy: whether its object still exists, whether it has a
      rigidbody, and the three things carrying changes: its own script
      enabled, its rigidbody kinematic, and its parenting to the carry point. */
  datatype Passenger = Passenger(present: bool, hasBody: bool, enabled: bool,
                                 kinematic: bool, attached: bool)

  /** `passenger` is None when no Shroomy was ever cached. */
  datatype State = State(life: Life, knockedBack: bool, lastAttackTime: real,
                         facingRight: bool, carrying: bool, passenger: Option<Passenger>)

  /** `Start` may throw: the pick-up reads the carry point after it has
      already disabled the Shroomy. */
  datatype Started = Started(state: State, threw: bool)

  /** The Shroomy given in the inspector, as it stands before the pick-up. */
  datatype Assigned = Assigned(hasBody: bool, enabled: bool, kinematic: bool)

  /** `Start` with `PickUpShroomy`: the Shroomy (if one is given) is made
      kinematic, disabled, and then moved to and parented under the carry
      point; a missing carry point throws at that move, after the disabling,
      so the Shroomy is left disabled and not carried. */
  function Start(c: Config, given: Option<Assigned>, hasCarryPoint: bool): (r: Started)
    ensures r.state.life == Spawned(c.maxHealth) && !r.state.knockedBack && r.state.lastAttackTime == 0.0
    ensures r.threw <==> given.Some? && !hasCarryPoint
    ensures r.state.carrying <==> given.Some? && hasCarryPoint
    ensures r.state.passenger.Some? <==> given.Some?
    ensures r.state.passenger.Some? ==>
              var p := r.state.passenger.value;
              p.present && !p.enabled && (p.attached <==> hasCarryPoint) &&
              p.hasBody == given.value.hasBody &&
              p.kinematic == (given.value.hasBody || given.value.kinematic)
  {
    var s := State(Spawned(c.maxHealth), false, 0.0, true, false, None);
    match given
    case None => Started(s, false)
    case Some(a) =>
      var p := Passenger(true, a.hasBody, false, a.hasBody || a.kinematic, false);
      if !hasCarryPoint then Started(s.(passenger := Some(p)), true)
      else Started(s.(passenger := Some(p.(attached := true)), carrying := true), false)
  }

  /** Whether the cached Shroomy is still there to drop. */
  predicate Holds(s: State)
  {
    s.passenger.Some? && s.passenger.value.present
  }

  /** `DropEnemy`: nothing when the Shroomy is gone (so `carrying` stays set);
      otherwise unparent it, make its rigidbody dynamic, enable its script and
      stop carrying. */
  function Drop(s: State): (r: State)
    ensures !Holds(s) ==> r == s
    ensures Holds(s) ==> !r.carrying && Holds(r)
    ensures Holds(s) ==> var p := r.passenger.value;
              p.enabled && !p.attached && (p.hasBody ==> !p.kinematic)
    ensures r.(carrying := s.carrying, passenger := s.passenger) == s
  {
    if !Holds(s) then s
    else
      var p := s.passenger.value;
      s.(carrying := false,
         passenger := Some(p.(attached := false, kinematic := if p.hasBody then false else p.kinematic,
                              enabled := true)))
  }

  /** One frame's view: the player, its horizontal offset and distance,
      `Time.time`, and the player's health component as the attack sees it. */
  datatype Sense = Sense(playerPresent: bool, dx: real, dist: real, time: real,
                         playerHasHealth: bool, playerDead: bool)

  /** The new state, whether an attack was performed, and the damage it dealt. */
  datatype Frame = Frame(state: State, attack: bool, strike: Option<int>)

  predicate Live(s: State, sense: Sense)
  {
    !s.life.dead && sense.playerPresent && !s.knockedBack
  }

  /** `Update`: steer at the player and face it; attack when not carrying, in
      range and past the cooldown timestamp; drop the Shroomy once the player
      is within the detection radius (after the attack check, so never an
      attack in the frame of the drop). */
  function Update(s: State, c: Config, sense: Sense): (r: Frame)
    ensures !Live(s, sense) ==> r == Frame(s, false, None)
    ensures Live(s, sense) ==> (r.state.facingRight <==> sense.dx >= 0.0)
    ensures r.attack <==> Live(s, sense) && !s.carrying && sense.dist <= c.attackRange &&
                          sense.time >= s.lastAttackTime
    ensures r.state.lastAttackTime == if r.attack then sense.time + c.attackCooldown else s.lastAttackTime
    ensures r.strike.Some? <==> r.attack && sense.playerHasHealth && !sense.playerDead
    ensures r.strike.Some? ==> r.strike.value == c.attackDamage
    ensures Live(s, sense) && s.carrying && sense.dist <= c.detectRadius ==>
              r.state == Drop(s).(facingRight := r.state.facingRight)
    ensures r.state.carrying <==> s.carrying && !(Live(s, sense) && sense.dist <= c.detectRadius && Holds(s))
    ensures r.state.life == s.life && r.state.knockedBack == s.knockedBack
  {
    if !Live(s, sense) then Frame(s, false, None)
    else
      var s1 := s.(facingRight := Sign(sense.dx) == 1.0);
      var attack := !s.carrying && sense.dist <= c.attackRange && sense.time >= s.lastAttackTime;
      var strike := if attack then RangedStrike(sense.dist, c.attackRange, c.attackDamage,
                                                sense.playerHasHealth, sense.playerDead)
                    else None;
      var s2 := if attack then s1.(lastAttackTime := sense.time + c.attackCooldown) else s1;
      var s3 := if s.carrying && sense.dist <= c.detectRadius then Drop(s2) else s2;
      Frame(s3, attack, strike)
  }

  /** The Shroomy's object is destroyed (the engine then reports every cached
      reference to it as null). */
  function PassengerDestroyed(s: State): (r: State)
    ensures !Holds(r)
    ensures r.passenger.Some? <==> s.passenger.Some?
    ensures r.(passenger := s.passenger) == s
  {
    match s.passenger
    case None => s
    case Some(p) => s.(passenger := Some(p.(present := false)))
  }

  /** `TakeDamage` and `Die`: the wound and knockback from any attacker; no mana. */
  function TakeDamage(s: State, damage: int, attacker: Attacker): (r: State)
    ensures r.life == Wound(s.life, damage)
    ensures s.life.dead ==> r == s
    ensures !s.life.dead ==> r.knockedBack == (s.knockedBack || attacker != NoAttacker)
    ensures r.(life := s.life, knockedBack := s.knockedBack) == s
  {
    if s.life.dead then s
    else s.(life := Wound(s.life, damage), knockedBack := s.knockedBack || attacker != NoAttacker)
  }

  /** The end of `ApplyKnockback`. */
  function KnockbackEnd(s: State): (r: State)
    ensures !r.knockedBack && r.(knockedBack := s.knockedBack) == s
  {
    s.(knockedBack := false)
  }

  // ---------------------------------------------------------------------------
  // Runs
  // ---------------------------------------------------------------------------

  datatype Event = Tick(sense: Sense) | Destroyed | Hit(damage: int, attacker: Attacker) | Recovered

  function Step(s: State, c: Config, e: Event): Frame
  {
    match e
    case Tick(sense) => Update(s, c, sense)
    case Destroyed => Frame(PassengerDestroyed(s), false, None)
    case Hit(d, a) => Frame(TakeDamage(s, d, a), false, None)
    case Recovered => Frame(KnockbackEnd(s), false, None)
  }

  function Run(s: State, c: Config, events: seq<Event>): State
    decreases |events|
  {
    if |events| == 0 then s else Run(Step(s, c, events[0]).state, c, events[1..])
  }

  function Attacks(s: State, c: Config, events: seq<Event>): nat
    decreases |events|
  {
    if |events| == 0 then 0
    else
      var f := Step(s, c, events[0]);
      (if f.attack then 1 else 0) + Attacks(f.state, c, events[1..])
  }

  /** The cooldown timestamp: frames earlier than it attack nothing. */
  lemma {:induction false} CooldownHolds(s: State, c: Config, events: seq<Event>)
    requires forall i :: 0 <= i < |events| && events[i].Tick? ==> events[i].sense.time < s.lastAttackTime
    ensures Attacks(s, c, events) == 0
    ensures Run(s, c, events).lastAttackTime == s.lastAttackTime
    decreases |events|
  {
    if |events| > 0 {
      var f := Step(s, c, events[0]);
      assert !f.attack && f.state.lastAttackTime == s.lastAttackTime;
      CooldownHolds(f.state, c, events[1..]);
    }
  }

  /** A carrier whose Shroomy was destroyed in its grip never lets go: the
      drop finds nothing to drop, `carrying` stays set, and so it never
      attacks again, however close the player comes. */
  lemma {:induction false} StrandedCarrier(s: State, c: Config, events: seq<Event>)
    requires s.carrying && !Holds(s)
    ensures Run(s, c, events).carrying
    ensures Attacks(s, c, events) == 0
    decreases |events|
  {
    if |events| > 0 {
      var f := Step(s, c, events[0]);
      assert f.state.carrying && !Holds(f.state) && !f.attack;
      StrandedCarrier(f.state, c, events[1..]);
    }
  }

  /** Once not carrying, the flyer never carries again, and the Shroomy's
      script, rigidbody and parenting are never touched again. */
  lemma {:induction false} DropIsFinal(s: State, c: Config, events: seq<Event>)
    requires !s.carrying
    ensures !Run(s, c, events).carrying
    ensures Run(s, c, events).passenger.Some? <==> s.passenger.Some?
    ensures s.passenger.Some? ==>
              var p := Run(s, c, events).passenger.value;
              p.enabled == s.passenger.value.enabled && p.attached == s.passenger.value.attached &&
              p.kinematic == s.passenger.value.kinematic
    decreases |events|
  {
    if |events| > 0 {
      var f := Step(s, c, events[0]);
      assert !f.state.carrying;
      assert f.state.passenger.Some? <==> s.passenger.Some?;
      assert s.passenger.Some? ==> f.state.passenger.value.enabled == s.passenger.value.enabled &&
                                    f.state.passenger.value.attached == s.passenger.value.attached &&
                                    f.state.passenger.value.kinematic == s.passenger.value.kinematic;
      DropIsFinal(f.state, c, events[1..]);
    }
  }

  /** Without a carry point the given Shroomy is disabled for good: the
      start throws before carrying begins, and nothing re-enables it later. */
  lemma MissingCarryPointDisablesShroomy(c: Config, a: Assigned, events: seq<Event>)
    ensures var r := Start(c, Some(a), false);
            r.threw && !Run(r.state, c, events).carrying &&
            Run(r.state, c, events).passenger.Some? && !Run(r.state, c, events).passenger.value.enabled
  {
    var r := Start(c, Some(a), false);
    DropIsFinal(r.state, c, events);
  }
}

=== FILE: goblin.dfy ===
/** The goblin: chases the player within its detection radius (jumping at
    obstacles), and in dash range stops and runs a prepare-then-dash attack.
    Every hit it takes pays the player 6 mana, killing blow included.
 */
module Goblin {
  import opened Common

  const MaxHealth: int := 600
  const DashDamage: int := 35
  const HitMana: real := 6.0

  datatype Config = Config(detectRadius: real, dashRange: real, chaseSpeed: real, flipDeadzone: real)

  const Defaults: Config := Config(3.0, 1.0, 6.0, 0.1)

  datatype State = State(life: Life, facingRight: bool, dashing: bool)

  datatype Sense = Sense(playerPresent: bool, dist: real, dx: real,
                         obstacle: bool, groundAhead: bool, grounded: bool)

  /** The new state, the horizontal velocity written (None: untouched), the
      jump impulse, and whether a dash started. */
  datatype Frame = Frame(state: State, vx: Option<real>, jump: bool, dash: bool)

  function Start(): (s: State)
    ensures s.life == Spawned(MaxHealth) && s.facingRight && !s.dashing
  {
    State(Spawned(MaxHealth), true, false)
  }

  /** `Update`: chase between the dash range and the detection radius, stop
      and dash (unless already dashing) within the dash range, stop beyond
      the radius; always turn towards the player. */
  function Update(s: State, c: Config, sense: Sense): (r: Frame)
    ensures s.life.dead || !sense.playerPresent ==> r == Frame(s, None, false, false)
    ensures r.dash <==> !s.life.dead && sense.playerPresent &&
                        Classify(sense.dist, c.detectRadius, c.dashRange) == Close && !s.dashing
    ensures r.jump <==> !s.life.dead && sense.playerPresent &&
                        Classify(sense.dist, c.detectRadius, c.dashRange) == Approach &&
                        ChaseJump(sense.obstacle, sense.groundAhead, sense.grounded)
    ensures !s.life.dead && sense.playerPresent ==>
              r.state.facingRight == Turn(s.facingRight, sense.dx, c.flipDeadzone) &&
              r.vx == Some(if Classify(sense.dist, c.detectRadius, c.dashRange) == Approach
                           then ChaseVelocity(sense.dx, c.chaseSpeed) else 0.0)
    ensures r.state.dashing == (s.dashing || r.dash)
    ensures r.state.life == s.life
  {
    if s.life.dead || !sense.playerPresent then Frame(s, None, false, false)
    else
      var facing := Turn(s.facingRight, sense.dx, c.flipDeadzone);
      match Classify(sense.dist, c.detectRadius, c.dashRange)
      case Approach =>
        Frame(s.(facingRight := facing), Some(ChaseVelocity(sense.dx, c.chaseSpeed)),
              ChaseJump(sense.obstacle, sense.groundAhead, sense.grounded), false)
      case Close =>
        Frame(s.(facingRight := facing, dashing := true), Some(0.0), false, !s.dashing)
      case Away =>
        Frame(s.(facingRight := facing), Some(0.0), false, false)
  }

  /** The dash's damage pass: 35 to every other collider with a player health component. */
  function DashHits(hits: seq<Collider>): (r: seq<Blow>)
    ensures forall b :: b in r ==> b.damage == DashDamage && b.mana == NoPayout
    ensures forall c :: c in hits && c.hasHealth && !c.isSelf ==> exists b :: b in r && b.target == c.id
    ensures forall b :: b in r ==> exists c :: c in hits && c.id == b.target && !c.isSelf
    ensures DistinctIds(hits) ==> OneBlowEach(r)
  {
    MeleeSweep(hits, true, DashDamage, NoPayout)
  }

  /** The end of `DashAttack`: the only place `isDashing` is cleared. */
  function DashEnd(s: State): (r: State)
    ensures !r.dashing && r.(dashing := s.dashing) == s
  {
    s.(dashing := false)
  }

  datatype Hurt = Hurt(state: State, payout: Payout, knockback: bool)

  /** `TakeDamage`: ignored once dead; otherwise the wound, knockback from any
      attacker, and 6 mana to the player in the scene whoever hit. */
  function TakeDamage(s: State, damage: int, attacker: Attacker, playerExists: bool): (r: Hurt)
    ensures s.life.dead ==> r == Hurt(s, NoPayout, false)
    ensures !s.life.dead ==> r.state.life == Wound(s.life, damage)
    ensures !s.life.dead ==> r.payout == AnyPlayerReward(playerExists, HitMana)
    ensures !s.life.dead ==> (r.knockback <==> attacker != NoAttacker)
    ensures r.state.(life := s.life) == s
  {
    if s.life.dead then Hurt(s, NoPayout, false)
    else Hurt(s.(life := Wound(s.life, damage)), AnyPlayerReward(playerExists, HitMana), attacker != NoAttacker)
  }

  datatype Event = Tick(sense: Sense) | Dashed | Hit(damage: int, attacker: Attacker, playerExists: bool)

  function Step(s: State, c: Config, e: Event): Frame
  {
    match e
    case Tick(sense) => Update(s, c, sense)
    case Dashed => Frame(DashEnd(s), None, false, false)
    case Hit(d, a, p) => Frame(TakeDamage(s, d, a, p).state, None, false, false)
  }

  function Dashes(s: State, c: Config, events: seq<Event>): nat
    decreases |events|
  {
    if |events| == 0 then 0
    else
      var f := Step(s, c, events[0]);
      (if f.dash then 1 else 0) + Dashes(f.state, c, events[1..])
  }

  predicate Ends(e: Event)
  {
    e.Dashed?
  }

  /** Dashes never overlap: until a dash ends, no further dash starts, however
      close the player stays. */
  lemma {:induction false} OneDashAtATime(s: State, c: Config, events: seq<Event>)
    requires forall i :: 0 <= i < |events| ==> !Ends(events[i])
    ensures Dashes(s, c, events) <= 1
    ensures s.dashing ==> Dashes(s, c, events) == 0
    decreases |events|
  {
    if |events| > 0 {
      var f := Step(s, c, events[0]);
      assert f.dash || s.dashing ==> f.state.dashing;
      OneDashAtATime(f.state, c, events[1..]);
    }
  }
}

=== FILE: hellhound.dfy ===
/** The Hellhound boss: a three-state machine (Idle, AssistToSnake,
    ChargeHorizontal) driven by the player's height, two countdown timers and
    the nearest Snake. Positions enter as the player's and the hound's height,
    the distance to the player, and one `SnakeView` per Snake in the scene.
 */
module Hellhound {
  import opened Common

  const MaxHealth: int := 1200
  const BiteDamage: int := 50
  const HitMana: real := 10.0
  const GroundMargin: real := 0.5
  const TouchSlack: real := 0.05
  const BurstCooldown: real := 3.0
  const BurstChance: real := 0.25

  datatype Mode = Idle | AssistToSnake | ChargeHorizontal

  /** Inspector settings. */
  datatype Config = Config(enableAssist: bool, assistRange: real, touchDistance: real,
                           assistCooldown: real, chargeDuration: real, biteRange: real,
                           playerAboveThreshold: real)

  const Defaults: Config := Config(true, 12.0, 0.6, 1.2, 8.0, 1.5, 1.0)

  /** One entry of `FindObjectsOfType<Snake>()`: a destroyed snake is `None`;
      a live one has an identity, its distance to the hound, its height and
      its ground check. */
  datatype SnakeView = SnakeView(id: nat, dist: real, y: real, grounded: bool)

  datatype State = State(
    life: Life,
    mode: Mode,
    target: Option<nat>,   // the target snake, by identity
    assistTimer: real,
    chargeTimer: real,
    charging: bool,
    attacking: bool,
    bursting: bool,
    burstTimer: real)

  datatype Sense = Sense(playerPresent: bool, playerY: real, houndY: real, playerDist: real,
                         snakes: seq<Option<SnakeView>>, dt: real, roll: real)

  /** The new state plus what one `Update` started: the delayed charge
      coroutine, a follow step, a bite, a burst, and a lift of a snake. */
  datatype Frame = Frame(state: State, delayedCharge: bool, followed: bool,
                         bite: bool, burst: bool, lift: Option<nat>)

  function Start(): (s: State)
    ensures s.life == Spawned(MaxHealth) && s.mode == Idle && s.target.None?
    ensures !s.charging && !s.attacking && !s.bursting
  {
    State(Spawned(MaxHealth), Idle, None, 0.0, 0.0, false, false, false, 0.0)
  }

  // ---------------------------------------------------------------------------
  // Queries
  // ---------------------------------------------------------------------------

  /** `PlayerOnGround`: the player is no more than half a unit above the hound. */
  predicate OnGround(sense: Sense)
  {
    sense.playerY <= sense.houndY + GroundMargin
  }

  /** `PlayerHigherThanSnake` for a non-null snake. */
  predicate Higher(c: Config, sense: Sense, v: SnakeView)
  {
    sense.playerY > v.y + c.playerAboveThreshold
  }

  predicate InRange(o: Option<SnakeView>, range: real)
  {
    o.Some? && o.value.dist <= range
  }

  /** `FindNearestSnake` as a reference definition: the index of a non-null
      snake within range at minimal distance, the earliest on ties, or None. */
  function Nearest(snakes: seq<Option<SnakeView>>, range: real): (r: Option<nat>)
    ensures r.None? <==> forall i :: 0 <= i < |snakes| ==> !InRange(snakes[i], range)
    ensures r.Some? ==> r.value < |snakes| && InRange(snakes[r.value], range)
    ensures r.Some? ==> forall j :: 0 <= j < |snakes| && InRange(snakes[j], range) ==>
                          snakes[r.value].value.dist <= snakes[j].value.dist
    ensures r.Some? ==> forall j :: 0 <= j < r.value && InRange(snakes[j], range) ==>
                          snakes[j].value.dist > snakes[r.value].value.dist
    decreases |snakes|
  {
    if |snakes| == 0 then None
    else
      var init := snakes[..|snakes| - 1];
      var best := Nearest(init, range);
      var last := |snakes| - 1;
      assert forall i :: 0 <= i < last ==> snakes[i] == init[i];
      if InRange(snakes[last], range) &&
         (best.None? || snakes[last].value.dist < snakes[best.value].value.dist)
      then Some(last)
      else best
  }

  /** The loop of `FindNearestSnake`: keep the first snake strictly nearer
      than the best so far and within `assistRange`. */
  method FindNearestSnake(snakes: seq<Option<SnakeView>>, range: real) returns (nearest: Option<nat>)
    ensures nearest == Nearest(snakes, range)
    ensures nearest.None? <==> forall i :: 0 <= i < |snakes| ==> !InRange(snakes[i], range)
    ensures nearest.Some? ==> forall j :: 0 <= j < nearest.value && InRange(snakes[j], range) ==>
                                snakes[j].value.dist > snakes[nearest.value].value.dist
  {
    nearest := None;
    var i := 0;
    while i < |snakes|
      invariant 0 <= i <= |snakes|
      invariant nearest == Nearest(snakes[..i], range)
    {
      assert snakes[..i + 1][..i] == snakes[..i];
      var s := snakes[i];
      if s.Some? {
        var d := s.value.dist;
        if (nearest.None? || d < snakes[nearest.value].value.dist) && d <= range {
          nearest := Some(i);
        }
      }
      i := i + 1;
    }
    assert snakes[..i] == snakes;
  }

  /** The snake with a given identity among this frame's snakes (a destroyed
      target is no longer found, which the engine reports as null). */
  function Resolve(snakes: seq<Option<SnakeView>>, id: nat): (r: Option<SnakeView>)
    ensures r.Some? ==> r.value.id == id && Some(r.value) in snakes
    ensures r.None? ==> forall i :: 0 <= i < |snakes| && snakes[i].Some? ==> snakes[i].value.id != id
    decreases |snakes|
  {
    if |snakes| == 0 then None
    else if snakes[0].Some? && snakes[0].value.id == id then snakes[0]
    else
      var r := Resolve(snakes[1..], id);
      assert forall i :: 1 <= i < |snakes| ==> snakes[i] == snakes[1..][i - 1];
      r
  }

  function Target(s: State, sense: Sense): Option<SnakeView>
  {
    if s.target.None? then None else Resolve(sense.snakes, s.target.value)
  }

  // ---------------------------------------------------------------------------
  // Update, phase by phase
  // ---------------------------------------------------------------------------

  /** `EndChargeImmediate`. */
  function EndCharge(s: State): (r: State)
    ensures !r.charging && r.mode == Idle && r.chargeTimer == 0.0
    ensures r.(charging := s.charging, mode := s.mode, chargeTimer := s.chargeTimer) == s
  {
    s.(charging := false, mode := Idle, chargeTimer := 0.0)
  }

  /** `StartCharge`. */
  function StartCharge(s: State, c: Config): (r: State)
    ensures r.charging && r.chargeTimer == c.chargeDuration
    ensures r.(charging := s.charging, chargeTimer := s.chargeTimer) == s
  {
    s.(charging := true, chargeTimer := c.chargeDuration)
  }

  /** The timer block: each timer counts down only while positive, and a
      charge whose timer has run out ends at once. */
  function Tick(s: State, dt: real): (r: State)
    ensures s.assistTimer > 0.0 ==> r.assistTimer == s.assistTimer - dt
    ensures s.assistTimer <= 0.0 ==> r.assistTimer == s.assistTimer
    ensures r.charging ==> r.chargeTimer > 0.0
    ensures r.charging ==> r.chargeTimer == (if s.chargeTimer > 0.0 then s.chargeTimer - dt else s.chargeTimer)
    ensures s.charging && !r.charging ==> r.mode == Idle && r.chargeTimer == 0.0
    ensures !s.charging ==> !r.charging && r.mode == s.mode
    ensures s.charging && r.charging ==> r.mode == s.mode
    ensures r.target == s.target && r.life == s.life && r.attacking == s.attacking
  {
    var a := if s.assistTimer > 0.0 then s.assistTimer - dt else s.assistTimer;
    var t := if s.chargeTimer > 0.0 then s.chargeTimer - dt else s.chargeTimer;
    var s1 := s.(assistTimer := a, chargeTimer := t);
    if t <= 0.0 && s1.charging then EndCharge(s1) else s1
  }

  /** The player-height block: on the ground an assist in progress is dropped
      for a charge; in the air, outside an assist and off cooldown, the
      nearest snake below the player becomes the target. */
  function Retarget(s: State, c: Config, sense: Sense): (r: State)
    ensures OnGround(sense) && s.mode == AssistToSnake ==> r.target.None? && r.mode == ChargeHorizontal
    ensures OnGround(sense) ==> r.mode != AssistToSnake
    ensures r.target != s.target && r.target.Some? ==>
              !OnGround(sense) && c.enableAssist && s.mode != AssistToSnake && s.assistTimer <= 0.0 &&
              var n := Nearest(sense.snakes, c.assistRange);
              n.Some? && sense.snakes[n.value].value.id == r.target.value &&
              Higher(c, sense, sense.snakes[n.value].value)
    ensures r.target != s.target && r.target.None? ==> OnGround(sense) && s.mode == AssistToSnake
    ensures !OnGround(sense) && c.enableAssist && s.mode != AssistToSnake && s.assistTimer <= 0.0 ==>
              var n := Nearest(sense.snakes, c.assistRange);
              n.Some? && Higher(c, sense, sense.snakes[n.value].value) ==>
                r.target == Some(sense.snakes[n.value].value.id)
    ensures r.mode != s.mode ==> r.mode == ChargeHorizontal && s.mode == AssistToSnake
    ensures r.(target := s.target, mode := s.mode) == s
  {
    if OnGround(sense) then
      if s.mode == AssistToSnake then s.(target := None, mode := ChargeHorizontal) else s
    else if c.enableAssist && s.mode != AssistToSnake && s.assistTimer <= 0.0 then
      var n := Nearest(sense.snakes, c.assistRange);
      if n.Some? && Higher(c, sense, sense.snakes[n.value].value)
         && sense.snakes[n.value].value.dist <= c.assistRange
      then s.(target := Some(sense.snakes[n.value].value.id))
      else s
    else s
  }

  /** `HandleBurst`. */
  function Burst(s: State, dt: real, roll: real): (r: Frame)
    ensures r.burst <==> !s.bursting && !s.attacking && s.burstTimer + dt >= BurstCooldown && roll < BurstChance
    ensures !s.bursting && !s.attacking ==>
              r.state.burstTimer == (if s.burstTimer + dt >= BurstCooldown then 0.0 else s.burstTimer + dt)
    ensures s.bursting || s.attacking ==> r.state == s && !r.burst
    ensures r.state.bursting == (s.bursting || r.burst)
    ensures r.state.(burstTimer := s.burstTimer, bursting := s.bursting) == s
  {
    if !s.bursting && !s.attacking then
      var t := s.burstTimer + dt;
      if t >= BurstCooldown then
        var b := roll < BurstChance;
        Frame(s.(burstTimer := 0.0, bursting := b), false, false, false, b, None)
      else Frame(s.(burstTimer := t), false, false, false, false, None)
    else Frame(s, false, false, false, false, None)
  }

  /** The `Idle` case. */
  function IdleCase(s: State, c: Config, sense: Sense): (r: Frame)
    requires s.mode == Idle
    ensures r.state.mode == AssistToSnake ==>
              !OnGround(sense) && Target(s, sense).Some? &&
              Higher(c, sense, Target(s, sense).value) && s.assistTimer <= 0.0
    ensures (!OnGround(sense) && Target(s, sense).Some? && Higher(c, sense, Target(s, sense).value) &&
             s.assistTimer <= 0.0) ==> r.state.mode == AssistToSnake
    ensures r.state.mode != AssistToSnake ==> r.state.mode == Idle
    ensures r.delayedCharge <==> OnGround(sense) && !s.charging && !s.attacking
    ensures r.bite <==> !s.attacking && sense.playerDist <= c.biteRange
    ensures r.state.target == s.target && r.state.charging == s.charging && r.lift.None?
    ensures r.state.assistTimer == s.assistTimer && r.state.chargeTimer == s.chargeTimer
    ensures r.state.life == s.life
  {
    var ground := OnGround(sense);
    var t := Target(s, sense);
    var assist := !ground && t.Some? && Higher(c, sense, t.value) && s.assistTimer <= 0.0;
    var delayed := ground && !s.charging && !s.attacking;
    var follow := !ground && !assist && !s.attacking && !s.bursting && !s.charging;
    var s1 := if assist then s.(mode := AssistToSnake) else s;
    var bite := !s1.attacking && sense.playerDist <= c.biteRange;
    var s2 := s1.(attacking := s1.attacking || bite);
    var b := Burst(s2, sense.dt, sense.roll);
    Frame(b.state, delayed, follow, bite, b.burst, None)
  }

  /** The `AssistToSnake` case with `AssistBehaviour`: once touching a
      grounded snake that the player is above, and off cooldown, lift it,
      restart the cooldown, drop the target and charge. */
  function AssistCase(s: State, c: Config, sense: Sense): (r: Frame)
    requires s.mode == AssistToSnake
    ensures Target(s, sense).None? ==> r.state == s.(mode := Idle) && r.lift.None?
    ensures Target(s, sense).Some? && OnGround(sense) ==>
              r.state == s.(target := None, mode := ChargeHorizontal) && r.lift.None?
    ensures (!OnGround(sense) && Target(s, sense).Some? &&
             Target(s, sense).value.dist <= c.touchDistance + TouchSlack &&
             Target(s, sense).value.grounded && Higher(c, sense, Target(s, sense).value) &&
             s.assistTimer <= 0.0) ==> r.lift == Some(Target(s, sense).value.id)
    ensures r.lift.Some? ==>
              !OnGround(sense) && Target(s, sense).Some? && r.lift.value == Target(s, sense).value.id &&
              Target(s, sense).value.dist <= c.touchDistance + TouchSlack &&
              Target(s, sense).value.grounded && Higher(c, sense, Target(s, sense).value) &&
              s.assistTimer <= 0.0
    ensures r.lift.Some? ==>
              r.state.assistTimer == c.assistCooldown && r.state.target.None? &&
              r.state.mode == ChargeHorizontal && r.state.charging && r.state.chargeTimer == c.chargeDuration
    ensures r.state.mode == AssistToSnake ==> r.state == s
    ensures !r.delayedCharge && !r.bite && !r.burst
  {
    var t := Target(s, sense);
    if t.None? then Frame(s.(mode := Idle), false, false, false, false, None)
    else if OnGround(sense) then
      Frame(s.(target := None, mode := ChargeHorizontal), false, false, false, false, None)
    else if t.value.dist <= c.touchDistance + TouchSlack && t.value.grounded
            && Higher(c, sense, t.value) && s.assistTimer <= 0.0 then
      var s1 := s.(assistTimer := c.assistCooldown, target := None, mode := ChargeHorizontal);
      Frame(StartCharge(s1, c), false, false, false, false, Some(t.value.id))
    else Frame(s, false, false, false, false, None)
  }

  /** The `ChargeHorizontal` case. */
  function ChargeCase(s: State, c: Config): (r: Frame)
    requires s.mode == ChargeHorizontal
    ensures r.state.charging && r.state.mode == ChargeHorizontal
    ensures s.charging ==> r.state == s
    ensures !s.charging ==> r.state.chargeTimer == c.chargeDuration
  {
    Frame(if s.charging then s else StartCharge(s, c), false, false, false, false, None)
  }

  function Dispatch(s: State, c: Config, sense: Sense): Frame
  {
    match s.mode
    case Idle => IdleCase(s, c, sense)
    case AssistToSnake => AssistCase(s, c, sense)
    case ChargeHorizontal => ChargeCase(s, c)
  }

  function Quiet(s: State): Frame
  {
    Frame(s, false, false, false, false, None)
  }

  /** `Update`: nothing when dead or without a player; otherwise timers, then
      targeting, then the state machine. */
  function Update(s: State, c: Config, sense: Sense): (r: Frame)
    ensures s.life.dead || !sense.playerPresent ==> r == Quiet(s)
    ensures r.state.life == s.life
  {
    if s.life.dead || !sense.playerPresent then Quiet(s)
    else
      var s1 := Tick(s, sense.dt);
      var s2 := Retarget(s1, c, sense);
      Dispatch(s2, c, sense)
  }

  /** The hound only enters AssistToSnake from Idle, with the player in the
      air, above a live target, and the (ticked) assist cooldown over. */
  lemma EnterAssist(s: State, c: Config, sense: Sense)
    requires !s.life.dead && sense.playerPresent
    requires s.mode != AssistToSnake
    requires Update(s, c, sense).state.mode == AssistToSnake
    ensures !OnGround(sense)
    ensures var r := Update(s, c, sense).state;
            r.target.Some? && Resolve(sense.snakes, r.target.value).Some? &&
            Higher(c, sense, Resolve(sense.snakes, r.target.value).value) &&
            r.assistTimer <= 0.0
  {
    var s1 := Tick(s, sense.dt);
    var s2 := Retarget(s1, c, sense);
    assert s1.mode != AssistToSnake;
    assert s2.mode != AssistToSnake;
    assert s2.mode == Idle;
  }

  /** The end of `DelayThenCharge`: charge if the player is still on the ground. */
  function FinishDelayedCharge(s: State, c: Config, onGround: bool): (r: State)
    ensures onGround ==> r.mode == ChargeHorizontal && r.charging && r.chargeTimer == c.chargeDuration
    ensures !onGround ==> r == s
  {
    if onGround then StartCharge(s.(mode := ChargeHorizontal), c) else s
  }

  /** The bite's damage pass over the player-layer colliders, then its end. */
  function BiteHits(hits: seq<Collider>): (r: seq<Blow>)
    ensures forall b :: b in r ==> b.damage == BiteDamage && b.mana == NoPayout
    ensures forall c :: c in hits && c.hasHealth ==> exists b :: b in r && b.target == c.id
    ensures forall b :: b in r ==> exists c :: c in hits && c.id == b.target && c.hasHealth
    ensures DistinctIds(hits) ==> OneBlowEach(r)
  {
    MeleeSweep(hits, false, BiteDamage, NoPayout)
  }

  function FinishAttack(s: State): (r: State)
    ensures !r.attacking && r.(attacking := s.attacking) == s
  {
    s.(attacking := false)
  }

  function FinishBurst(s: State): (r: State)
    ensures !r.bursting && r.(bursting := s.bursting) == s
  {
    s.(bursting := false)
  }

  /** `OnTriggerEnter2D`: contact with a player-layer collider that has a
      health component deals `BiteDamage`, unless the hound is dead. */
  function Contact(s: State, playerLayer: bool, hasHealth: bool): (r: Option<int>)
    ensures r.Some? <==> !s.life.dead && playerLayer && hasHealth
    ensures r.Some? ==> r.value == BiteDamage
  {
    if s.life.dead || !playerLayer || !hasHealth then None else Some(BiteDamage)
  }

  datatype Hurt = Hurt(state: State, payout: Payout)

  /** `TakeDamage`: nothing once dead; otherwise the wound, 10 mana to the
      player in the scene (if any), and death at zero or below. */
  function TakeDamage(s: State, damage: int, playerExists: bool): (r: Hurt)
    ensures s.life.dead ==> r == Hurt(s, NoPayout)
    ensures !s.life.dead ==> r.state.life.health == s.life.health - damage
    ensures !s.life.dead ==> (r.state.life.dead <==> r.state.life.health <= 0)
    ensures !s.life.dead ==> r.payout == AnyPlayerReward(playerExists, HitMana)
    ensures r.state.(life := s.life) == s
  {
    if s.life.dead then Hurt(s, NoPayout)
    else Hurt(s.(life := Wound(s.life, damage)), AnyPlayerReward(playerExists, HitMana))
  }
}

=== FILE: hellhound_spawner.dfy ===
/** The Hellhound spawner: subscribes to the Snake's wake-up event (only when
    a prefab is assigned and a Snake exists), and after a delay instantiates
    the Hellhound once, announcing it when the instance has a `Hellhound`
    component. Every wake-up starts its own countdown; `hasSpawned` keeps all
    but the first from spawning.
 */
module HellhoundSpawner {
  import opened Common

  datatype State = State(prefabSet: bool, subscribed: bool, pending: nat, hasSpawned: bool)

  /** `Start`: a missing prefab logs an error and stops before subscribing. */
  function Start(prefabSet: bool, snakePresent: bool): (s: State)
    ensures s.subscribed <==> prefabSet && snakePresent
    ensures s.pending == 0 && !s.hasSpawned
  {
    State(prefabSet, prefabSet && snakePresent, 0, false)
  }

  /** The Snake's wake-up event reaches `StartSpawnCountdown` only through the subscription. */
  function SnakeWoke(s: State): (r: State)
    ensures r.pending == if s.subscribed then s.pending + 1 else s.pending
    ensures r.(pending := s.pending) == s
  {
    if s.subscribed then s.(pending := s.pending + 1) else s
  }

  /** The end of one countdown: spawn (with the given identity) if nothing was
      spawned yet, and announce the Hellhound when the instance carries one. */
  datatype Spawn = Spawn(state: State, spawned: bool, announced: Option<nat>)

  function Elapse(s: State, id: nat, hasComponent: bool): (r: Spawn)
    requires s.pending > 0
    ensures r.state.pending == s.pending - 1
    ensures r.spawned <==> !s.hasSpawned
    ensures r.announced.Some? <==> r.spawned && hasComponent
    ensures r.announced.Some? ==> r.announced.value == id
    ensures r.state.hasSpawned
  {
    var s1 := s.(pending := s.pending - 1);
    if s.hasSpawned then Spawn(s1, false, None)
    else Spawn(s1.(hasSpawned := true), true, if hasComponent then Some(id) else None)
  }

  datatype Event = Woke | Elapsed(id: nat, hasComponent: bool)

  /** A countdown can only finish while one is pending. */
  function Step(s: State, e: Event): Spawn
  {
    match e
    case Woke => Spawn(SnakeWoke(s), false, None)
    case Elapsed(id, c) => if s.pending > 0 then Elapse(s, id, c) else Spawn(s, false, None)
  }

  function Spawns(s: State, events: seq<Event>): nat
    decreases |events|
  {
    if |events| == 0 then 0
    else
      var r := Step(s, events[0]);
      (if r.spawned then 1 else 0) + Spawns(r.state, events[1..])
  }

  /** At most one Hellhound ever appears, none after the first, and none at
      all from a spawner that never subscribed (no prefab, or no Snake). */
  lemma {:induction false} SpawnsOnce(s: State, events: seq<Event>)
    ensures Spawns(s, events) <= 1
    ensures s.hasSpawned ==> Spawns(s, events) == 0
    ensures !s.subscribed && s.pending == 0 ==> Spawns(s, events) == 0
    decreases |events|
  {
    if |events| > 0 {
      var r := Step(s, events[0]);
      assert !s.subscribed && s.pending == 0 ==> !r.state.subscribed && r.state.pending == 0 && !r.spawned;
      SpawnsOnce(r.state, events[1..]);
    }
  }
}

=== FILE: player_health.dfy ===
/** The player's vitals: health clamped to [0, maxHealth], mana capped at
    maxMana, and a one-way death latch. Knockback, animation, sound, UI bars
    and the delayed scene reload are engine effects and are not modelled.
 */
module PlayerHealth {
  import opened Common

  const DefaultMaxHealth: int := 100
  const DefaultMaxMana: real := 300.0

  datatype State = State(maxHealth: int, health: int, maxMana: real, mana: real, dead: bool)

  /** The `PlayerCombat.Instance` the mana code consults: absent, or present
      with its `specialActive` flag. */
  datatype Combat = NoCombat | Combat(specialActive: bool)

  function Max0(x: int): int { if x < 0 then 0 else x }
  function MinReal(a: real, b: real): real { if a <= b then a else b }

  /** `Start` (with the field initialisers): full health, empty mana, alive. */
  function Start(maxHealth: int, maxMana: real): (s: State)
    ensures s.health == s.maxHealth == maxHealth && s.maxMana == maxMana
    ensures s.mana == 0.0 && !s.dead
  {
    State(maxHealth, maxHealth, maxMana, 0.0, false)
  }

  /** The invariant the operations keep (for non-negative amounts). */
  ghost predicate Valid(s: State)
  {
    0 <= s.health <= s.maxHealth && 0.0 <= s.mana <= s.maxMana && (s.dead ==> s.health == 0)
  }

  /** `Die`: sets the latch once; the later effects are engine calls. */
  function Die(s: State): (r: State)
    ensures r.dead
    ensures s.dead ==> r == s
    ensures r.(dead := s.dead) == s
  {
    if s.dead then s else s.(dead := true)
  }

  /** `TakeDamage`: ignored once dead; health drops by `damage` but never
      below 0, and the player dies exactly when it reaches 0. */
  function TakeDamage(s: State, damage: int): (r: State)
    ensures s.dead ==> r == s
    ensures !s.dead ==> r.health == Max0(s.health - damage)
    ensures !s.dead ==> (r.dead <==> r.health == 0)
    ensures r.health >= 0 || s.dead
    ensures r.maxHealth == s.maxHealth && r.mana == s.mana && r.maxMana == s.maxMana
  {
    if s.dead then s
    else
      var h := if s.health - damage < 0 then 0 else s.health - damage;
      var hurt := s.(health := h);
      if h <= 0 then Die(hurt) else hurt
  }

  /** `Heal`: ignored once dead; otherwise health rises by `amount`, capped at `maxHealth`. */
  function Heal(s: State, amount: int): (r: State)
    ensures s.dead ==> r == s
    ensures !s.dead ==> r.health <= s.maxHealth
    ensures !s.dead ==> (r.health == s.health + amount || r.health == s.maxHealth)
    ensures !s.dead && s.health + amount <= s.maxHealth ==> r.health == s.health + amount
    ensures r.(health := s.health) == s
  {
    if s.dead then s
    else
      var h := s.health + amount;
      s.(health := if h > s.maxHealth then s.maxHealth else h)
  }

  datatype ManaResult = ManaResult(state: State, specialEnabled: bool)

  /** `AddMana`: ignored while the special attack is active; otherwise mana is
      raised and capped at `maxMana`, and reaching the cap enables the special
      on the combat component, when there is one. It does not look at `isDead`. */
  function AddMana(s: State, amount: real, combat: Combat): (r: ManaResult)
    ensures combat.Combat? && combat.specialActive ==> r == ManaResult(s, false)
    ensures !(combat.Combat? && combat.specialActive) ==>
              r.state.mana == MinReal(s.mana + amount, s.maxMana)
    ensures r.specialEnabled <==>
              combat.Combat? && !combat.specialActive && s.mana + amount >= s.maxMana
    ensures r.state.(mana := s.mana) == s
  {
    if combat.Combat? && combat.specialActive then ManaResult(s, false)
    else
      var m := s.mana + amount;
      var capped := if m > s.maxMana then s.maxMana else m;
      ManaResult(s.(mana := capped), capped >= s.maxMana && combat.Combat?)
  }

  /** `ResetMana`: mana back to 0, nothing else touched. */
  function ResetMana(s: State): (r: State)
    ensures r.mana == 0.0
    ensures r.(mana := s.mana) == s
  {
    s.(mana := 0.0)
  }

  /** An enemy's mana payout, applied to the player. */
  function Collect(s: State, payout: Payout, combat: Combat): (r: ManaResult)
    ensures payout.NoPayout? ==> r == ManaResult(s, false)
    ensures payout.Mana? ==> r == AddMana(s, payout.amount, combat)
  {
    match payout
    case NoPayout => ManaResult(s, false)
    case Mana(amount) => AddMana(s, amount, combat)
  }

  /** One melee blow landing on the player: `TakeDamage` then, if the blow
      carries mana, `AddMana` (which runs even when the blow was fatal). */
  function Receive(s: State, blow: Blow, combat: Combat): (r: ManaResult)
    ensures r.state.health == TakeDamage(s, blow.damage).health
    ensures r.state.dead == TakeDamage(s, blow.damage).dead
    ensures blow.mana.Mana? && !(combat.Combat? && combat.specialActive) ==>
              r.state.mana == MinReal(s.mana + blow.mana.amount, s.maxMana)
    ensures blow.mana.NoPayout? || (combat.Combat? && combat.specialActive) ==>
              r == ManaResult(TakeDamage(s, blow.damage), false)
    ensures r.specialEnabled <==>
              blow.mana.Mana? && combat.Combat? && !combat.specialActive &&
              s.mana + blow.mana.amount >= s.maxMana
    ensures r.state.(mana := TakeDamage(s, blow.damage).mana) == TakeDamage(s, blow.damage)
  {
    Collect(TakeDamage(s, blow.damage), blow.mana, combat)
  }

  // ---------------------------------------------------------------------------
  // Sequences of events
  // ---------------------------------------------------------------------------

  datatype Event = Hurt(damage: int) | Mend(amount: int) | Gain(mana: real, combat: Combat) | Drain

  predicate NonNegative(e: Event)
  {
    match e
    case Hurt(d) => d >= 0
    case Mend(a) => a >= 0
    case Gain(a, _) => a >= 0.0
    case Drain => true
  }

  function Apply(s: State, e: Event): State
  {
    match e
    case Hurt(d) => TakeDamage(s, d)
    case Mend(a) => Heal(s, a)
    case Gain(a, c) => AddMana(s, a, c).state
    case Drain => ResetMana(s)
  }

  function Run(s: State, events: seq<Event>): State
    decreases |events|
  {
    if |events| == 0 then s else Run(Apply(s, events[0]), events[1..])
  }

  /** A fresh player is valid when the configured maxima are non-negative. */
  lemma StartValid(maxHealth: int, maxMana: real)
    requires maxHealth >= 0 && maxMana >= 0.0
    ensures Valid(Start(maxHealth, maxMana))
  {
  }

  /** Each event with a non-negative amount keeps health in [0, maxHealth],
      mana in [0, maxMana] and a dead player at 0 health. */
  lemma ApplyKeepsValid(s: State, e: Event)
    requires Valid(s) && NonNegative(e)
    ensures Valid(Apply(s, e))
  {
  }

  lemma {:induction false} RunKeepsValid(s: State, events: seq<Event>)
    requires Valid(s)
    requires forall i :: 0 <= i < |events| ==> NonNegative(events[i])
    ensures Valid(Run(s, events))
    decreases |events|
  {
    if |events| > 0 {
      ApplyKeepsValid(s, events[0]);
      RunKeepsValid(Apply(s, events[0]), events[1..]);
    }
  }

  /** Death is one-way: after it no event revives the player or changes health. */
  lemma {:induction false} DeathLatched(s: State, events: seq<Event>)
    requires s.dead
    ensures Run(s, events).dead
    ensures Run(s, events).health == s.health
    decreases |events|
  {
    if |events| > 0 {
      RunDeathStep(s, events[0]);
      DeathLatched(Apply(s, events[0]), events[1..]);
    }
  }

  lemma RunDeathStep(s: State, e: Event)
    requires s.dead
    ensures Apply(s, e).dead && Apply(s, e).health == s.health
  {
  }
}

=== FILE: skeleton_warrior.dfy ===
/** The shield-bearing skeleton: chases the player within its detection
    radius, attacks in melee range, and may block an incoming hit with its
    shield, which freezes it until the block ends. The shield roll, the block
    duration and the physics queries are inputs.
 */
module SkeletonWarrior {
  import opened Common

  const MaxHealth: int := 800
  const AttackDamage: int := 45
  const AttackMana: real := 1.0
  const HitMana: real := 30.0

  datatype Config = Config(detectRadius: real, attackRange: real, chaseSpeed: real,
                           flipDeadzone: real, shieldChance: real)

  const Defaults: Config := Config(4.0, 1.0, 5.0, 0.1, 0.3)

  datatype State = State(life: Life, facingRight: bool, attacking: bool, blocking: bool)

  /** One frame's view: the player, its distance and horizontal offset, and
      the obstacle and ground checks. */
  datatype Sense = Sense(playerPresent: bool, dist: real, dx: real,
                         obstacle: bool, groundAhead: bool, grounded: bool)

  /** The new state, the horizontal velocity written (None: untouched), the
      jump impulse, and whether an attack coroutine started. */
  datatype Frame = Frame(state: State, vx: Option<real>, jump: bool, attack: bool)

  function Start(): (s: State)
    ensures s.life == Spawned(MaxHealth) && s.facingRight && !s.attacking && !s.blocking
  {
    State(Spawned(MaxHealth), true, false, false)
  }

  /** `Update`: frozen while blocking (before any facing change); otherwise
      chase (jumping at obstacles or gaps), stop and attack in range, or idle. */
  function Update(s: State, c: Config, sense: Sense): (r: Frame)
    ensures s.life.dead || !sense.playerPresent ==> r == Frame(s, None, false, false)
    ensures !s.life.dead && sense.playerPresent && s.blocking ==> r == Frame(s, Some(0.0), false, false)
    ensures r.attack <==> !s.life.dead && sense.playerPresent && !s.blocking &&
                          Classify(sense.dist, c.detectRadius, c.attackRange) == Close && !s.attacking
    ensures r.jump <==> !s.life.dead && sense.playerPresent && !s.blocking &&
                        Classify(sense.dist, c.detectRadius, c.attackRange) == Approach &&
                        ChaseJump(sense.obstacle, sense.groundAhead, sense.grounded)
    ensures !s.life.dead && sense.playerPresent && !s.blocking ==>
              r.state.facingRight == Turn(s.facingRight, sense.dx, c.flipDeadzone) &&
              r.vx == Some(if Classify(sense.dist, c.detectRadius, c.attackRange) == Approach
                           then ChaseVelocity(sense.dx, c.chaseSpeed) else 0.0)
    ensures r.state.attacking == (s.attacking || r.attack)
    ensures r.state.life == s.life && r.state.blocking == s.blocking
  {
    if s.life.dead || !sense.playerPresent then Frame(s, None, false, false)
    else if s.blocking then Frame(s, Some(0.0), false, false)
    else
      var facing := Turn(s.facingRight, sense.dx, c.flipDeadzone);
      match Classify(sense.dist, c.detectRadius, c.attackRange)
      case Approach =>
        Frame(s.(facingRight := facing), Some(ChaseVelocity(sense.dx, c.chaseSpeed)),
              ChaseJump(sense.obstacle, sense.groundAhead, sense.grounded), false)
      case Close =>
        Frame(s.(facingRight := facing, attacking := true), Some(0.0), false, !s.attacking)
      case Away =>
        Frame(s.(facingRight := facing), Some(0.0), false, false)
  }

  datatype Swing = Swing(state: State, blows: seq<Blow>)

  /** The attack after its wind-up: aborted (and `attacking` cleared) if a
      block began meanwhile; otherwise 45 damage and 1 mana to every other
      collider with a player health component. */
  function AttackLand(s: State, hits: seq<Collider>): (r: Swing)
    ensures s.blocking ==> r == Swing(s.(attacking := false), [])
    ensures !s.blocking ==> r.state == s
    ensures forall b :: b in r.blows ==> b.damage == AttackDamage && b.mana == Mana(AttackMana)
    ensures !s.blocking ==> forall c :: c in hits && c.hasHealth && !c.isSelf ==>
              exists b :: b in r.blows && b.target == c.id
    ensures forall b :: b in r.blows ==> exists c :: c in hits && c.id == b.target && !c.isSelf
    ensures DistinctIds(hits) ==> OneBlowEach(r.blows)
  {
    if s.blocking then Swing(s.(attacking := false), [])
    else Swing(s, MeleeSweep(hits, true, AttackDamage, Mana(AttackMana)))
  }

  /** The attack's recovery: `attacking` cleared. */
  function AttackEnd(s: State): (r: State)
    ensures !r.attacking && r.(attacking := s.attacking) == s
  {
    s.(attacking := false)
  }

  datatype Hurt = Hurt(state: State, payout: Payout, knockback: bool)

  /** `TakeDamage` with the shield roll: ignored when dead or already blocking;
      a roll under `shieldChance` starts a block and takes no damage;
      otherwise the wound, knockback from any attacker, and 30 mana to a
      player attacker. */
  function TakeDamage(s: State, c: Config, damage: int, attacker: Attacker, roll: real): (r: Hurt)
    ensures s.life.dead || s.blocking ==> r == Hurt(s, NoPayout, false)
    ensures !s.life.dead && !s.blocking && roll < c.shieldChance ==>
              r == Hurt(s.(blocking := true), NoPayout, false)
    ensures !s.life.dead && !s.blocking && roll >= c.shieldChance ==>
              r.state.life == Wound(s.life, damage) && !r.state.blocking &&
              (r.knockback <==> attacker != NoAttacker) &&
              r.payout == PlayerReward(attacker, HitMana)
    ensures r.state.life.health != s.life.health ==> !s.blocking && roll >= c.shieldChance
  {
    if s.life.dead || s.blocking then Hurt(s, NoPayout, false)
    else if roll < c.shieldChance then Hurt(s.(blocking := true), NoPayout, false)
    else Hurt(s.(life := Wound(s.life, damage)), PlayerReward(attacker, HitMana), attacker != NoAttacker)
  }

  /** The end of `DoShieldBlock`. */
  function EndBlock(s: State): (r: State)
    ensures !r.blocking && r.(blocking := s.blocking) == s
  {
    s.(blocking := false)
  }

  datatype Event = Tick(sense: Sense) | Landed(hits: seq<Collider>) | Recovered
                 | Hit(damage: int, attacker: Attacker, roll: real) | BlockOver

  function Step(s: State, c: Config, e: Event): State
  {
    match e
    case Tick(sense) => Update(s, c, sense).state
    case Landed(hits) => AttackLand(s, hits).state
    case Recovered => AttackEnd(s)
    case Hit(d, a, roll) => TakeDamage(s, c, d, a, roll).state
    case BlockOver => EndBlock(s)
  }

  function Run(s: State, c: Config, events: seq<Event>): State
    decreases |events|
  {
    if |events| == 0 then s else Run(Step(s, c, events[0]), c, events[1..])
  }

  /** A block is airtight: until it ends, no sequence of frames and hits
      changes the skeleton's health, facing or block. */
  lemma {:induction false} BlockHoldsHealth(s: State, c: Config, events: seq<Event>)
    requires s.blocking
    requires forall i :: 0 <= i < |events| ==> !events[i].BlockOver?
    ensures Run(s, c, events).life == s.life
    ensures Run(s, c, events).blocking
    ensures Run(s, c, events).facingRight == s.facingRight
    decreases |events|
  {
    if |events| > 0 {
      var next := Step(s, c, events[0]);
      assert next.life == s.life && next.blocking && next.facingRight == s.facingRight;
      BlockHoldsHealth(next, c, events[1..]);
    }
  }
}

=== FILE: skull_bat.dfy ===
/** The skull bat: a gravity-free flyer that closes in on the player, rises
    over obstacles found by a fan of horizontal rays in front of it, dashes
    at the player at random, attacks on a cooldown latch, and pays the
    player a bounty when the player lands the killing blow.
 */
module SkullBat {
  import opened Common

  datatype Config = Config(maxHealth: int, dashChance: real, verticalBoost: real,
                           checkLayers: int, attackRange: real, attackDamage: int,
                           manaReward: real)

  const Defaults: Config := Config(100, 0.005, 2.0, 3, 1.0, 20, 20.0)

  /** `lift` records that `movement.y` was overwritten by `verticalBoost`. */
  datatype State = State(life: Life, knockedBack: bool, canAttack: bool, dashing: bool,
                         course: Course, lift: bool, facingRight: bool)

  /** One frame's view: the player, its offset and distance, whether a front
      check point is assigned, what the i-th obstacle ray (from the bottom)
      hits, and the dash roll (`Random.value`). */
  datatype Sense = Sense(playerPresent: bool, dx: real, dist: real,
                         hasFrontCheck: bool, rayHits: nat -> bool, dashRoll: real)

  /** The new state and the coroutines started this frame. */
  datatype Frame = Frame(state: State, dash: bool, attack: bool)

  function Start(c: Config): (s: State)
    ensures s.life == Spawned(c.maxHealth) && s.canAttack && !s.dashing && !s.knockedBack
  {
    State(Spawned(c.maxHealth), false, true, false, Rest, false, true)
  }

  // ---------------------------------------------------------------------------
  // The obstacle scan
  // ---------------------------------------------------------------------------

  /** The lowest ray at or above `from` (and below `layers`) that hits. */
  function FirstHit(from: nat, layers: int, rayHits: nat -> bool): (r: Option<nat>)
    ensures r.Some? ==> from <= r.value < layers && rayHits(r.value)
    ensures r.Some? ==> forall j :: from <= j < r.value ==> !rayHits(j)
    ensures r.None? ==> forall j :: from <= j < layers ==> !rayHits(j)
    decreases layers - from
  {
    if from >= layers then None
    else if rayHits(from) then Some(from)
    else FirstHit(from + 1, layers, rayHits)
  }

  /** The ray loop of `Update`: cast rays from the bottom up and stop at the
      first one that hits. Reports whether an obstacle was found and how
      many rays were cast. */
  method ScanObstacle(layers: int, rayHits: nat -> bool) returns (found: bool, cast: nat)
    ensures found <==> exists i :: 0 <= i < layers && rayHits(i)
    ensures found <==> FirstHit(0, layers, rayHits).Some?
    ensures found ==> cast == FirstHit(0, layers, rayHits).value + 1
    ensures !found ==> cast == if layers > 0 then layers else 0
  {
    found := false;
    var i: nat := 0;
    while i < layers
      invariant i <= layers || (i == 0 && layers <= 0)
      invariant !found
      invariant forall j :: 0 <= j < i ==> !rayHits(j)
      invariant FirstHit(0, layers, rayHits) == FirstHit(i, layers, rayHits)
      decreases layers - i
    {
      if rayHits(i) {
        found := true;
        cast := i + 1;
        return;
      }
      i := i + 1;
    }
    cast := i;
  }

  /** Whether the scan lifts the bat this frame. */
  predicate Blocked(c: Config, sense: Sense)
  {
    sense.hasFrontCheck && FirstHit(0, c.checkLayers, sense.rayHits).Some?
  }

  // ---------------------------------------------------------------------------
  // Frames
  // ---------------------------------------------------------------------------

  /** `Update`: unless dashing, steer at the player while out of attack range
      (stop inside it) and rise over an obstacle; always face the player;
      maybe start a dash; attack in range when the latch is up. A dash and an
      attack can start in the same frame. */
  function Update(s: State, c: Config, sense: Sense): (r: Frame)
    ensures s.life.dead || !sense.playerPresent ==> r == Frame(s, false, false)
    ensures !s.life.dead && sense.playerPresent && !s.dashing ==>
              r.state.course == (if sense.dist > c.attackRange then TowardPlayer else Rest) &&
              (r.state.lift <==> sense.hasFrontCheck && exists i :: 0 <= i < c.checkLayers && sense.rayHits(i))
    ensures s.dashing ==> r.state.course == s.course && r.state.lift == s.lift
    ensures !s.life.dead && sense.playerPresent ==> r.state.facingRight == FaceTowards(s.facingRight, sense.dx)
    ensures r.dash <==> !s.life.dead && sense.playerPresent && !s.dashing && sense.dashRoll < c.dashChance
    ensures r.attack <==> !s.life.dead && sense.playerPresent && sense.dist <= c.attackRange && s.canAttack
    ensures r.state.dashing == (s.dashing || r.dash)
    ensures r.state.canAttack == (s.canAttack && !r.attack)
    ensures r.state.life == s.life && r.state.knockedBack == s.knockedBack
  {
    if s.life.dead || !sense.playerPresent then Frame(s, false, false)
    else
      var s1 := if s.dashing then s
                else s.(course := if sense.dist > c.attackRange then TowardPlayer else Rest,
                        lift := Blocked(c, sense));
      var s2 := s1.(facingRight := FaceTowards(s.facingRight, sense.dx));
      var dash := !s.dashing && sense.dashRoll < c.dashChance;
      var attack := sense.dist <= c.attackRange && s.canAttack;
      Frame(s2.(dashing := s2.dashing || dash, canAttack := s2.canAttack && !attack), dash, attack)
  }

  /** `FixedUpdate`: the course the velocity is eased towards, or None when
      the bat is dead, knocked back or dashing and the velocity is left alone. */
  function Steer(s: State): (r: Option<(Course, bool)>)
    ensures r.Some? <==> !s.life.dead && !s.knockedBack && !s.dashing
    ensures r.Some? ==> r.value == (s.course, s.lift)
  {
    if s.life.dead || s.knockedBack || s.dashing then None else Some((s.course, s.lift))
  }

  /** The strike after the attack's wind-up. */
  function AttackLand(c: Config, dist: real, hasHealth: bool, playerDead: bool): (r: Option<int>)
    ensures r.Some? <==> dist <= c.attackRange && hasHealth && !playerDead
    ensures r.Some? ==> r.value == c.attackDamage
  {
    RangedStrike(dist, c.attackRange, c.attackDamage, hasHealth, playerDead)
  }

  /** The end of the attack cooldown. */
  function AttackReady(s: State): (r: State)
    ensures r.canAttack && r.(canAttack := s.canAttack) == s
  {
    s.(canAttack := true)
  }

  /** The end of `DashAttack`. */
  function DashEnd(s: State): (r: State)
    ensures !r.dashing && r.(dashing := s.dashing) == s
  {
    s.(dashing := false)
  }

  datatype Hurt = Hurt(state: State, payout: Payout)

  /** `TakeDamage` and `Die`: the wound, knockback from any attacker (even on
      the killing blow), the bounty to a player who kills it, and a dead bat's
      movement zeroed. */
  function TakeDamage(s: State, c: Config, damage: int, attacker: Attacker): (r: Hurt)
    ensures s.life.dead ==> r == Hurt(s, NoPayout)
    ensures r.state.life == Wound(s.life, damage)
    ensures r.payout.Mana? <==> !s.life.dead && r.state.life.dead && attacker == PlayerAttacker
    ensures r.payout.Mana? ==> r.payout.amount == c.manaReward
    ensures !s.life.dead ==> r.state.knockedBack == (s.knockedBack || attacker != NoAttacker)
    ensures !s.life.dead && r.state.life.dead ==> r.state.course == Rest && !r.state.lift
    ensures r.state.canAttack == s.canAttack && r.state.dashing == s.dashing
  {
    if s.life.dead then Hurt(s, NoPayout)
    else
      var o := Bounty(s.life, damage, attacker, c.manaReward);
      var s1 := s.(life := o.life, knockedBack := s.knockedBack || attacker != NoAttacker);
      Hurt(if o.life.dead then s1.(course := Rest, lift := false) else s1, o.payout)
  }

  /** The end of `ApplyKnockback`. */
  function KnockbackEnd(s: State): (r: State)
    ensures !r.knockedBack && r.(knockedBack := s.knockedBack) == s
  {
    s.(knockedBack := false)
  }

  // ---------------------------------------------------------------------------
  // Runs
  // ---------------------------------------------------------------------------

  datatype Event = Tick(sense: Sense) | Dashed | Ready | Hit(damage: int, attacker: Attacker) | Recovered

  function Step(s: State, c: Config, e: Event): Frame
  {
    match e
    case Tick(sense) => Update(s, c, sense)
    case Dashed => Frame(DashEnd(s), false, false)
    case Ready => Frame(AttackReady(s), false, false)
    case Hit(d, a) => Frame(TakeDamage(s, c, d, a).state, false, false)
    case Recovered => Frame(KnockbackEnd(s), false, false)
  }

  function Dashes(s: State, c: Config, events: seq<Event>): nat
    decreases |events|
  {
    if |events| == 0 then 0
    else
      var f := Step(s, c, events[0]);
      (if f.dash then 1 else 0) + Dashes(f.state, c, events[1..])
  }

  function Attacks(s: State, c: Config, events: seq<Event>): nat
    decreases |events|
  {
    if |events| == 0 then 0
    else
      var f := Step(s, c, events[0]);
      (if f.attack then 1 else 0) + Attacks(f.state, c, events[1..])
  }

  /** Dashes never overlap: until a dash ends at most one starts, and none
      while one is running. */
  lemma {:induction false} OneDashAtATime(s: State, c: Config, events: seq<Event>)
    requires forall i :: 0 <= i < |events| ==> !events[i].Dashed?
    ensures Dashes(s, c, events) <= 1
    ensures s.dashing ==> Dashes(s, c, events) == 0
    decreases |events|
  {
    if |events| > 0 {
      var f := Step(s, c, events[0]);
      assert f.dash || s.dashing ==> f.state.dashing;
      OneDashAtATime(f.state, c, events[1..]);
    }
  }

  /** The attack latch: between two cooldown ends at most one attack starts,
      and none while the latch is down. */
  lemma {:induction false} OneAttackPerCooldown(s: State, c: Config, events: seq<Event>)
    requires forall i :: 0 <= i < |events| ==> !events[i].Ready?
    ensures Attacks(s, c, events) <= 1
    ensures !s.canAttack ==> Attacks(s, c, events) == 0
    decreases |events|
  {
    if |events| > 0 {
      var f := Step(s, c, events[0]);
      assert f.attack || !s.canAttack ==> !f.state.canAttack;
      OneAttackPerCooldown(f.state, c, events[1..]);
    }
  }

  /** A dead bat starts nothing, whatever happens around it. */
  lemma {:induction false} DeadBatInert(s: State, c: Config, events: seq<Event>)
    requires s.life.dead
    ensures Dashes(s, c, events) == 0 && Attacks(s, c, events) == 0
    decreases |events|
  {
    if |events| > 0 {
      var f := Step(s, c, events[0]);
      assert f.state.life.dead && !f.dash && !f.attack;
      DeadBatInert(f.state, c, events[1..]);
    }
  }
}

=== FILE: snake.dfy ===
/** The Snake boss: dormant until the player is seen in front of it, then a
    wake-up delay, then chase/bite/leap/burst AI. Physics queries (the
    overlap in front, the ground check), distances and the burst roll are
    inputs; each coroutine is split into the part that runs inside
    `StartCoroutine` (up to its first wait) and the part after the wait.
 */
module Snake {
  import opened Common

  const MaxHealth: int := 1200
  const BiteDamage: int := 50
  const HitMana: real := 10.0
  const LeapHeight: real := 1.0
  const BurstCooldown: real := 3.0
  const BurstChance: real := 0.25

  /** Inspector settings read by `Update`. */
  datatype Config = Config(biteRange: real, flipDeadzone: real, enableBurst: bool)

  const Defaults: Config := Config(1.5, 0.1, true)

  datatype State = State(
    life: Life,
    hasWoken: bool,      // the wake-up sequence has finished
    wakingUp: bool,      // the wake-up delay is running
    facingRight: bool,   // sign of localScale.x
    attacking: bool,     // a bite or a leap is running
    bursting: bool,
    burstTimer: real)

  /** What one frame observes: whether a player exists, whether the overlap
      circle in front of the snake found it, the distance and offsets to it,
      the ground check, the frame time and the burst roll. */
  datatype Sense = Sense(playerPresent: bool, playerInFront: bool, dist: real,
                         dx: real, dy: real, grounded: bool, dt: real, roll: real)

  /** The new state plus the coroutines and movement one `Update` started. */
  datatype Frame = Frame(state: State, wakeStarted: bool, chased: bool,
                         bite: bool, leap: bool, burst: bool)

  function Start(facingRight: bool): (s: State)
    ensures s.life == Spawned(MaxHealth) && !s.hasWoken && !s.wakingUp
    ensures !s.attacking && !s.bursting && s.burstTimer == 0.0
  {
    State(Spawned(MaxHealth), false, false, facingRight, false, false, 0.0)
  }

  function Quiet(s: State): Frame
  {
    Frame(s, false, false, false, false, false)
  }

  /** `DetectPlayerInFront`: start the wake sequence unless one is pending. */
  function Detect(s: State, playerInFront: bool): (r: Frame)
    ensures r.wakeStarted <==> playerInFront && !s.wakingUp
    ensures r.state == s.(wakingUp := s.wakingUp || r.wakeStarted)
    ensures !r.chased && !r.bite && !r.leap && !r.burst
  {
    if playerInFront && !s.wakingUp then Frame(s.(wakingUp := true), true, false, false, false, false)
    else Quiet(s)
  }

  /** The awake branch of `Update`: chase, face the player, bite when close,
      leap when the player is above and the snake grounded, and roll for a
      burst every `BurstCooldown` seconds. Starting a bite or a leap sets
      `attacking` at once, so later checks in the same frame see it. */
  function Act(s: State, c: Config, sense: Sense): (r: Frame)
    ensures r.chased <==> !s.attacking && !s.bursting
    ensures r.bite <==> !s.attacking && !s.bursting && sense.dist <= c.biteRange
    ensures r.leap <==> !s.attacking && !s.bursting && !r.bite && sense.dy > LeapHeight && sense.grounded
    ensures r.state.attacking == (s.attacking || r.bite || r.leap)
    ensures r.burst <==> c.enableBurst && !r.state.attacking && !s.bursting &&
                         s.burstTimer + sense.dt >= BurstCooldown && sense.roll < BurstChance
    ensures c.enableBurst && !r.state.attacking && !s.bursting ==>
              r.state.burstTimer == (if s.burstTimer + sense.dt >= BurstCooldown then 0.0 else s.burstTimer + sense.dt)
    ensures !(c.enableBurst && !r.state.attacking && !s.bursting) ==> r.state.burstTimer == s.burstTimer
    ensures r.state.bursting == (s.bursting || r.burst)
    ensures r.state.facingRight == Turn(s.facingRight, sense.dx, c.flipDeadzone)
    ensures r.state.life == s.life && r.state.hasWoken == s.hasWoken && r.state.wakingUp == s.wakingUp
    ensures !r.wakeStarted
  {
    var chased := !s.attacking && !s.bursting;
    var facing := Turn(s.facingRight, sense.dx, c.flipDeadzone);
    var bite := !s.attacking && !s.bursting && sense.dist <= c.biteRange;
    var s1 := s.(facingRight := facing, attacking := s.attacking || bite);
    var leap := !s1.attacking && !s1.bursting && sense.dy > LeapHeight && sense.grounded;
    var s2 := s1.(attacking := s1.attacking || leap);
    if c.enableBurst && !s2.attacking && !s2.bursting then
      var t := s2.burstTimer + sense.dt;
      if t >= BurstCooldown then
        var burst := sense.roll < BurstChance;
        Frame(s2.(burstTimer := 0.0, bursting := burst), false, chased, bite, leap, burst)
      else Frame(s2.(burstTimer := t), false, chased, bite, leap, false)
    else Frame(s2, false, chased, bite, leap, false)
  }

  /** `Update`. */
  function Update(s: State, c: Config, sense: Sense): (r: Frame)
    ensures s.life.dead || !sense.playerPresent ==> r == Quiet(s)
    ensures !s.hasWoken ==> !r.chased && !r.bite && !r.leap && !r.burst
    ensures !s.hasWoken ==> r.state == s.(wakingUp := r.state.wakingUp)
    ensures r.wakeStarted <==>
              !s.life.dead && sense.playerPresent && !s.hasWoken && sense.playerInFront && !s.wakingUp
    ensures r.leap ==> !s.attacking && !s.bursting && sense.dy > LeapHeight && sense.grounded
    ensures r.state.hasWoken == s.hasWoken && r.state.life == s.life
  {
    if s.life.dead || !sense.playerPresent then Quiet(s)
    else if !s.hasWoken then Detect(s, sense.playerInFront)
    else Act(s, c, sense)
  }

  /** The end of `WakeUpSequence`: the snake is awake for good. */
  function FinishWake(s: State): (r: State)
    ensures r.hasWoken && !r.wakingUp
    ensures r.(hasWoken := s.hasWoken, wakingUp := s.wakingUp) == s
  {
    s.(hasWoken := true, wakingUp := false)
  }

  /** The end of `BiteAttack` or `LeapToPlatform`. */
  function FinishAttack(s: State): (r: State)
    ensures !r.attacking && r.(attacking := s.attacking) == s
  {
    s.(attacking := false)
  }

  /** The end of `BurstTowardsPlayer`. */
  function FinishBurst(s: State): (r: State)
    ensures !r.bursting && r.(bursting := s.bursting) == s
  {
    s.(bursting := false)
  }

  /** The bite's damage pass (after its wind-up): every other collider with a
      player health component takes `BiteDamage`. */
  function BiteHits(hits: seq<Collider>): (r: seq<Blow>)
    ensures forall b :: b in r ==> b.damage == BiteDamage && b.mana == NoPayout
    ensures forall b :: b in r ==> exists c :: c in hits && c.id == b.target && c.hasHealth && !c.isSelf
    ensures forall c :: c in hits && c.hasHealth && !c.isSelf ==> exists b :: b in r && b.target == c.id
    ensures DistinctIds(hits) ==> OneBlowEach(r)
  {
    MeleeSweep(hits, true, BiteDamage, NoPayout)
  }

  datatype Hurt = Hurt(state: State, payout: Payout)

  /** `TakeDamage`: nothing once dead; otherwise the wound, 10 mana to the
      player found in the scene (if any), and death at zero or below. */
  function TakeDamage(s: State, damage: int, playerExists: bool): (r: Hurt)
    ensures s.life.dead ==> r == Hurt(s, NoPayout)
    ensures !s.life.dead ==> r.state.life.health == s.life.health - damage
    ensures !s.life.dead ==> (r.state.life.dead <==> r.state.life.health <= 0)
    ensures !s.life.dead ==> r.payout == AnyPlayerReward(playerExists, HitMana)
    ensures r.state.(life := s.life) == s
  {
    if s.life.dead then Hurt(s, NoPayout)
    else Hurt(s.(life := Wound(s.life, damage)), AnyPlayerReward(playerExists, HitMana))
  }

  // ---------------------------------------------------------------------------
  // Runs of events
  // ---------------------------------------------------------------------------

  datatype Event = Tick(sense: Sense) | WakeDone | AttackDone | BurstDone
                 | Hit(damage: int, playerExists: bool)

  function Step(s: State, c: Config, e: Event): State
  {
    match e
    case Tick(sense) => Update(s, c, sense).state
    case WakeDone => FinishWake(s)
    case AttackDone => FinishAttack(s)
    case BurstDone => FinishBurst(s)
    case Hit(d, p) => TakeDamage(s, d, p).state
  }

  function Run(s: State, c: Config, events: seq<Event>): State
    decreases |events|
  {
    if |events| == 0 then s else Run(Step(s, c, events[0]), c, events[1..])
  }

  /** Once awake, the snake stays awake whatever happens. */
  lemma {:induction false} WokenForever(s: State, c: Config, events: seq<Event>)
    requires s.hasWoken
    ensures Run(s, c, events).hasWoken
    decreases |events|
  {
    if |events| > 0 {
      WokenForever(Step(s, c, events[0]), c, events[1..]);
    }
  }

  /** How many wake-up sequences a run of frames starts. */
  function WakeStarts(s: State, c: Config, senses: seq<Sense>): nat
    decreases |senses|
  {
    if |senses| == 0 then 0
    else
      var f := Update(s, c, senses[0]);
      (if f.wakeStarted then 1 else 0) + WakeStarts(f.state, c, senses[1..])
  }

  /** While the wake delay runs, frames start at most one wake-up sequence in
      all, and none when one is already pending. */
  lemma {:induction false} OneWakePending(s: State, c: Config, senses: seq<Sense>)
    ensures WakeStarts(s, c, senses) <= 1
    ensures s.wakingUp ==> WakeStarts(s, c, senses) == 0
    decreases |senses|
  {
    if |senses| > 0 {
      var f := Update(s, c, senses[0]);
      assert f.wakeStarted ==> f.state.wakingUp;
      assert s.wakingUp ==> f.state.wakingUp;
      OneWakePending(f.state, c, senses[1..]);
    }
  }
}

=== FILE: soul.dfy ===
/** The two soul casters, `Soul` and `SoulHorn`, which share one behaviour
    and differ only in their volley: within the detection radius a soul
    chases the player, turns with a deadzone, charges and fires a volley of
    beams (a fan of `beamCount` straight beams for `Soul`, two homing beams
    for `SoulHorn`), and strikes in melee range on a cooldown latch. Every
    hit from an attacker with the player's health component pays it 30 mana.
 */
module Soul {
  import opened Common

  const HitMana: real := 30.0

  /** The volley a caster fires. */
  datatype Kind = Spread(beamCount: int, spreadAngle: real) | Horn

  /** `hasSprite` and `hasFirePoint` say whether the child sprite renderer and
      the fire point are present; `savedFireX` is the fire point's local x as
      `Awake` saved it. */
  datatype Config = Config(kind: Kind, maxHealth: int, chaseSpeed: real, detectRadius: real,
                           flipDeadzone: real, spriteFacesRight: bool, hasSprite: bool,
                           hasFirePoint: bool, savedFireX: real,
                           meleeRange: real, meleeDamage: int,
                           beamDamage: int, beamSpeed: real, beamLifetime: real)

  const SoulDefaults: Config := Config(Spread(3, 15.0), 800, 5.0, 4.0, 0.1, false, true, true, 0.0,
                                       1.5, 50, 30, 12.0, 3.0)
  const HornDefaults: Config := Config(Horn, 800, 5.0, 4.0, 0.1, false, true, true, 0.0,
                                       1.5, 50, 30, 12.0, 3.0)

  // ---------------------------------------------------------------------------
  // Facing and the fire point
  // ---------------------------------------------------------------------------

  /** The sprite's `flipX`, and the fire point's local x and z rotation. */
  datatype Visual = Visual(flipX: bool, fireX: real, fireRotation: real)

  function Abs(x: real): (r: real)
    ensures r >= 0.0 && (r == x || r == -x)
  {
    if x >= 0.0 then x else -x
  }

  /** `UpdateSpriteFlipAndFirePoint`: flip the sprite against its art's own
      facing, and mirror the fire point to the facing side, pointing out. */
  function Orient(c: Config, v: Visual, facingRight: bool): (r: Visual)
    ensures c.hasSprite ==> r.flipX == (if c.spriteFacesRight then !facingRight else facingRight)
    ensures !c.hasSprite ==> r.flipX == v.flipX
    ensures c.hasFirePoint ==> r.fireX == (if facingRight then Abs(c.savedFireX) else -Abs(c.savedFireX))
    ensures c.hasFirePoint ==> r.fireRotation == (if facingRight then 0.0 else 180.0)
    ensures !c.hasFirePoint ==> r.fireX == v.fireX && r.fireRotation == v.fireRotation
  {
    var flip := if c.hasSprite then (if c.spriteFacesRight then !facingRight else facingRight) else v.flipX;
    if c.hasFirePoint then
      Visual(flip, if facingRight then Abs(c.savedFireX) else -Abs(c.savedFireX),
             if facingRight then 0.0 else 180.0)
    else v.(flipX := flip)
  }

  /** Which way the rendered sprite looks: its art's facing, reversed when flipped. */
  predicate LooksRight(spriteFacesRight: bool, flipX: bool)
  {
    spriteFacesRight != flipX
  }

  /** The appearance agrees with `facingRight`: the sprite looks that way and
      the fire point sits on that side at the saved distance, pointing out. */
  predicate Oriented(c: Config, v: Visual, facingRight: bool)
  {
    (c.hasSprite ==> LooksRight(c.spriteFacesRight, v.flipX) == facingRight) &&
    (c.hasFirePoint ==> (v.fireX >= 0.0 <==> facingRight || c.savedFireX == 0.0) &&
                        Abs(v.fireX) == Abs(c.savedFireX) &&
                        (v.fireRotation == 0.0 <==> facingRight))
  }

  /** Orienting always makes the appearance agree with the facing, whatever
      way the art was drawn. */
  lemma OrientAgrees(c: Config, v: Visual, facingRight: bool)
    ensures Oriented(c, Orient(c, v, facingRight), facingRight)
  {
  }

  // ---------------------------------------------------------------------------
  // The volley
  // ---------------------------------------------------------------------------

  /** How a beam flies: at a fixed angle (degrees, in the soul's frame) or
      homing on the player. */
  datatype Aim = Angle(degrees: real) | Homing

  datatype Beam = Beam(aim: Aim, damage: int, speed: real, lifetime: real)

  /** The spacing between neighbouring beams of a fan. */
  function Step(count: int, spread: real): real
  {
    if count > 1 then spread / (count - 1) as real else 0.0
  }

  /** Beam `i`'s angle offset in a fan of `count` beams over `spread` degrees. */
  function Offset(i: int, count: int, spread: real): real
  {
    -spread / 2.0 + Step(count, spread) * i as real
  }

  /** The beams `ShootSoulBeam` spawns for a soul facing `facingRight`
      (assuming the fire point is there). */
  function Volley(c: Config, facingRight: bool): (r: seq<Beam>)
    ensures c.kind.Horn? ==> |r| == 2
    ensures c.kind.Spread? ==> |r| == if c.kind.beamCount > 0 then c.kind.beamCount else 0
    ensures forall b :: b in r ==> b.damage == c.beamDamage
    ensures c.kind.Horn? ==> forall b :: b in r ==> b == Beam(Homing, c.beamDamage, c.beamSpeed * 0.7, 2.0)
    ensures c.kind.Spread? ==> forall i :: 0 <= i < |r| ==>
              r[i] == Beam(Angle((if facingRight then 0.0 else 180.0) + Offset(i, c.kind.beamCount, c.kind.spreadAngle)),
                           c.beamDamage, c.beamSpeed, c.beamLifetime)
  {
    match c.kind
    case Horn => [Beam(Homing, c.beamDamage, c.beamSpeed * 0.7, 2.0), Beam(Homing, c.beamDamage, c.beamSpeed * 0.7, 2.0)]
    case Spread(count, spread) =>
      var base := if facingRight then 0.0 else 180.0;
      seq(if count > 0 then count else 0,
          i => Beam(Angle(base + Offset(i, count, spread)), c.beamDamage, c.beamSpeed, c.beamLifetime))
  }

  /** The fan spans the spread exactly: the first beam at -spread/2, the last
      at +spread/2. */
  lemma FanSpan(count: int, spread: real)
    requires count > 1
    ensures Offset(0, count, spread) == -spread / 2.0
    ensures Offset(count - 1, count, spread) == spread / 2.0
  {
    var k := (count - 1) as real;
    assert Step(count, spread) * k == spread;
  }

  /** With a positive spread the beams fan out in order, each further
      counter-clockwise than the one before. */
  lemma FanIncreasing(count: int, spread: real, i: int, j: int)
    requires count > 1 && spread > 0.0
    requires 0 <= i < j < count
    ensures Offset(i, count, spread) < Offset(j, count, spread)
  {
    var step := Step(count, spread);
    assert step > 0.0;
    assert step * j as real - step * i as real == step * (j - i) as real;
    assert step * (j - i) as real > 0.0;
  }

  /** The fan is symmetric about the fire direction: beam `i` and beam
      `count - 1 - i` lie at opposite offsets. */
  lemma FanSymmetric(count: int, spread: real, i: int)
    requires count > 1
    requires 0 <= i < count
    ensures Offset(i, count, spread) + Offset(count - 1 - i, count, spread) == 0.0
  {
    var step := Step(count, spread);
    var k := (count - 1) as real;
    assert step * k == spread;
    assert step * i as real + step * (count - 1 - i) as real == step * k;
  }

  /** A fan of one beam is not centred: its only beam flies at -spread/2. */
  lemma LoneBeamOffCentre(spread: real)
    ensures Offset(0, 1, spread) == -spread / 2.0
  {
  }

  // ---------------------------------------------------------------------------
  // State and frames
  // ---------------------------------------------------------------------------

  /** Where the charge-and-shoot coroutine stands: none running, charging,
      in the short pause after the shot, or abandoned by an exception thrown
      while shooting (which leaves `isAttacking` set for good). */
  datatype Volleying = Ready | Charging | Pausing | Stuck

  datatype State = State(life: Life, facingRight: bool, volley: Volleying, canMelee: bool, visual: Visual)

  /** `Start`: facing the way the art faces, and oriented to match. */
  function Start(c: Config, v: Visual): (s: State)
    ensures s.life == Spawned(c.maxHealth) && s.facingRight == c.spriteFacesRight
    ensures s.volley == Ready && s.canMelee
    ensures Oriented(c, s.visual, s.facingRight)
  {
    OrientAgrees(c, v, c.spriteFacesRight);
    State(Spawned(c.maxHealth), c.spriteFacesRight, Ready, true, Orient(c, v, c.spriteFacesRight))
  }

  /** One frame's view: the player, its distance and horizontal offset, and
      whether it carries a player health component. */
  datatype Sense = Sense(playerPresent: bool, dist: real, dx: real, playerHasHealth: bool)

  /** The new state, the horizontal velocity written (None: untouched),
      whether a volley and a melee attack started, and the melee damage dealt. */
  datatype Frame = Frame(state: State, vx: Option<real>, volley: bool, melee: bool, meleeHit: Option<int>)

  predicate Engaged(s: State, c: Config, sense: Sense)
  {
    !s.life.dead && sense.playerPresent && sense.dist <= c.detectRadius
  }

  /** `Update`: within the detection radius, start a volley unless one is
      running, chase and turn, and strike in melee range when the latch is
      up; the strike happens at once, at the distance just measured, and
      does not ask whether the player is already dead. */
  function Update(s: State, c: Config, sense: Sense): (r: Frame)
    ensures !Engaged(s, c, sense) ==> r == Frame(s, None, false, false, None)
    ensures r.volley <==> Engaged(s, c, sense) && s.volley == Ready
    ensures r.state.volley == if r.volley then Charging else s.volley
    ensures Engaged(s, c, sense) ==>
              r.vx == Some(ChaseVelocity(sense.dx, c.chaseSpeed)) &&
              r.state.facingRight == Turn(s.facingRight, sense.dx, c.flipDeadzone)
    ensures r.melee <==> Engaged(s, c, sense) && sense.dist <= c.meleeRange && s.canMelee
    ensures r.state.canMelee == (s.canMelee && !r.melee)
    ensures r.meleeHit.Some? <==> r.melee && sense.playerHasHealth
    ensures r.meleeHit.Some? ==> r.meleeHit.value == c.meleeDamage
    ensures Oriented(c, s.visual, s.facingRight) ==> Oriented(c, r.state.visual, r.state.facingRight)
    ensures r.state.life == s.life
  {
    if !Engaged(s, c, sense) then Frame(s, None, false, false, None)
    else
      var volley := s.volley == Ready;
      var facing := Turn(s.facingRight, sense.dx, c.flipDeadzone);
      var visual := if facing != s.facingRight then Orient(c, s.visual, facing) else s.visual;
      OrientAgrees(c, s.visual, facing);
      var melee := sense.dist <= c.meleeRange && s.canMelee;
      var hit := if melee && sense.playerHasHealth then Some(c.meleeDamage) else None;
      Frame(State(s.life, facing, if volley then Charging else s.volley, s.canMelee && !melee, visual),
            Some(ChaseVelocity(sense.dx, c.chaseSpeed)), volley, melee, hit)
  }

  datatype Shot = Shot(state: State, beams: seq<Beam>, threw: bool)

  /** The end of the charge: fire the volley and pause. Without a fire point
      the first beam's fire point read throws before anything is spawned, the
      coroutine is abandoned, and `isAttacking` is never cleared. Disabling
      the script on death does not stop coroutines, so a volley charged
      before death still fires. */
  function Fire(s: State, c: Config): (r: Shot)
    ensures s.volley != Charging ==> r == Shot(s, [], false)
    ensures s.volley == Charging ==>
              (r.threw <==> !c.hasFirePoint && |Volley(c, s.facingRight)| > 0) &&
              (r.threw ==> r.beams == [] && r.state.volley == Stuck) &&
              (!r.threw ==> r.beams == Volley(c, s.facingRight) && r.state.volley == Pausing)
    ensures r.state == s.(volley := r.state.volley)
  {
    if s.volley != Charging then Shot(s, [], false)
    else if !c.hasFirePoint && |Volley(c, s.facingRight)| > 0 then Shot(s.(volley := Stuck), [], true)
    else Shot(s.(volley := Pausing), Volley(c, s.facingRight), false)
  }

  /** The end of the pause after a volley: `isAttacking` cleared. */
  function Rearm(s: State): (r: State)
    ensures s.volley == Pausing ==> r == s.(volley := Ready)
    ensures s.volley != Pausing ==> r == s
  {
    if s.volley == Pausing then s.(volley := Ready) else s
  }

  /** The end of the melee cooldown. */
  function MeleeReady(s: State): (r: State)
    ensures r.canMelee && r.(canMelee := s.canMelee) == s
  {
    s.(canMelee := true)
  }

  datatype Hurt = Hurt(state: State, payout: Payout, knockback: bool)

  /** `TakeDamage` and `Die`: ignored once dead; otherwise the wound, and from
      an attacker a knockback plus 30 mana when it carries the player's
      health component (the killing blow included). */
  function TakeDamage(s: State, damage: int, attacker: Attacker): (r: Hurt)
    ensures s.life.dead ==> r == Hurt(s, NoPayout, false)
    ensures r.state.life == Wound(s.life, damage)
    ensures !s.life.dead ==> r.payout == PlayerReward(attacker, HitMana)
    ensures !s.life.dead ==> (r.knockback <==> attacker != NoAttacker)
    ensures r.state == s.(life := r.state.life)
  {
    if s.life.dead then Hurt(s, NoPayout, false)
    else Hurt(s.(life := Wound(s.life, damage)), PlayerReward(attacker, HitMana), attacker != NoAttacker)
  }

  // ---------------------------------------------------------------------------
  // Runs
  // ---------------------------------------------------------------------------

  datatype Event = Tick(sense: Sense) | Fired | Rearmed | Cooled | Hit(damage: int, attacker: Attacker)

  function StepEvent(s: State, c: Config, e: Event): Frame
  {
    match e
    case Tick(sense) => Update(s, c, sense)
    case Fired => Frame(Fire(s, c).state, None, false, false, None)
    case Rearmed => Frame(Rearm(s), None, false, false, None)
    case Cooled => Frame(MeleeReady(s), None, false, false, None)
    case Hit(d, a) => Frame(TakeDamage(s, d, a).state, None, false, false, None)
  }

  function Run(s: State, c: Config, events: seq<Event>): State
    decreases |events|
  {
    if |events| == 0 then s else Run(StepEvent(s, c, events[0]).state, c, events[1..])
  }

  function Volleys(s: State, c: Config, events: seq<Event>): nat
    decreases |events|
  {
    if |events| == 0 then 0
    else
      var f := StepEvent(s, c, events[0]);
      (if f.volley then 1 else 0) + Volleys(f.state, c, events[1..])
  }

  function Melees(s: State, c: Config, events: seq<Event>): nat
    decreases |events|
  {
    if |events| == 0 then 0
    else
      var f := StepEvent(s, c, events[0]);
      (if f.melee then 1 else 0) + Melees(f.state, c, events[1..])
  }

  /** The appearance keeps agreeing with the facing through any run. */
  lemma {:induction false} RunStaysOriented(s: State, c: Config, events: seq<Event>)
    requires Oriented(c, s.visual, s.facingRight)
    ensures Oriented(c, Run(s, c, events).visual, Run(s, c, events).facingRight)
    decreases |events|
  {
    if |events| > 0 {
      var next := StepEvent(s, c, events[0]).state;
      assert Oriented(c, next.visual, next.facingRight);
      RunStaysOriented(next, c, events[1..]);
    }
  }

  /** The melee latch: between two cooldown ends at most one melee attack
      starts, and none while the latch is down. */
  lemma {:induction false} OneMeleePerCooldown(s: State, c: Config, events: seq<Event>)
    requires forall i :: 0 <= i < |events| ==> !events[i].Cooled?
    ensures Melees(s, c, events) <= 1
    ensures !s.canMelee ==> Melees(s, c, events) == 0
    decreases |events|
  {
    if |events| > 0 {
      var f := StepEvent(s, c, events[0]);
      assert f.melee || !s.canMelee ==> !f.state.canMelee;
      OneMeleePerCooldown(f.state, c, events[1..]);
    }
  }

  /** Volleys never overlap: until a volley's pause ends at most one starts,
      and none while one is running. */
  lemma {:induction false} OneVolleyAtATime(s: State, c: Config, events: seq<Event>)
    requires forall i :: 0 <= i < |events| ==> !events[i].Rearmed?
    ensures Volleys(s, c, events) <= 1
    ensures s.volley != Ready ==> Volleys(s, c, events) == 0
    decreases |events|
  {
    if |events| > 0 {
      var f := StepEvent(s, c, events[0]);
      assert f.volley || s.volley != Ready ==> f.state.volley != Ready;
      OneVolleyAtATime(f.state, c, events[1..]);
    }
  }

  /** A caster without a fire point fires at most one volley in its life:
      the shot throws, and the abandoned coroutine never clears `isAttacking`. */
  lemma {:induction false} StuckNeverFiresAgain(s: State, c: Config, events: seq<Event>)
    requires s.volley == Stuck
    ensures Volleys(s, c, events) == 0
    ensures Run(s, c, events).volley == Stuck
    decreases |events|
  {
    if |events| > 0 {
      var f := StepEvent(s, c, events[0]);
      assert f.state.volley == Stuck && !f.volley;
      StuckNeverFiresAgain(f.state, c, events[1..]);
    }
  }
}

=== FILE: wave_spawner.dfy ===
/** The first level's wave spawner: waves 1 to `totalWaves`, each spawning
    a fixed number of enemies one at a time, flying or ground (left or right
    spawn point) by random draws whose odds depend on the wave; afterwards the
    "Level Cleared!" text and the load of the next level. The waits are not
    modelled; the random draws are a parameter.
 */
module WaveSpawner {
  import opened Common

  const NextLevel: string := "Level_2"
  const DefaultTotalWaves: int := 4

  /** `GetEnemyCountForWave`. */
  function EnemyCount(wave: int): (n: nat)
    ensures n > 0 <==> 1 <= wave <= 4
    ensures wave == 1 ==> n == 3
    ensures wave == 2 ==> n == 6
    ensures wave == 3 ==> n == 8
    ensures wave == 4 ==> n == 10
  {
    match wave
    case 1 => 3
    case 2 => 6
    case 3 => 8
    case 4 => 10
    case _ => 0
  }

  datatype Spawn = Ground(left: bool) | Flying

  /** The two `Random.value` draws one spawn may consume: the first decides
      flying or ground (and, in wave 1, which side), the second the side of a
      ground enemy in waves 2 to 4. */
  datatype Draw = Draw(first: real, second: real)

  /** The chance threshold above which waves 2, 3 and 4 spawn a flying enemy. */
  function FlyingAbove(wave: int): real
    requires 2 <= wave <= 4
  {
    if wave == 2 then 0.7 else if wave == 3 then 0.5 else 0.3
  }

  /** `SpawnEnemy` with `SpawnGroundEnemy`/`SpawnFlyingEnemy`: waves outside
      1..4 spawn nothing. */
  function SpawnEnemy(wave: int, d: Draw): (r: Option<Spawn>)
    ensures r.Some? <==> 1 <= wave <= 4
    ensures wave == 1 ==> r == Some(Ground(d.first > 0.5))
    ensures 2 <= wave <= 4 ==> (r == Some(Flying) <==> d.first > FlyingAbove(wave))
    ensures 2 <= wave <= 4 && d.first <= FlyingAbove(wave) ==> r == Some(Ground(d.second > 0.5))
  {
    if wave == 1 then Some(Ground(d.first > 0.5))
    else if 2 <= wave <= 4 then
      if d.first > FlyingAbove(wave) then Some(Flying) else Some(Ground(d.second > 0.5))
    else None
  }

  // ---------------------------------------------------------------------------
  // Reference plan of the whole run
  // ---------------------------------------------------------------------------

  function AsSeq(o: Option<Spawn>): seq<Spawn>
  {
    if o.Some? then [o.value] else []
  }

  /** The first `n` spawns of a wave, `draw(wave, i)` supplying the i-th spawn's draws. */
  function WaveSpawns(wave: int, draw: (int, nat) -> Draw, n: nat): seq<Spawn>
  {
    if n == 0 then [] else WaveSpawns(wave, draw, n - 1) + AsSeq(SpawnEnemy(wave, draw(wave, n - 1)))
  }

  /** Everything waves 1..n spawn, in order. */
  function Plan(n: nat, draw: (int, nat) -> Draw): seq<Spawn>
  {
    if n == 0 then [] else Plan(n - 1, draw) + WaveSpawns(n, draw, EnemyCount(n))
  }

  /** Enemies in waves 1..n. */
  function Total(n: nat): nat
  {
    if n == 0 then 0 else Total(n - 1) + EnemyCount(n)
  }

  lemma {:induction false} WaveSize(wave: int, draw: (int, nat) -> Draw, n: nat)
    ensures 1 <= wave <= 4 ==> |WaveSpawns(wave, draw, n)| == n
    ensures !(1 <= wave <= 4) ==> WaveSpawns(wave, draw, n) == []
  {
    if n > 0 {
      WaveSize(wave, draw, n - 1);
    }
  }

  /** Waves 1..n spawn exactly `Total(n)` enemies. */
  lemma {:induction false} PlanSize(n: nat, draw: (int, nat) -> Draw)
    ensures |Plan(n, draw)| == Total(n)
  {
    if n > 0 {
      PlanSize(n - 1, draw);
      WaveSize(n, draw, EnemyCount(n));
    }
  }

  /** The four waves hold 27 enemies, and waves past the fourth add none. */
  lemma {:induction false} TotalAfterFour(n: nat)
    requires n >= 4
    ensures Total(n) == 27
  {
    if n > 4 {
      TotalAfterFour(n - 1);
    }
  }

  /** Wave 1 spawns ground enemies only. */
  lemma {:induction false} FirstWaveGrounded(draw: (int, nat) -> Draw, n: nat)
    ensures forall e :: e in WaveSpawns(1, draw, n) ==> e.Ground?
  {
    if n > 0 {
      FirstWaveGrounded(draw, n - 1);
    }
  }

  // ---------------------------------------------------------------------------
  // The coroutine
  // ---------------------------------------------------------------------------

  /** `SpawnWaves`: returns the final wave counter, the spawns in order, and
      the scene it loads (when a scene loader is assigned). */
  method SpawnWaves(totalWaves: int, draw: (int, nat) -> Draw, loaderSet: bool)
    returns (currentWave: int, spawned: seq<Spawn>, load: Option<string>)
    ensures currentWave == if totalWaves > 0 then totalWaves else 0
    ensures spawned == Plan(currentWave, draw)
    ensures |spawned| == Total(currentWave)
    ensures load.Some? <==> loaderSet
    ensures load.Some? ==> load.value == NextLevel
  {
    currentWave := 0;
    spawned := [];
    while currentWave < totalWaves
      invariant 0 <= currentWave
      invariant currentWave <= totalWaves || currentWave == 0
      invariant spawned == Plan(currentWave, draw)
    {
      currentWave := currentWave + 1;
      var enemyCount := EnemyCount(currentWave);
      var i := 0;
      var wave := [];
      while i < enemyCount
        invariant 0 <= i <= enemyCount
        invariant wave == WaveSpawns(currentWave, draw, i)
      {
        var e := SpawnEnemy(currentWave, draw(currentWave, i));
        if e.Some? {
          wave := wave + [e.value];
        }
        i := i + 1;
      }
      spawned := spawned + wave;
    }
    PlanSize(currentWave, draw);
    load := if loaderSet then Some(NextLevel) else None;
  }
}
